=== FILE: README.md ===
# School bell system — a verified model of its core

The school bell system rings the bells of a school from a weekly timetable.
A schedule has a name, a weekday (`Senin` … `Minggu`), an `HH:MM` time, an
audio file and an active flag. Two engines ring the bells:

- the **server** (Flask, Python) turns the active schedules into weekly cron
  jobs (`scheduler.py`, and a second copy under
  `mnt/user-data/outputs/school-bell-system/scheduler.py`), plays the audio
  through the `audio_player` module, and serves the upload, status, settings,
  manual-play and sync endpoints behind a session login (`app.py`, `auth.py`).
  `audio_player.py` is not part of this model. `audio_player_alternative.py`
  is modelled instead. It is a Windows-compatible alternative to that
  module, nothing imports it, and it plays through whichever backend imports;
- the **installable web app** checks the clock itself (`static/js/pwa-scheduler.js`).
  It fires every active schedule whose day and `HH:MM` match, writes a play log
  capped at 100 entries, and arms a reminder one minute before the next bell.
  It plays through Web Audio with a byte cache, falling back to HTML5 audio
  (`static/js/pwa-audio.js`), and shows today's list, the connectivity and the
  volume slider (`static/js/pwa-ui.js`).

Smaller pages complete the picture:

- a kiosk page that counts down to the next bell (`client/player.js`);
- the play-log page (`static/js/logs.js`);
- the audio-library upload form (`static/js/audio.js`).

The Dafny project has one module per source file plus four shared modules:

- `Text`: decimal text, string order, splitting;
- `JsNumbers`: what JavaScript's `Number` reads from a text;
- `Clock`: `HH:MM`, weekday tables, the reminder delay;
- `Schedules`: records, filter, stable sort, find, edits, the log ring.

Code that updates state in place is modelled as classes:

- `PwaScheduler.PWAScheduler`, `PwaAudio.PWAAudioPlayer` and `PwaUi.PWAUI`;
- the two `BellScheduler`s;
- `AltPlayer.AudioPlayer`;
- `ClientPlayer.ClientPlayer`.

Each of these has `modifies` frames and postconditions that state the new
state. The pure rules are functions with lemmas. Timers, threads and browser
events are explicit method calls. Network replies, storage outcomes,
decoders, `os.path.exists`, `secure_filename` and SHA-256 are parameters.

Some behaviour of the code departs from the documented design. The model
follows the code:

- Nothing remembers which schedules already fired. A second check in the same
  minute fires them again; `PwaScheduler.SameMinuteFiresTwice` shows two checks
  at 07:00:10 and 07:00:50 that both log the 07:00 bell.
- In `play`, a Web Audio decode failure rejects. It does not fall back to
  HTML5 audio, which is chosen only at `init`.
- The HTML5 `play` promise settles when the audio ends or fails, not when it
  starts.
- In holiday mode the browser writes no log at all. The server writes a
  `cancelled` log.
- Online, `loadSchedules` asks only the server. A failed request leaves the
  list as it was and does not fall back to local storage.
- `init` without an audio context does not read the saved volume.
- `admin_required` is defined, but no route of `app.py` uses it.

## Model

| member | source | states |
|---|---|---|
| `Text.Pad2` | static/js/pwa-scheduler.js:361-362 | `padStart(2, '0')` text is all digits, at least two long, two digits below 100, and reads back as the number |
| `Text.NatToString` | app.py:321 | `str` of a natural number is non-empty decimal digits of the right length |
| `Text.NatToStringValue` | app.py:321 | the decimal text of `n` reads back as `n` |
| `Text.IntToString` | scheduler.py:90 | `str` of an integer is non-empty |
| `Text.IntToStringInjective` | scheduler.py:90 | different schedule ids give different texts |
| `Text.Lower` | app.py:25 | lower-casing keeps the length |
| `Text.LastIndexOf` | static/js/audio.js:108 | `lastIndexOf` is -1 exactly when the character is absent, otherwise the position of its last occurrence |
| `Text.Split` | static/js/pwa-scheduler.js:230 | `split(':')` gives at least one piece and no piece holds the separator |
| `Text.SplitJoin` | static/js/pwa-scheduler.js:230 | joining the pieces of a split with the separator gives the text back |
| `Clock.FormatTime` | static/js/pwa-scheduler.js:360-364 | `formatTime` (also `static/js/pwa-ui.js` 438-442) is five characters: two digits reading as the hour, a colon, two digits reading as the minute |
| `Clock.FormatTimeOrder` | static/js/pwa-scheduler.js:210 | string `<` on formatted times holds exactly when the first is earlier in the day |
| `Clock.JsClockFormatTime` | static/js/pwa-scheduler.js:230 | `split(':').map(Number)` reads every `HH:MM` the pages write back as its hour and minute |
| `Clock.JsClockPieces` | static/js/pwa-scheduler.js:230-232 | any text `a:b` reads as `Number` of each piece, truncated toward zero as `setHours` does |
| `Clock.JsClockWhole` | static/js/pwa-scheduler.js:230-232 | pieces that `Number` reads as whole numbers give exactly those hour and minute |
| `Clock.JsClockNonNumeral` | static/js/pwa-scheduler.js:230-232 | a piece `Number` rejects makes the date invalid |
| `Clock.JsClockDigits` | static/js/pwa-scheduler.js:230-232 | digit pieces of any length read as their values; an empty piece reads as 0 |
| `Clock.JsClockPadded` | static/js/pwa-scheduler.js:230-232 | white space around the hour piece does not change the reading |
| `Clock.JsClock` | static/js/pwa-scheduler.js:230-232 | a text without a colon has no minute piece, and the date is invalid |
| `Clock.CronClock` | scheduler.py:59 | Python's parse plus the cron range check gives an hour below 24 and a minute below 60, and reads every formatted time back |
| `Clock.JsDayName` | static/js/pwa-scheduler.js:355-358 | `getDayName(i)` is the name the server's day map sends to `(i + 6) % 7` |
| `Clock.AppDayName` | app.py:272 | the status page's Monday-first table agrees with the day map and with `getDayName` shifted by one |
| `Clock.PyDayNumber` | scheduler.py:62-72 | the day map gives numbers 0 to 6 |
| `Clock.PyDayNumberInverse` | scheduler.py:62-76 | the day map knows exactly the seven day names and inverts the Monday-first table |
| `Clock.ReminderDelay` | static/js/pwa-scheduler.js:229-242 | the delay exists exactly when the time text reads as a clock; for an hour 0-23 and a minute 0-59 it lies in (-60000, 86340000] ms |
| `Clock.NegativeHourRollsOver` | static/js/pwa-scheduler.js:229-242 | a time on or before this morning's midnight (such as `-1:30`) aims at that time of day after the coming midnight |
| `Clock.TimerDelay` | static/js/pwa-scheduler.js:244-249 | `setTimeout` waits in [0, 2^31) ms: exactly the delay below 2^31, and 0 for a delay in [2^31, 2^32) |
| `Clock.LaterClockIsLater` | static/js/pwa-scheduler.js:210 | a bell whose `HH:MM` is string-later than the clock text is later today |
| `Clock.ReminderDelaySameDay` | static/js/pwa-scheduler.js:231-239 | for any time text reading as a clock later today, the delay is the time until it less one minute, with no roll-over |
| `Clock.ReminderTargetsNextOccurrence` | static/js/pwa-scheduler.js:231-242 | for any time text reading as a clock within the day, delay plus one minute reaches the first instant strictly after now with that time of day |
| `Clock.FirstOccurrence` | static/js/pwa-scheduler.js:234-237 | today if strictly later, else tomorrow, is the earliest later instant with that time of day |
| `JsNumbers.TrimJs` | static/js/pwa-scheduler.js:230 | the white space `Number` ignores is gone from both ends, and the text only shrinks |
| `JsNumbers.TrimPadded` | static/js/pwa-scheduler.js:230 | white space around a trimmed text is exactly what trimming removes |
| `JsNumbers.TrimJsPadded` | static/js/pwa-scheduler.js:230 | white space added around a text does not change its trimmed form |
| `JsNumbers.Trunc` | static/js/pwa-scheduler.js:230 | `ToIntegerOrInfinity` truncates toward zero: within one of the number, on the side of zero |
| `JsNumbers.JsNumberDigits` | static/js/pwa-scheduler.js:230 | a non-empty run of decimal digits reads as its value |
| `JsNumbers.JsNumberPadded` | static/js/pwa-scheduler.js:230 | white space around a numeral does not change what `Number` reads |
| `JsNumbers.JsNumberNegative` | static/js/pwa-scheduler.js:230 | a minus sign before digits negates their value |
| `JsNumbers.JsNumberForms` | static/js/pwa-scheduler.js:230 | examples: a sign, a fraction, a leading point, an exponent and a `0x` prefix are all read |
| `JsNumbers.JsNumberRejects` | static/js/pwa-scheduler.js:230 | a letter, and a signed hexadecimal numeral, are not numbers |
| `Schedules.Filter` | static/js/pwa-scheduler.js:161-165 | every kept schedule meets the criterion, and there are no more than before |
| `Schedules.FilterCount` | static/js/pwa-scheduler.js:161-165 | a filter keeps each matching schedule as often as it occurs and drops every other one |
| `Schedules.FilterAppend` | static/js/pwa-scheduler.js:383 | filtering keeps order: it distributes over concatenation |
| `Schedules.InsertByTime` | static/js/pwa-scheduler.js:208 | one insertion step of the stable sort adds exactly that schedule |
| `Schedules.InsertByTimeSorted` | static/js/pwa-scheduler.js:208 | inserting into a time-sorted list keeps it sorted |
| `Schedules.SortByTime` | static/js/pwa-scheduler.js:206-208 | the sort by `time` is a permutation and sorted ascending |
| `Schedules.InsertByTimeStable` | static/js/pwa-scheduler.js:206-208 | an insertion step keeps the order of the schedules that share a time |
| `Schedules.SortByTimeStable` | static/js/pwa-scheduler.js:206-208 | the sort is stable: schedules with the same time keep their list order |
| `Schedules.TodaySchedules` | static/js/pwa-scheduler.js:401-406 | `getTodaySchedules` is a sorted permutation of the active schedules of the day |
| `Schedules.FirstLaterIndex` | static/js/pwa-scheduler.js:210 | `find(s => s.time > now)` gives the first later entry, with none before it |
| `Schedules.FirstLaterIsEarliest` | static/js/pwa-scheduler.js:210 | on a sorted list the first later entry is the earliest later one |
| `Schedules.NextSchedule` | static/js/pwa-scheduler.js:408-418 | `getNextSchedule` is an active schedule of the day, strictly later than now and not later than any other such, or none exists |
| `Schedules.IndexOfId` | static/js/pwa-scheduler.js:374 | `findIndex` by id gives the first matching position, or none matches |
| `Schedules.Flip` | static/js/pwa-scheduler.js:391 | `is_active ? 0 : 1` is 0 or 1, and 1 exactly for a falsy 0 |
| `Schedules.EditFirst` | static/js/pwa-scheduler.js:373-395 | an edit keeps the length and changes nothing for an unknown id |
| `Schedules.EditFirstEditsFirst` | static/js/pwa-scheduler.js:374-376 | only the first entry with the id is edited |
| `Schedules.EditFirstAtIndex` | static/js/pwa-scheduler.js:389-391 | editing by id is editing at `findIndex`'s position, or nothing |
| `Schedules.LogPush` | static/js/pwa-scheduler.js:288-296 | `unshift` then `splice(100)` puts the entry first, keeps min(100, n + 1) entries, the rest being the old ones in order |
| `Schedules.PushAllKeepsNewest` | static/js/pwa-scheduler.js:288-296 | after several pushes the log is the new entries newest first, then the old ones, cut at 100 |
| `Schedules.RingAfterManyInsertions` | static/js/pwa-scheduler.js:291-294 | after 100 or more pushes exactly the last 100 remain, newest first |
| `PwaScheduler.EntriesShape` | static/js/pwa-scheduler.js:176-202 | no log in holiday mode; otherwise one log per fired schedule naming it, with status `success` exactly when it played |
| `PwaScheduler.Due` | static/js/pwa-scheduler.js:161-165 | every schedule a check fires is active, for today and for this minute; no more than the list holds |
| `PwaScheduler.EntryFor` | static/js/pwa-scheduler.js:276-285 | the log names the schedule, its file and the play time, is unsynced, and has status `success` exactly when the play settled, with the error message otherwise |
| `PwaScheduler.Entries` | static/js/pwa-scheduler.js:167-202 | one log per fired schedule, none in holiday mode |
| `PwaScheduler.NextReminder` | static/js/pwa-scheduler.js:205-220 | with no next bell the old reminder stays; a new reminder names the next bell and waits less than 2^31 ms |
| `PwaScheduler.Arm` | static/js/pwa-scheduler.js:243-250 | a reminder for the bell is armed exactly when the delay is positive; `setTimeout` waits that delay when it is below 2^31 |
| `PwaScheduler.FarBellRemindsAtOnce` | static/js/pwa-scheduler.js:243-250 | a bell 2^31 ms or more ahead (such as `597:00`) wraps the 32-bit delay and is announced at once |
| `PwaScheduler.WrappedDelayArmsNow` | static/js/pwa-scheduler.js:243-250 | for any time text reading as a clock whose delay lies in [2^31, 2^32) ms, the reminder is due at once |
| `PwaScheduler.ArmToday` | static/js/pwa-scheduler.js:228-250 | for a bell later today the reminder is due one minute before it, and none is armed within the last minute |
| `PwaScheduler.NextReminderToday` | static/js/pwa-scheduler.js:205-220 | the next bell is later today and the pending reminder is the one armed for it |
| `PwaScheduler.MarkSynced` | static/js/pwa-scheduler.js:339-353 | corrected sync: a log becomes synced exactly when it was synced or the server took it; nothing else changes |
| `PwaScheduler.MarkSyncedAsWritten` | static/js/pwa-scheduler.js:343-350 | the loop as written marks every log synced |
| `PwaScheduler.AsWrittenLeavesNothingPending` | static/js/pwa-scheduler.js:339-353 | as written, no log is left pending after a sync, whatever the server received |
| `PwaScheduler.AsWrittenMarksUndelivered` | static/js/pwa-scheduler.js:304-316 | a log the server never received is marked synced as written, but kept pending by the corrected sync |
| `PwaScheduler.MarkSyncedKeepsUndelivered` | static/js/pwa-scheduler.js:339-353 | after the corrected sync the pending logs are exactly the undelivered ones, in order |
| `PwaScheduler.Pending` | static/js/pwa-scheduler.js:341 | `filter(log => !log.synced)` keeps only unsynced logs |
| `PwaScheduler.PWAScheduler.constructor` | static/js/pwa-scheduler.js:3-12 | an empty list, no logs, no timers, online as the browser says |
| `PwaScheduler.PWAScheduler.LogPlay` | static/js/pwa-scheduler.js:276-302 | the log is pushed on the capped log and posted exactly when online; nothing else changes |
| `PwaScheduler.PWAScheduler.TriggerSchedule` | static/js/pwa-scheduler.js:176-203 | holiday mode neither plays nor logs; otherwise the `success`/`failed` log is pushed, and posted when online |
| `PwaScheduler.PWAScheduler.UpdateNextSchedule` | static/js/pwa-scheduler.js:205-220 | the reminder is re-armed for the next bell, and left alone when there is none |
| `PwaScheduler.PWAScheduler.TriggerAll` | static/js/pwa-scheduler.js:167-170 | every due schedule is triggered in list order: the logs are pushed in that order |
| `PwaScheduler.PWAScheduler.CheckSchedules` | static/js/pwa-scheduler.js:155-174 | fires exactly the active schedules of this day and minute, in list order, then re-arms the reminder; the list is unchanged |
| `PwaScheduler.PWAScheduler.SaveSchedules` | static/js/pwa-scheduler.js:113-125 | the backup is always written, the IndexedDB copy only when its transaction commits; the call settles exactly when the save does |
| `PwaScheduler.PWAScheduler.SyncWithServer` | static/js/pwa-scheduler.js:127-143 | the server's list replaces the local one, saved only when it differs; a failed or non-ok fetch changes nothing; it hangs exactly when a changed list meets a save that never settles |
| `PwaScheduler.PWAScheduler.LoadSchedules` | static/js/pwa-scheduler.js:37-65 | online only the server is asked, and a changed list is saved to the backup and, when its transaction commits, to IndexedDB; offline a non-empty IndexedDB copy wins, then the backup, and nothing is saved; it hangs exactly when the online sync does |
| `PwaScheduler.PWAScheduler.StartScheduleChecking` | static/js/pwa-scheduler.js:145-153 | the interval is armed and a check runs at once |
| `PwaScheduler.PWAScheduler.Init` | static/js/pwa-scheduler.js:14-35 | online the server's list is taken and saved as `loadSchedules` does; offline the IndexedDB copy or the backup is loaded; checking starts exactly when both the load and the notification-permission prompt settled, and otherwise nothing fires or logs |
| `PwaScheduler.PWAScheduler.HandleVisibilityChange` | static/js/pwa-scheduler.js:332-337 | becoming visible runs a full check; hiding changes nothing |
| `PwaScheduler.PWAScheduler.SaveThenCheck` | static/js/pwa-scheduler.js:113-125 | `await this.saveSchedules(); this.checkSchedules()`: the list is saved, and the check runs exactly when the save settles |
| `PwaScheduler.PWAScheduler.AddSchedule` | static/js/pwa-scheduler.js:367-371 | the schedule is appended and the list saved; the check runs exactly when the save settles; online state and checking are unchanged |
| `PwaScheduler.PWAScheduler.EditSchedule` | static/js/pwa-scheduler.js:373-395 | the first entry with the id is replaced by its edit; reports whether one existed |
| `PwaScheduler.PWAScheduler.UpdateSchedule` | static/js/pwa-scheduler.js:373-380 | merges the patch into the first entry with the id, then saves, and checks exactly when the save settles; an unknown id changes nothing, storage included |
| `PwaScheduler.PWAScheduler.DeleteSchedule` | static/js/pwa-scheduler.js:382-386 | every entry with the id is dropped and the rest keep their order; the list is saved, and checked exactly when the save settles |
| `PwaScheduler.PWAScheduler.ToggleSchedule` | static/js/pwa-scheduler.js:388-395 | flips the active flag of the first entry with the id, then saves, and checks exactly when the save settles; an unknown id changes nothing, storage included |
| `PwaScheduler.PWAScheduler.SyncPendingLogs` | static/js/pwa-scheduler.js:339-353 | corrected: every pending log is posted in order, and marked synced only when the server took it |
| `PwaScheduler.PWAScheduler.SyncPendingLogsAsWritten` | static/js/pwa-scheduler.js:339-353 | as written: every pending log is posted in order and every log ends marked synced |
| `PwaScheduler.PWAScheduler.HandleOnline` | static/js/pwa-scheduler.js:318-325 | corrected: goes online, syncs the schedules (backup and IndexedDB as `syncWithServer` leaves them), and posts the pending logs, marking synced only the ones delivered; neither sync is awaited, so a hanging save does not hold up the logs; checking and the reminder are unchanged |
| `PwaScheduler.PWAScheduler.HandleOnlineAsWritten` | static/js/pwa-scheduler.js:318-325 | as written: goes online, syncs the schedules (backup and IndexedDB as `syncWithServer` leaves them), posts the pending logs and marks every log synced; checking and the reminder are unchanged |
| `PwaScheduler.PWAScheduler.HandleOffline` | static/js/pwa-scheduler.js:327-330 | goes offline |
| `PwaScheduler.PWAScheduler.Destroy` | static/js/pwa-scheduler.js:420-427 | no interval and no reminder timer remain |
| `PwaScheduler.MondaySevenFires` | static/js/pwa-scheduler.js:161-170 | example: on Monday at 07:00 the active Monday 07:00 bell is due and logged |
| `PwaScheduler.SaveToIndexedDB` | static/js/pwa-scheduler.js:89-111 | as written: with no `schedules` store the promise never settles; with one it settles, committed exactly when the transaction completes |
| `PwaScheduler.SaveToIndexedDBCorrected` | static/js/pwa-scheduler.js:73-76 | corrected as `loadFromIndexedDB` checks `objectStoreNames`: the save always settles, committed exactly with a store whose transaction completes |
| `PwaScheduler.SaveVariantsAgree` | static/js/pwa-scheduler.js:89-111 | the two saves agree whenever the store exists; without it the written one hangs and the corrected one reports nothing written |
| `PwaScheduler.FirstStartNeverChecks` | static/js/pwa-scheduler.js:14-35 | as written, a first start online with a server list never starts checking, whether or not the notification prompt is answered |
| `PwaScheduler.FirstStartChecks` | static/js/pwa-scheduler.js:14-35 | with the corrected save and an answered notification prompt the same first start starts checking |
| `PwaScheduler.SameMinuteFiresTwice` | static/js/pwa-scheduler.js:332-337 | two checks within one minute both fire and log the same bell |
| `PwaAudio.Lookup` | static/js/pwa-audio.js:132-133 | `get` finds bytes exactly for a cached name, and they are that entry's |
| `PwaAudio.CacheSet` | static/js/pwa-audio.js:88 | `set` keeps a known key's place and appends a new key |
| `PwaAudio.CacheSetLookup` | static/js/pwa-audio.js:88 | after `set`, `get` of the key gives the new bytes and every other key what it gave before |
| `PwaAudio.CacheSetDistinct` | static/js/pwa-audio.js:88 | the cache never holds a name twice |
| `PwaAudio.TotalSizeSet` | static/js/pwa-audio.js:308-314 | re-caching a file replaces its bytes in the total size |
| `PwaAudio.TotalSize` | static/js/pwa-audio.js:308-314 | the total is at least the byte length of every cached entry |
| `PwaAudio.Factor` | static/js/pwa-audio.js:163 | `options.volume \|\| 1`: a missing or zero volume means 1 |
| `PwaAudio.Gain` | static/js/pwa-audio.js:163 | a missing or zero option volume leaves the master volume; an option in (0, 1] never raises it |
| `PwaAudio.Clamp01` | static/js/pwa-audio.js:240 | the volume is clamped into [0, 1] and unchanged inside it |
| `PwaAudio.CurrentFileAsWritten` | static/js/pwa-audio.js:263-265 | as written, no file is ever reported |
| `PwaAudio.CurrentFile` | static/js/pwa-audio.js:263-265 | corrected: the active session's file, and none without a session |
| `PwaAudio.CurrentFileMissedWhilePlaying` | static/js/pwa-audio.js:263-265 | while a file plays, the code as written reports none and the corrected one reports the file |
| `PwaAudio.PWAAudioPlayer.constructor` | static/js/pwa-audio.js:3-24 | the defaults, then `init` up to its first `await`: without an audio context the HTML5 path is chosen and the player initialised at once; with one the saved volume (or 0.8) is taken and the player stays uninitialised; the cache is empty |
| `PwaAudio.PWAAudioPlayer.CompleteInit` | static/js/pwa-audio.js:26-29 | once the preload settles the listed files are cached as `Preloaded` says and the player is initialised |
| `PwaAudio.PWAAudioPlayer.CacheAudioFile` | static/js/pwa-audio.js:80-95 | only an ok answer enters the cache, and the result says whether it did; otherwise the cache is unchanged |
| `PwaAudio.PWAAudioPlayer.PreloadAudioFiles` | static/js/pwa-audio.js:45-62 | every listed file is tried in order; the cache ends as `Preloaded` |
| `PwaAudio.PWAAudioPlayer.InitHTML5Audio` | static/js/pwa-audio.js:39-43 | the HTML5 path is chosen and the player initialised; the cache stays well formed |
| `PwaAudio.PWAAudioPlayer.Init` | static/js/pwa-audio.js:14-37 | without an audio context the HTML5 path is chosen; otherwise the saved volume is read and the files preloaded |
| `PwaAudio.PWAAudioPlayer.GetAudioBuffer` | static/js/pwa-audio.js:130-152 | corrected (a copy is decoded): a cached file is decoded with no request and the cache kept; otherwise the file is cached and decoded; failing that, fetched and decoded directly |
| `PwaAudio.PWAAudioPlayer.GetAudioBufferAsWritten` | static/js/pwa-audio.js:130-142 | as written: the cached bytes are decoded and their entry detached, leaving it empty |
| `PwaAudio.PWAAudioPlayer.DecodeCached` | static/js/pwa-audio.js:133-134 | decoding the cached ArrayBuffer gives its decode and empties the entry |
| `PwaAudio.PWAAudioPlayer.FetchAndDecode` | static/js/pwa-audio.js:144-151 | one more request; a buffer exactly when the answer arrived and decodes; otherwise `Failed to load audio file: <name>` |
| `PwaAudio.PWAAudioPlayer.Stop` | static/js/pwa-audio.js:216-237 | afterwards nothing plays and there is no session |
| `PwaAudio.PWAAudioPlayer.Play` | static/js/pwa-audio.js:97-128 | corrected (decodes a copy): any session is stopped first; the new one runs on the path chosen at init with gain `volume * (options.volume \|\| 1)`; the volume changes only through a first `init`; on Web Audio a cached file is decoded with no request and the cache kept, a fetched one is cached, and the play starts exactly when the bytes decode; on the HTML5 path a computed volume outside [0, 1] rejects with `IndexSizeError` and leaves no session |
| `PwaAudio.PWAAudioPlayer.PlayWebAudio` | static/js/pwa-audio.js:154-184 | playing, with one Web Audio session at the computed gain |
| `PwaAudio.PWAAudioPlayer.PlayHTML5Audio` | static/js/pwa-audio.js:186-214 | a computed volume in [0, 1] gives a pending promise and one element session at that volume; any other volume makes the `audio.volume` setter throw, so the promise rejects with `IndexSizeError` and the session fields are untouched |
| `PwaAudio.PWAAudioPlayer.SessionEnded` | static/js/pwa-audio.js:166-173 | the natural end clears the session, then calls `onEnded` when one was given |
| `PwaAudio.PWAAudioPlayer.ElementError` | static/js/pwa-audio.js:204-208 | an element error clears the session |
| `PwaAudio.PWAAudioPlayer.SetVolume` | static/js/pwa-audio.js:239-253 | stores and saves the clamped volume and applies exactly that value to an active session |
| `PwaAudio.PWAAudioPlayer.ImportSettings` | static/js/pwa-audio.js:419-423 | a given volume goes through `setVolume`; otherwise nothing changes |
| `PwaAudio.PWAAudioPlayer.PreviewAudio` | static/js/pwa-audio.js:289-300 | plays at half the factor with the callback; on Web Audio true with a session, false with none when `play` failed; on the HTML5 path the answer is pending exactly when the saved volume is in [0, 2], and otherwise false because the element rejects |
| `PwaAudio.PWAAudioPlayer.ClearCache` | static/js/pwa-audio.js:303-306 | the cache is empty, and stays well formed |
| `PwaAudio.PWAAudioPlayer.GetCacheSize` | static/js/pwa-audio.js:308-314 | the sum of the cached byte lengths |
| `PwaAudio.PWAAudioPlayer.GetCurrentFile` | static/js/pwa-audio.js:264 | corrected `getCurrentFile` on the player's state |
| `PwaAudio.Decode` | static/js/pwa-audio.js:134 | decoding succeeds exactly for non-empty decodable bytes and keeps them |
| `PwaAudio.Detach` | static/js/pwa-audio.js:134 | a detached entry keeps its place with no bytes; every other entry is unchanged and no name appears twice |
| `PwaAudio.DetachedReplayFails` | static/js/pwa-audio.js:130-142 | a cached file that decoded once fails once detached, and its bytes leave the cache size |
| `PwaAudio.PreloadedLookup` | static/js/pwa-audio.js:50-56 | preloading caches exactly the files that answered ok, with their bytes, and keeps the rest as before |
| `PwaAudio.Preloaded` | static/js/pwa-audio.js:45-62 | preloading never drops a cached file |
| `PwaUi.ItemAt` | static/js/pwa-ui.js:216-235 | the play button is disabled exactly for past schedules; next exactly for the first later schedule; active otherwise unless past |
| `PwaUi.IsNext` | static/js/pwa-ui.js:218-219 | a schedule is next exactly when it is later than now and no earlier position is |
| `PwaUi.DisplayTodaySchedules` | static/js/pwa-ui.js:199-238 | the placeholder exactly for an empty list, otherwise one item per schedule in order |
| `PwaUi.AtMostOneNext` | static/js/pwa-ui.js:218-219 | at most one schedule is marked next |
| `PwaUi.NextIsEarliestLater` | static/js/pwa-ui.js:217-223 | one is marked next exactly when one is later than now, and on a sorted list it is the earliest later one |
| `PwaUi.NotificationIcon` | static/js/pwa-ui.js:391-399 | any type but success, error and warning gets the info icon |
| `PwaUi.NotificationColor` | static/js/pwa-ui.js:401-409 | any type but success, error and warning gets the info colour |
| `PwaUi.IconAndColorAgree` | static/js/pwa-ui.js:391-409 | two types share an icon exactly when they share a colour |
| `PwaUi.ConnectivityView` | static/js/pwa-ui.js:275-303 | the offline banner shows exactly when offline, with the matching text |
| `PwaUi.AudioCount` | static/js/pwa-ui.js:305-322 | online with an ok reply, its length and it is cached; otherwise the cached length or 0 |
| `PwaUi.HandleURLParamsAsWritten` | static/js/pwa-ui.js:411-419 | as written, `action=play` throws and no page is shown |
| `PwaUi.PlayActionShowsNothing` | static/js/pwa-ui.js:415-418 | the notification's play action never reaches the announcements page |
| `PwaUi.PWAUI.constructor` | static/js/pwa-ui.js:3-25 | no install prompt, the dashboard page, online as the browser says; folded in are the later `init` steps that run after `await this.registerServiceWorker()`, once the constructor has returned: `initializeUI` loads the saved holiday mode and `startUIUpdates` shows the connectivity view |
| `PwaUi.PWAUI.LoadHolidayMode` | static/js/pwa-ui.js:122-126 | a non-empty saved value sets the switch to whether it is `'true'` |
| `PwaUi.PWAUI.ShowNotification` | static/js/pwa-ui.js:356-389 | one toast with the message and type is added |
| `PwaUi.PWAUI.HandleOnline` | static/js/pwa-ui.js:69-73 | online, the online view and the reconnect toast |
| `PwaUi.PWAUI.HandleOffline` | static/js/pwa-ui.js:75-79 | offline, the offline view and the offline toast |
| `PwaUi.PWAUI.BeforeInstallPrompt` | static/js/pwa-ui.js:56-60 | the event is kept and the prompt shown |
| `PwaUi.PWAUI.InstallApp` | static/js/pwa-ui.js:331-348 | nothing without a kept event; otherwise a toast only on acceptance, and the event and prompt dropped |
| `PwaUi.PWAUI.ShowPage` | static/js/pwa-ui.js:421-436 | the page is recorded and announced |
| `PwaUi.PWAUI.HandleURLParams` | static/js/pwa-ui.js:411-419 | corrected: `action=play` opens the announcements page; anything else changes nothing |
| `PwaUi.PWAUI.HolidayChanged` | static/js/pwa-ui.js:108-120 | stores `'true'`/`'false'` and announces the new mode |
| `PwaUi.PWAUI.VolumeInput` | static/js/pwa-ui.js:88-95 | shows `p%` and gives the player `p / 100` (clamped; exact for 0 to 100) |
| `App.AllowedFile` | app.py:23-25 | an allowed name contains a dot |
| `App.AllowedFileByExtension` | app.py:25 | the verdict depends only on the lower-cased text after the last dot being mp3, wav or ogg |
| `App.AllowedFileNeedsDot` | app.py:25 | a name without a dot is refused |
| `App.SplitExt` | app.py:190 | `splitext` splits the name into stem and extension: a dot and no further dot, or nothing when only dots precede the last one |
| `App.UploadNameKeepsExtension` | app.py:189-191 | the saved name `{stem}_{timestamp}{ext}` keeps the extension, with the time stamp on the stem |
| `App.UploadName` | app.py:189-191 | the saved name is one character and the stamp longer than the secured name, starts with its stem and ends with its extension |
| `App.UploadAudio` | app.py:19 | a body over `MAX_CONTENT_LENGTH` (50 MiB) gets Flask's 413 page; otherwise no file part or an empty name is 400, and the file is saved exactly for an allowed name, under the composed name (lines 175-215) |
| `App.HolidayOn` | app.py:267 | holiday mode is on only for the stored text `1`: a missing setting or any other text is off |
| `App.LogWrite` | app.py:385-393 | one log write per synced log, keeping its schedule id; a missing file, status or notes field becomes `''` |
| `App.NextFromOrdered` | app.py:275-285 | the loop finds a next bell exactly when one is later than now, and it is the first such |
| `App.NextFromOrderedIsEarliest` | app.py:278-285 | on the time-ordered table that first later bell is the earliest later one |
| `App.ReadVolume` | app.py:268 | a missing or empty volume setting reads as 80 |
| `App.GetStatus` | app.py:263-295 | the day name is the Monday-first one, holiday reads `'1'`, and the next bell is the first one of the ordered table later than now, by name, time and file |
| `App.ClampPercent` | app.py:320 | the stored volume is in [0, 100] and unchanged inside it |
| `App.Flag` | app.py:325 | a flag is stored as `'1'` exactly when truthy, otherwise `'0'` |
| `App.UpdateSettings` | app.py:312-330 | empty data is 400 with nothing written; otherwise each given key is written clamped or as a flag, and every other key is kept |
| `App.DefaultSettingsGood` | database.py:76-78 | the default settings obey the table's rules |
| `App.ReadBack` | app.py:320-321 | a stored percent reads back as itself |
| `App.UpdateSettingsKeepsGood` | app.py:319-328 | every update keeps the volume readable in [0, 100] and the flags `'1'`/`'0'` |
| `App.PlayAudio` | app.py:229-252 | 400 without data or file name, 404 for a missing file; `manual_play` logged only when playback succeeded |
| `App.ScheduleWrite` | app.py:367-383 | a schedule with a truthy id is an update, any other an add |
| `App.SyncData` | app.py:357-395 | empty data is 400; otherwise one write per schedule, then one per log, in order |
| `ServerScheduler.JobId` | scheduler.py:90 | the job id is `schedule_` followed by the id |
| `ServerScheduler.JobIdInjective` | scheduler.py:90 | different ids give different job ids |
| `ServerScheduler.JobFor` | scheduler.py:52-101 | a job exists exactly when the time parses and the day is known; it fires on that day, hour and minute |
| `ServerScheduler.CronAgreesWithBrowser` | scheduler.py:79-83 | a row due in the browser at a day and minute gets a server job for the same moment |
| `ServerScheduler.RegisteredDomain` | scheduler.py:36-40 | an id holds a job exactly when some active, parsable row has it |
| `ServerScheduler.RegisteredLast` | scheduler.py:91-94 | the job kept under an id is the last loading row's (`replace_existing`) |
| `ServerScheduler.CountLoaded` | scheduler.py:35-40 | `loaded_count` is at most the number of rows |
| `ServerScheduler.CountLoadedBounds` | scheduler.py:35-40 | the jobs are at most `loaded_count`, and exactly that many with distinct ids |
| `ServerScheduler.PlayScheduledBell` | scheduler.py:103-141 | holiday `'1'` logs `cancelled` and plays nothing (also `mnt/…/scheduler.py` 82-115); otherwise plays and logs `success` or `failed` |
| `ServerScheduler.MirrorsSet` | scheduler.py:86-94 | registering a job keeps the job store and `jobs` in step |
| `ServerScheduler.MirrorsRemove` | scheduler.py:149-153 | removing a job keeps them in step |
| `ServerScheduler.BellScheduler.constructor` | scheduler.py:15-20 | no jobs |
| `ServerScheduler.BellScheduler.AddJob` | scheduler.py:44-101 | False with nothing changed for a bad row; otherwise `jobs[id]` and `schedule_<id>` are set, replacing any old job |
| `ServerScheduler.BellScheduler.ClearAllJobs` | scheduler.py:159-162 | both stores are empty |
| `ServerScheduler.BellScheduler.LoadSchedules` | scheduler.py:22-42 | clears, then adds the active rows in order; `loaded_count` is the number of successful adds |
| `ServerScheduler.BellScheduler.RemoveJob` | scheduler.py:143-157 | the id is gone from both stores; True exactly when it was there |
| `ServerScheduler.InitScheduler` | scheduler.py:198-206 | a fresh scheduler loaded from the table |
| `ServerScheduler.ReloadSchedules` | scheduler.py:208-216 | reloads the scheduler, and does nothing without one |
| `OutputsScheduler.BellScheduler.constructor` | mnt/user-data/outputs/school-bell-system/scheduler.py:10-13 | no jobs |
| `OutputsScheduler.BellScheduler.AddJob` | mnt/user-data/outputs/school-bell-system/scheduler.py:29-80 | as in `scheduler.py`: False with nothing changed for a bad row, otherwise the job is set under both keys |
| `OutputsScheduler.BellScheduler.ClearAllJobs` | mnt/user-data/outputs/school-bell-system/scheduler.py:129-133 | both stores are empty |
| `OutputsScheduler.BellScheduler.LoadSchedules` | mnt/user-data/outputs/school-bell-system/scheduler.py:15-27 | clears, then adds the active rows; the reported `len(self.jobs)` is at most the adds, and equal with distinct ids |
| `OutputsScheduler.BellScheduler.RemoveJob` | mnt/user-data/outputs/school-bell-system/scheduler.py:117-127 | the id is gone from both stores; True exactly when it was there |
| `OutputsScheduler.ReloadSchedules` | mnt/user-data/outputs/school-bell-system/scheduler.py:169-172 | reloads the scheduler from the table; nothing happens before `init_scheduler` |
| `OutputsScheduler.InitScheduler` | mnt/user-data/outputs/school-bell-system/scheduler.py:162-167 | a fresh scheduler loaded from the table |
| `AltPlayer.SelectBackend` | audio_player_alternative.py:10-50 | the first backend that imports wins, `none` when none does; a `pygame.error` from the mixer is not caught and the import fails |
| `AltPlayer.ClampUnit` | audio_player_alternative.py:65 | the volume is clamped into [0, 1] and unchanged inside it |
| `AltPlayer.WavCaseInsensitive` | audio_player_alternative.py:150 | a path counts as `.wav` exactly when it ends in a dot and `w`, `a`, `v` in either case |
| `AltPlayer.IsWav` | audio_player_alternative.py:150 | a `.wav` path has at least four characters and a dot fourth from the end |
| `AltPlayer.AudioPlayer.constructor` | audio_player_alternative.py:56-61 | not playing, volume 0.8, stop flag down |
| `AltPlayer.AudioPlayer.SetVolume` | audio_player_alternative.py:63-67 | stores the clamped volume and hands it to the pygame mixer on that backend |
| `AltPlayer.AudioPlayer.Stop` | audio_player_alternative.py:220-229 | unconditionally raises the stop flag and clears the playing state |
| `AltPlayer.AudioPlayer.Play` | audio_player_alternative.py:69-90 | a missing file returns False with nothing changed; otherwise stop, lower the flag, and the backend decides success |
| `AltPlayer.AudioPlayer.PlayPygame` | audio_player_alternative.py:92-114 | a load or play error returns False without marking playing |
| `AltPlayer.AudioPlayer.PlayWinsound` | audio_player_alternative.py:144-176 | only `.wav` paths, in any case, start playing |
| `AltPlayer.AudioPlayer.MonitorExit` | audio_player_alternative.py:209-218 | clears the playing state and calls back only if not stopped |
| `AltPlayer.AudioPlayer.ThreadEnds` | audio_player_alternative.py:122-132 | on completion the state clears and the callback runs; on error only the playing flag clears (also 157-166, 187-197) |
| `AltPlayer.AudioPlayer.IsAudioPlaying` | audio_player_alternative.py:249-253 | playing, and on pygame the mixer busy too |
| `AltPlayer.SetVolumePercent` | audio_player_alternative.py:267-269 | a percent is divided by 100 and clamped, exact for 0 to 100 |
| `ClientPlayer.CountdownText` | client/player.js:236-241 | `HH:MM:SS` with colons at 2 and 5 below 100 hours |
| `ClientPlayer.CountdownReadsBack` | client/player.js:236-241 | the three fields read back as hours·3600 + minutes·60 + seconds = the remaining seconds |
| `ClientPlayer.HmsSplit` | client/player.js:236-238 | hours, minutes and seconds of the remaining seconds are below 100, 60 and 60 and put back together give them |
| `ClientPlayer.Icon` | client/player.js:269-278 | each class has its own icon: `check-circle` past, `bell-fill` active, `alarm` upcoming |
| `ClientPlayer.Classify` | client/player.js:269-278 | past exactly when earlier than now, active exactly when equal |
| `ClientPlayer.UpcomingIsLater` | client/player.js:269-278 | upcoming exactly when later than now |
| `ClientPlayer.DisplaySchedules` | client/player.js:250-292 | the empty state for a missing or empty list, otherwise one classified item per schedule in order |
| `ClientPlayer.IndicatorFor` | client/player.js:160-193 | playing wins over holiday, holiday over online; the file shown defaults to `Audio` |
| `ClientPlayer.ClientPlayer.constructor` | client/player.js:11-14 | no countdown and no audio |
| `ClientPlayer.ClientPlayer.ClearCountdown` | client/player.js:221-223 | no countdown interval stays live |
| `ClientPlayer.ClientPlayer.UpdateCountdown` | client/player.js:227-244 | at or below zero shows `00:00:00`, stops and schedules a refresh; otherwise shows the time left and counts down one |
| `ClientPlayer.ClientPlayer.StartCountdown` | client/player.js:220-248 | clears the old interval, shows the first value at once, and starts the only live interval |
| `ClientPlayer.ClientPlayer.Tick` | client/player.js:247 | one tick of the running interval |
| `ClientPlayer.ClientPlayer.HideNextBell` | client/player.js:213-218 | hides the card and stops the countdown |
| `ClientPlayer.ClientPlayer.UpdateStatus` | client/player.js:156-201 | sets the indicator; shows the next bell and restarts the countdown exactly when there is one and holiday is off |
| `ClientPlayer.ClientPlayer.PlayBellAudio` | client/player.js:312-322 | pauses and drops the previous audio, then creates the new one from the server URL |
| `ClientPlayer.ClientPlayer.AudioEnded` | client/player.js:332-335 | the ended audio is dropped |
| `LogsView.Badge` | static/js/logs.js:26-35 | the badge is empty exactly for a status outside the four known ones |
| `LogsView.OrElse` | static/js/logs.js:43 | `x \|\| fallback`: `null` and `''` fall back |
| `LogsView.RowFor` | static/js/logs.js:37-45 | a missing or empty name shows the Manual badge, missing notes show `-`, the rest is copied |
| `LogsView.UpdateLogTable` | static/js/logs.js:13-47 | only the placeholder exactly for an empty list, otherwise one row per log in order |
| `LogsView.CountStatus` | static/js/logs.js:50-52 | a count is at most the number of logs |
| `LogsView.CountIsMultiplicity` | static/js/logs.js:50-52 | each counter is the number of logs with exactly that status |
| `LogsView.UpdateStatistics` | static/js/logs.js:49-57 | each counter is at most the number of logs |
| `LogsView.Counted` | static/js/logs.js:49-52 | a status some counter counts is exactly one with a badge other than `cancelled` |
| `LogsView.StatisticsBound` | static/js/logs.js:50-52 | the counters sum to at most the number of logs, and to exactly that when every status is counted |
| `LogsView.CancelledShownNotCounted` | static/js/logs.js:33-34 | a cancelled log has a badge but no counter |
| `AudioPage.CheckUpload` | static/js/audio.js:8-17 | refused exactly when a field is missing, or when larger than 50 MiB; sent otherwise |
| `AudioPage.SizeBoundary` | static/js/audio.js:14 | example: exactly 50 MiB is sent, one byte more refused |
| `AudioPage.ServerAnswer` | static/js/audio.js:30-56 | only Flask's 413 page fails to parse as JSON; a refusal carries its error and a save its success |
| `AudioPage.ClientLimitMeetsServerLimit` | static/js/audio.js:14 | a file at the page's 50 MiB limit is sent, but the body around it exceeds the server's 50 MiB, so the server answers 413 and the generic failure toast shows |
| `AudioPage.UploadToast` | static/js/audio.js:26-56 | the page reloads exactly after a successful reply; each failure gets its own toast |
| `AudioPage.DerivedName` | static/js/audio.js:107-108 | the prefix before the last dot, and empty without a dot |
| `AudioPage.AutoFill` | static/js/audio.js:103-111 | fills the name only when a file is chosen and the name is empty |
| `AudioPage.DerivedNameIsServerStem` | static/js/audio.js:108 | for a name with a real extension the derived name is the server's `splitext` stem |
| `AudioPage.NoDotLeavesNameEmpty` | static/js/audio.js:106-109 | a file name without a dot leaves the upload incomplete |
| `Auth.DefaultUsers` | auth.py:11-20 | exactly `admin` and `operator`, with their roles |
| `Auth.VerifyPassword` | auth.py:26-32 | true exactly when the user exists and the hash matches |
| `Auth.GetUserRole` | auth.py:34-38 | the stored role, or None exactly for an unknown user |
| `Auth.DefaultPasswordWorks` | auth.py:11-32 | both shipped accounts accept `nopassword`; no other user name is accepted |
| `Auth.LoginRequired` | auth.py:40-48 | calls through exactly with a user in the session, otherwise to login with `next` |
| `Auth.AdminRequired` | auth.py:50-63 | login without a user, the index for a role other than admin, otherwise calls through |
| `Auth.AdminImpliesLogin` | auth.py:40-63 | what the admin guard lets through the login guard lets through |
| `Auth.Login` | app.py:29-47 | a verified password stores the user and role and goes to `next` or the index; otherwise nothing changes |
| `Auth.Logout` | app.py:49-55 | after logout both guards send every URL to login |
| `Auth.LoginOpensGuards` | app.py:36-43 | after login every login page opens, and admin pages exactly for the admin role |
| `Auth.OperatorIsNotAdmin` | auth.py:58-60 | example: the shipped operator is kept out of admin pages; admin is let in |

## Left out

- Browser and server I/O are inputs to the model, not modelled. This covers `fetch`, localStorage, IndexedDB, the Cache of decoded audio, `AudioContext` creation, decoding and `resume()` of a suspended context, `Notification`, Socket.IO, SQLite, APScheduler's cron firing, file saves, `os.path`, `secure_filename` and SHA-256.
- Timers and threads are not modelled as such. Each interval tick, timeout, `ended`/`error` event and thread end is a method call. Interleavings of the `async` code are not modelled; for example, `handleOnline` starts both syncs without awaiting them.
- JSON is not modelled. `JSON.stringify` comparison is list equality, which ignores key order.
- IndexedDB is a plain list. Its key order and its refusal of duplicate ids are not modelled. Two facts are inputs: whether the `schedules` store exists, and whether a write transaction commits (`PwaScheduler.SaveToIndexedDB`).
- The upload's request body length is an input to `App.UploadAudio`. The multipart framing around the file is not modelled.
- Wall-clock and locale formatting are not modelled: `Date`, `toLocaleDateString`, `toISOString`, `strftime` and daylight-saving jumps. The clock comes in as milliseconds since midnight, a weekday and its `HH:MM` text.
- Floating point is not modelled. Volumes are Dafny reals, so NaN and rounding are absent: `parseFloat` of a bad saved volume, `Math.round` of the slider's saved value, `formatBytes`, `analyzeAudio`, the fade ramps.
- String `<` and `localeCompare` are modelled as code-unit order. They agree on the fixed-width `HH:MM` texts.
- Lower-casing is modelled as ASCII only.
- Python `int()` is modelled without whitespace or underscores.
- `JsNumbers.JsNumber` reads numerals as exact rationals. Double rounding, `Infinity`, and the NaN date of a time beyond the `Date` range are not modelled.
- `Clock.ReminderDelay`: `setDate(getDate() + 1)` is modelled as adding one day of milliseconds.
- `PwaScheduler.PWAScheduler.LogPlay`: a log posted at log time is never marked synced. The next `online` event therefore posts it again. The model records both posts and does not dedupe.
- Web Audio `ended` race: a stopped source's `ended` handler may fire after a new session started and clear it. `PwaAudio.PWAAudioPlayer.SessionEnded` models the handler, not the race.
- `PwaAudio.PWAAudioPlayer.PreloadAudioFiles` states the requests' count, not their URLs.
- `PwaAudio.PWAAudioPlayer.Play`: when the file is neither cached nor answers ok, the contract does not name the outcome of the direct fetch; `FetchAndDecode`'s contract carries that.
- `getAudioFileList` is not modelled; its result is the `files` parameter.
- Not modelled in `pwa-audio.js`, since these are floating point, browser probing or thin getters:
  - `getAudioDuration`, `getCacheInfo`, `formatBytes`, `analyzeAudio`;
  - `applyFadeIn`, `applyFadeOut`;
  - `checkCompatibility`, `exportSettings`, `getVolume`, `isCurrentlyPlaying`.
- Not modelled in `pwa-scheduler.js`:
  - the permission that `requestNotificationPermission` stores, and `showNotification`, the only reader of that permission. The wait on the prompt is modelled: `Init` takes whether it settles;
  - `getSchedules`, a getter;
  - the `updateSchedulesDisplay` and `updateNextScheduleDisplay` UI hooks.
- Not modelled in `pwa-ui.js`, since they are DOM, locale or platform glue:
  - `registerServiceWorker` and `showUpdateNotification`;
  - `updateDateTime`, `startUIUpdates` and `updateSchedules`;
  - `displayNextSchedule`, `vibrate`, `share`, `exportData`, `importData`, `playScheduleAudio`;
  - toast timers, and the `checkSchedules` call of the holiday switch;
  - the loading of the saved slider value.
- The pwa-ui notification tables ignore inherited object keys such as `constructor`.
- `indexOf` in `displayTodaySchedules` is modelled as the position, since the schedule objects are distinct.
- `scheduler.py` (both copies): `get_next_run_time`, `list_jobs`, `shutdown` and `get_scheduler` are not modelled. They are job-store queries and logging.
- `app.py`: not modelled, since they are thin database or template wrappers:
  - the HTML page routes and the schedule CRUD routes;
  - `get_audio_files`, `delete_audio`, `stop_audio`, `get_settings`, `get_logs`;
  - `/pwa`, `/share`, `/api/audio-files`, the push subscription, the manifest and service-worker routes;
  - the saving, duration and database insert of an upload.
- `App.SplitExt` handles names without directory separators only (`secure_filename` removes them).
- `App.UpdateSettings` receives the volume already converted by `int()`. A non-numeric volume, on which `int()` raises, is not modelled.
- `Auth.Login`: the form fields are strings. A POST without a `password` field but with a known `username` makes `hash_password(None)` raise `AttributeError` (auth.py:24), and Flask answers 500. Without a `username` field the login simply fails. Flash messages are not modelled.
- `audio_player_alternative.py`: `pause`, `unpause` and `get_audio_duration` are not modelled. `stop` does not stop a playsound, winsound or pydub thread already running; the model keeps only the flags.
- `client/player.js`: `initializeSocket`, `updateConnectionStatus`, `startClock`, the fetches, `handleBellTriggered`'s refresh and `showNotification` are not modelled. They are Socket.IO, DOM and notification glue.
- `static/js/audio.js`: `deleteAudio`, `previewAudio`, `closePreview` and the modal reset are not modelled. They are DOM and `fetch` glue.
- `static/js/logs.js`: the `loadLogs` fetch and the 30-second refresh are not modelled.

## Findings

| source | as written | input that shows it | evidently intended | confidence | as-written member | corrected member |
|---|---|---|---|---|---|---|
| static/js/pwa-scheduler.js:89-111 | `saveToIndexedDB` opens `SchoolBellDB` version 1 without an `onupgradeneeded` handler. It then calls `db.transaction(['schedules'])` without the `objectStoreNames` check that `loadFromIndexedDB` makes (73-76). No page script creates the store, so `transaction` throws inside `onsuccess` and the promise never settles | a first start online whose server list is not empty: `init` waits on the save forever and never starts checking (`FirstStartNeverChecks`). `addSchedule`, `updateSchedule`, `deleteSchedule` and `toggleSchedule` never reach `checkSchedules` | check `objectStoreNames` as line 73 does, or create the store in `onupgradeneeded`, so the save settles (`FirstStartChecks`) | not executed | `PwaScheduler.SaveToIndexedDB` | `PwaScheduler.SaveToIndexedDBCorrected` |
| static/js/pwa-scheduler.js:339-353 | every pending log is marked `synced` after `syncLogToServer`, which catches every error itself (304-316), so the `catch` never runs | one pending log while the server is unreachable: it is marked synced and never sent again (`AsWrittenMarksUndelivered`) | a log is marked synced only when the server took it | not executed | `PwaScheduler.MarkSyncedAsWritten` | `PwaScheduler.PWAScheduler.SyncPendingLogs` |
| static/js/pwa-audio.js:263-265 | `getCurrentFile` returns `currentAudio.filename`, a property neither the `{source, gainNode}` object (178) nor the `Audio` element (212) has | any file while it plays: the answer is `undefined` (`CurrentFileMissedWhilePlaying`) | the playing file's name | not executed | `PwaAudio.CurrentFileAsWritten` | `PwaAudio.PWAAudioPlayer.GetCurrentFile` |
| static/js/pwa-audio.js:130-142 | `decodeAudioData` is handed the cached ArrayBuffer itself, which detaches it and leaves the cache entry empty | a file played twice from the cache: the second decode fails and `getCacheSize` no longer counts it (`DetachedReplayFails`) | decode a copy (`arrayBuffer.slice(0)`) so the cache keeps its bytes | not executed | `PwaAudio.PWAAudioPlayer.GetAudioBufferAsWritten` | `PwaAudio.PWAAudioPlayer.GetAudioBuffer` |
| static/js/pwa-ui.js:411-419 | `handleURLParams` calls `this.showAnnouncements()`, but `setupQuickActions` (133-139) installs `showAnnouncements` on `window` only, so the call throws a TypeError | opening the app with `?action=play` (`PlayActionShowsNothing`) | open the announcements page, as `showPage('announcements')` does | not executed | `PwaUi.HandleURLParamsAsWritten` | `PwaUi.PWAUI.HandleURLParams` |

=== FILE: alt_player.dfy ===
/** The server's audio player (`audio_player_alternative.py`): one player
    object holding the playing flag, the current file, the volume and the
    stop flag, dispatching to whichever audio backend could be imported.

    The backends themselves are outcomes passed in: whether a file exists,
    whether pygame loads and starts it, and the moment a playback thread or
    the pygame monitor finishes (each an explicit method call). */
module AltPlayer {
  import opened Text

  datatype Backend = Pygame | Playsound | Winsound | Pydub | NoBackend

  /** How `import pygame` followed by `pygame.mixer.init()` turns out:
      pygame is not installed (ImportError), the mixer cannot open an audio
      device (`pygame.error`), or both succeed. */
  datatype PygameImport = NotInstalled | MixerError | Ready

  /** The module's import cascade: the first backend that imports wins, and
      'none' when none does. Each `try` catches only ImportError, so a mixer
      error escapes and the module itself fails to import: None. */
  function SelectBackend(pygame: PygameImport, playsound: bool, winsound: bool, pydub: bool): (b: Option<Backend>)
    ensures b == None <==> pygame == MixerError
    ensures b == Some(Pygame) <==> pygame == Ready
    ensures b == Some(Playsound) <==> pygame == NotInstalled && playsound
    ensures b == Some(Winsound) <==> pygame == NotInstalled && !playsound && winsound
    ensures b == Some(Pydub) <==> pygame == NotInstalled && !playsound && !winsound && pydub
    ensures b == Some(NoBackend) <==> pygame == NotInstalled && !playsound && !winsound && !pydub
  {
    match pygame
    case MixerError => None
    case Ready => Some(Pygame)
    case NotInstalled =>
      if playsound then Some(Playsound)
      else if winsound then Some(Winsound)
      else if pydub then Some(Pydub)
      else Some(NoBackend)
  }

  /** What pygame does with `load`, `set_volume` and `play`. */
  datatype PygameStart = LoadFails | PlayFails | Starts

  /** `max(0.0, min(1.0, v))`. */
  function ClampUnit(v: real): (r: real)
    ensures 0.0 <= r <= 1.0
    ensures 0.0 <= v <= 1.0 ==> r == v
    ensures v < 0.0 ==> r == 0.0
    ensures v > 1.0 ==> r == 1.0
  {
    if v > 1.0 then 1.0 else if v < 0.0 then 0.0 else v
  }

  /** `audio_path.lower().endswith('.wav')`. */
  predicate IsWav(path: string)
    ensures IsWav(path) ==> |path| >= 4 && path[|path| - 4] == '.'
  {
    var l := Lower(path);
    assert EndsWith(l, ".wav") ==> l[|l| - 4] == l[|l| - 4..][0] == '.';
    EndsWith(l, ".wav")
  }

  /** A path is a `.wav` path exactly when it ends in a dot followed by
      `w`, `a` and `v`, each in either letter case. */
  lemma WavCaseInsensitive(path: string)
    ensures IsWav(path) <==> (|path| >= 4 && path[|path| - 4] == '.' &&
      (path[|path| - 3] == 'w' || path[|path| - 3] == 'W') &&
      (path[|path| - 2] == 'a' || path[|path| - 2] == 'A') &&
      (path[|path| - 1] == 'v' || path[|path| - 1] == 'V'))
  {
    var low, n := Lower(path), |path|;
    if n >= 4 {
      var tail := low[n - 4..];
      assert tail[0] == LowerChar(path[n - 4]) && tail[1] == LowerChar(path[n - 3]);
      assert tail[2] == LowerChar(path[n - 2]) && tail[3] == LowerChar(path[n - 1]);
      assert tail == ".wav" <==> tail[0] == '.' && tail[1] == 'w' && tail[2] == 'a' && tail[3] == 'v';
    }
  }

  class AudioPlayer {
    var isPlaying: bool
    var currentFile: Option<string>
    var volume: real
    const backend: Backend
    var stopFlag: bool
    /** The pygame mixer's volume, as last set. */
    var mixerVolume: real
    /** Number of callbacks invoked. */
    var callbacks: nat

    constructor (b: Backend)
      ensures backend == b && !isPlaying && currentFile == None && volume == 0.8 && !stopFlag
      ensures callbacks == 0
    {
      backend := b;
      isPlaying, currentFile, volume, stopFlag := false, None, 0.8, false;
      mixerVolume, callbacks := 1.0, 0;
    }

    /** `set_volume`: store the clamped volume, and hand it to the pygame
        mixer on that backend. */
    method SetVolume(v: real)
      modifies this`volume, this`mixerVolume
      ensures volume == ClampUnit(v)
      ensures backend == Pygame ==> mixerVolume == volume
      ensures backend != Pygame ==> mixerVolume == old(mixerVolume)
    {
      volume := ClampUnit(v);
      if backend == Pygame {
        mixerVolume := volume;
      }
    }

    /** `stop`: unconditionally raise the stop flag and clear the playing
        state. */
    method Stop()
      modifies this`stopFlag, this`isPlaying, this`currentFile
      ensures stopFlag && !isPlaying && currentFile == None
    {
      stopFlag := true;
      isPlaying := false;
      currentFile := None;
    }

    /** `play`: nothing happens for a missing file; otherwise any playback
        is stopped, the stop flag is lowered, and the backend decides.
        `onDisk` is `os.path.exists(audio_path)`; `start` what pygame does. */
    method Play(path: string, onDisk: bool, start: PygameStart) returns (ok: bool)
      modifies this`stopFlag, this`isPlaying, this`currentFile, this`mixerVolume
      ensures !onDisk ==>
        !ok && isPlaying == old(isPlaying) && currentFile == old(currentFile) &&
        stopFlag == old(stopFlag) && mixerVolume == old(mixerVolume)
      ensures onDisk ==> !stopFlag
      ensures ok <==> onDisk && match backend
        case Pygame => start == Starts
        case Winsound => IsWav(path)
        case NoBackend => false
        case _ => true
      ensures ok ==> isPlaying && currentFile == Some(path)
      ensures onDisk && !ok ==>
        !isPlaying && (old(isPlaying) ==> currentFile == None) &&
        (!old(isPlaying) ==> currentFile == old(currentFile))
      ensures onDisk && backend == Pygame && start != LoadFails ==> mixerVolume == volume
    {
      if !onDisk {
        return false;
      }
      if isPlaying {
        Stop();
      }
      stopFlag := false;
      match backend {
        case Pygame => ok := PlayPygame(path, start);
        case Winsound => ok := PlayWinsound(path);
        case NoBackend => ok := false;
        case _ => ok := true; isPlaying := true; currentFile := Some(path);
      }
    }

    /** `_play_pygame`: a load or play error returns False and leaves the
        playing state alone. */
    method PlayPygame(path: string, start: PygameStart) returns (ok: bool)
      modifies this`isPlaying, this`currentFile, this`mixerVolume
      ensures ok <==> start == Starts
      ensures ok ==> isPlaying && currentFile == Some(path)
      ensures !ok ==> isPlaying == old(isPlaying) && currentFile == old(currentFile)
      ensures mixerVolume == if start == LoadFails then old(mixerVolume) else volume
    {
      if start == LoadFails {
        return false;
      }
      mixerVolume := volume;
      if start == PlayFails {
        return false;
      }
      isPlaying := true;
      currentFile := Some(path);
      ok := true;
    }

    /** `_play_winsound`: only `.wav` files, in any letter case. */
    method PlayWinsound(path: string) returns (ok: bool)
      modifies this`isPlaying, this`currentFile
      ensures ok <==> IsWav(path)
      ensures ok ==> isPlaying && currentFile == Some(path)
      ensures !ok ==> isPlaying == old(isPlaying) && currentFile == old(currentFile)
    {
      if !IsWav(path) {
        return false;
      }
      isPlaying := true;
      currentFile := Some(path);
      ok := true;
    }

    /** End of `_monitor_pygame_playback`: the playing state is cleared, and
        the callback runs only if playback was not stopped. */
    method MonitorExit(callback: bool)
      modifies this`isPlaying, this`currentFile, this`callbacks
      ensures !isPlaying && currentFile == None
      ensures callbacks == old(callbacks) + (if callback && !stopFlag then 1 else 0)
    {
      isPlaying := false;
      currentFile := None;
      if callback && !stopFlag {
        callbacks := callbacks + 1;
      }
    }

    /** End of a playsound, winsound or pydub thread: on completion the
        state is cleared and the callback runs whatever the stop flag; on an
        error only the playing flag is cleared. */
    method ThreadEnds(completed: bool, callback: bool)
      modifies this`isPlaying, this`currentFile, this`callbacks
      ensures !isPlaying
      ensures currentFile == if completed then None else old(currentFile)
      ensures callbacks == old(callbacks) + (if completed && callback then 1 else 0)
    {
      isPlaying := false;
      if completed {
        currentFile := None;
        if callback {
          callbacks := callbacks + 1;
        }
      }
    }

    /** `is_audio_playing`: on pygame the mixer must also be busy. */
    method IsAudioPlaying(mixerBusy: bool) returns (r: bool)
      ensures r <==> isPlaying && (backend == Pygame ==> mixerBusy)
    {
      if backend == Pygame {
        return isPlaying && mixerBusy;
      }
      return isPlaying;
    }
  }

  /** Module `set_volume`: a percent, scaled to [0, 1] before clamping. */
  method SetVolumePercent(player: AudioPlayer, percent: int)
    modifies player`volume, player`mixerVolume
    ensures player.volume == ClampUnit(percent as real / 100.0)
    ensures 0 <= percent <= 100 ==> player.volume == percent as real / 100.0
  {
    player.SetVolume(percent as real / 100.0);
  }
}

=== FILE: app.dfy ===
/** The Flask server's own rules: which uploads are accepted and under what
    name they are saved, the status page's next bell, the settings update,
    the manual play endpoint and the PWA sync endpoint.

    The database is an abstract table: the endpoints' reads come in as
    parameters and their writes go out as a list of `DbWrite`s (or, for the
    settings, as the new key/value store). */
module App {
  import opened Text
  import opened Clock
  import opened Schedules

  /** A JSON response: HTTP status, the `success` flag and the `error` text
      (empty when there is none). */
  datatype Reply = Reply(code: int, success: bool, error: string)

  // ---------------------------------------------------------------------
  // Uploads.

  const AllowedExtensions: set<string> := {"mp3", "wav", "ogg"}

  /** `allowed_file`: a dot, and the lower-cased text after the last dot is
      an allowed extension. */
  function AllowedFile(filename: string): (r: bool)
    ensures r ==> '.' in filename
  {
    var i := LastIndexOf(filename, '.');
    i >= 0 && Lower(filename[i + 1..]) in AllowedExtensions
  }

  /** Whatever comes before the extension, the verdict is decided by it. */
  lemma AllowedFileByExtension(stem: string, ext: string)
    requires '.' !in ext
    ensures AllowedFile(stem + "." + ext) <==> Lower(ext) in AllowedExtensions
  {
    var f := stem + "." + ext;
    assert f == (stem + ".") + ext;
    LastIndexOfAppend(stem + ".", ext, '.');
    assert f[|stem| + 1..] == ext;
  }

  /** No dot, no upload. */
  lemma AllowedFileNeedsDot(name: string)
    requires '.' !in name
    ensures !AllowedFile(name)
  {
  }

  /** The last occurrence is the one with no occurrence after it. */
  lemma LastIndexOfUnique(s: string, c: char, r: nat)
    requires r < |s| && s[r] == c && c !in s[r + 1..]
    ensures LastIndexOf(s, c) == r
  {
    assert c in s;
  }

  lemma LastIndexOfAppend(a: string, b: string, c: char)
    requires c !in b
    ensures LastIndexOf(a + b, c) == LastIndexOf(a, c)
  {
    var r := LastIndexOf(a, c);
    if r < 0 {
      assert c !in a + b by {
        forall i | 0 <= i < |a + b| ensures (a + b)[i] != c {
          if i < |a| { assert (a + b)[i] == a[i]; } else { assert (a + b)[i] == b[i - |a|]; }
        }
      }
    } else {
      assert (a + b)[r + 1..] == a[r + 1..] + b;
      LastIndexOfUnique(a + b, c, r);
    }
  }

  predicate AllDots(s: string) { forall i :: 0 <= i < |s| ==> s[i] == '.' }

  /** Python `os.path.splitext` on a name without directory separators: the
      extension starts at the last dot, unless only dots come before it. */
  function SplitExt(p: string): (r: (string, string))
    ensures r.0 + r.1 == p
    ensures r.1 == [] || (r.1[0] == '.' && '.' !in r.1[1..])
    ensures r.1 == [] ==> LastIndexOf(p, '.') <= 0 || AllDots(p[..LastIndexOf(p, '.')])
  {
    var i := LastIndexOf(p, '.');
    if i <= 0 || AllDots(p[..i]) then (p, "")
    else
      assert p[..i] + p[i..] == p;
      assert p[i..][1..] == p[i + 1..];
      (p[..i], p[i..])
  }

  /** The saved name `{stem}_{timestamp}{ext}`. */
  function UploadName(secured: string, stamp: string): (r: string)
    ensures |r| == |secured| + 1 + |stamp|
    ensures r[..|SplitExt(secured).0|] == SplitExt(secured).0
    ensures r[|r| - |SplitExt(secured).1|..] == SplitExt(secured).1
  {
    var parts := SplitExt(secured);
    parts.0 + ("_" + stamp) + parts.1
  }

  /** Renaming keeps the extension: splitting the saved name gives the same
      extension and the stem with the time stamp appended. */
  lemma UploadNameKeepsExtension(secured: string, stamp: string)
    requires '.' !in stamp
    ensures SplitExt(UploadName(secured, stamp)) ==
            (SplitExt(secured).0 + ("_" + stamp), SplitExt(secured).1)
  {
    var root, ext := SplitExt(secured).0, SplitExt(secured).1;
    var tail := "_" + stamp;
    assert '.' !in tail by { assert forall x :: x in tail ==> x == '_' || x in stamp; }
    var name := UploadName(secured, stamp);
    if ext == [] {
      assert name == root + tail;
      NoExtensionStaysNone(name, root, tail);
    } else {
      ExtensionStays(name, root, tail, ext);
    }
  }

  lemma NoExtensionStaysNone(name: string, root: string, tail: string)
    requires name == root + tail
    requires SplitExt(root).1 == [] && '.' !in tail
    ensures SplitExt(name) == (name, "")
  {
    LastIndexOfAppend(root, tail, '.');
    var i := LastIndexOf(root, '.');
    if i > 0 {
      assert name[..i] == root[..i];
    }
  }

  lemma ExtensionStays(name: string, root: string, tail: string, ext: string)
    requires name == root + tail + ext
    requires |tail| > 0 && tail[0] == '_' && '.' !in tail
    requires |ext| > 0 && ext[0] == '.' && '.' !in ext[1..]
    ensures SplitExt(name) == (root + tail, ext)
  {
    var pre := root + tail + ".";
    assert name == pre + ext[1..];
    LastIndexOfAppend(pre, ext[1..], '.');
    var i := |pre| - 1;
    assert LastIndexOf(name, '.') == i;
    assert name[..i] == root + tail;
    assert !AllDots(name[..i]) by { assert name[..i][|root|] == '_'; }
    assert name[i..] == ext;
  }

  /** `MAX_CONTENT_LENGTH`: the largest request body Flask accepts, 50 MiB. */
  const MaxContentLength: nat := 50 * 1024 * 1024

  /** `upload_audio`'s answer: Flask's 413 page for a body over the limit
      (HTML, not JSON), a JSON refusal (no file part, an empty file name, a
      refused extension), or the name the file is saved under. */
  datatype Upload = EntityTooLarge | Refused(reply: Reply) | Saved(reply: Reply, filename: string)

  /** `upload_audio`. `bodyLength` is the request's content length, which
      Flask checks against `MAX_CONTENT_LENGTH` when the handler first reads
      `request.files`; `file` is the submitted file name (None when there is
      no `file` part); `secure` is `secure_filename`; `stamp` the
      `%Y%m%d_%H%M%S` text of the current time. */
  function UploadAudio(bodyLength: nat, file: Option<string>, secure: string -> string, stamp: string): (r: Upload)
    ensures r == EntityTooLarge <==> bodyLength > MaxContentLength
    ensures bodyLength <= MaxContentLength && file.None? ==> r == Refused(Reply(400, false, "No file part"))
    ensures bodyLength <= MaxContentLength && file == Some("") ==> r == Refused(Reply(400, false, "No selected file"))
    ensures r.Saved? <==> bodyLength <= MaxContentLength && file.Some? && file.value != "" && AllowedFile(file.value)
    ensures r.Saved? ==> r.filename == UploadName(secure(file.value), stamp) && r.reply.success
    ensures r.Refused? ==> r.reply.code == 400 && !r.reply.success
  {
    if bodyLength > MaxContentLength then EntityTooLarge
    else if file.None? then Refused(Reply(400, false, "No file part"))
    else if file.value == "" then Refused(Reply(400, false, "No selected file"))
    else if AllowedFile(file.value) then Saved(Reply(200, true, ""), UploadName(secure(file.value), stamp))
    else Refused(Reply(400, false, "Invalid file type"))
  }

  // ---------------------------------------------------------------------
  // The status page.

  /** The `next_schedule` object of the status reply. */
  datatype NextBell = NextBell(name: string, time: string, audioFile: string)

  /** `get_status`'s loop over today's active schedules, in the table's time
      order: the first one later than now, if any. */
  method NextFromOrdered(today: seq<Schedule>, now: string) returns (next: Option<NextBell>)
    ensures next.Some? <==> exists i :: 0 <= i < |today| && Less(now, today[i].time)
    ensures next.Some? ==> var k := FirstLaterIndex(today, now);
      next.value == NextBell(today[k].name, today[k].time, today[k].audioFile)
  {
    next := None;
    for i := 0 to |today|
      invariant next.None?
      invariant forall j :: 0 <= j < i ==> !Less(now, today[j].time)
    {
      if Less(now, today[i].time) {
        next := Some(NextBell(today[i].name, today[i].time, today[i].audioFile));
        FirstLaterAt(today, now, i);
        return;
      }
    }
  }

  lemma FirstLaterAt(s: seq<Schedule>, now: string, i: nat)
    requires i < |s| && Less(now, s[i].time)
    requires forall j :: 0 <= j < i ==> !Less(now, s[j].time)
    ensures FirstLaterIndex(s, now) == i
  {
  }

  /** On a time-ordered table the bell the loop picks is the earliest one
      still to come. */
  lemma NextFromOrderedIsEarliest(today: seq<Schedule>, now: string)
    requires SortedByTime(today) && FirstLaterIndex(today, now) >= 0
    ensures forall j :: 0 <= j < |today| && Less(now, today[j].time) ==>
      Le(today[FirstLaterIndex(today, now)].time, today[j].time)
  {
    FirstLaterIsEarliest(today, now);
  }

  /** `int(get_setting('volume') or 80)`: a missing or empty setting reads
      as 80; text `int` refuses is an error (None). */
  function ReadVolume(store: map<string, string>): (r: Option<int>)
    ensures "volume" !in store ==> r == Some(80)
    ensures "volume" in store && store["volume"] == "" ==> r == Some(80)
  {
    if "volume" !in store || store["volume"] == "" then Some(80) else SignedInt(store["volume"])
  }

  /** `get_setting('holiday_mode') == '1'`. */
  predicate HolidayOn(store: map<string, string>)
    ensures "holiday_mode" !in store ==> !HolidayOn(store)
    ensures "holiday_mode" in store && store["holiday_mode"] != "1" ==> !HolidayOn(store)
    ensures store == map["holiday_mode" := "1"] ==> HolidayOn(store)
  {
    "holiday_mode" in store && store["holiday_mode"] == "1"
  }

  /** The parts of the status reply the server computes itself. */
  datatype Status = Status(holiday: bool, volume: Option<int>, next: Option<NextBell>, day: string)

  /** `get_status`: `weekday` is Python's `weekday()` (Monday 0) and `today`
      the table's active schedules for that day, ordered by time. */
  method GetStatus(store: map<string, string>, weekday: nat, today: seq<Schedule>, now: string)
    returns (s: Status)
    requires weekday < 7
    ensures s.day == AppDayName(weekday) && PyDayNumber(s.day) == Some(weekday)
    ensures s.holiday <==> HolidayOn(store)
    ensures s.volume == ReadVolume(store)
    ensures s.next.Some? <==> exists i :: 0 <= i < |today| && Less(now, today[i].time)
    ensures s.next.Some? ==> var k := FirstLaterIndex(today, now);
      s.next.value == NextBell(today[k].name, today[k].time, today[k].audioFile)
  {
    var next := NextFromOrdered(today, now);
    s := Status(HolidayOn(store), ReadVolume(store), next, AppDayName(weekday));
  }

  // ---------------------------------------------------------------------
  // Settings.

  /** `max(0, min(100, v))`. */
  function ClampPercent(v: int): (r: int)
    ensures 0 <= r <= 100
    ensures 0 <= v <= 100 ==> r == v
    ensures v < 0 ==> r == 0
    ensures v > 100 ==> r == 100
  {
    if v < 0 then 0 else if v > 100 then 100 else v
  }

  /** Python truthiness of a flag, stored as '1' or '0'. */
  function Flag(b: bool): (r: string)
    ensures r == "1" || r == "0"
    ensures r == "1" <==> b
  {
    if b then "1" else "0"
  }

  /** The JSON body of a settings update: each key present or not (the
      volume already through `int`, each flag through truthiness), and how
      many other keys it holds. */
  datatype SettingsBody = SettingsBody(volume: Option<int>, holiday: Option<bool>, autoStart: Option<bool>, others: nat)

  /** `if not data`: a missing body or an empty object. */
  predicate EmptySettings(d: Option<SettingsBody>)
  {
    d.None? || (d.value.volume.None? && d.value.holiday.None? && d.value.autoStart.None? && d.value.others == 0)
  }

  datatype SettingsResult = SettingsResult(reply: Reply, store: map<string, string>, playerVolume: Option<int>)

  /** `update_settings`. */
  function UpdateSettings(store: map<string, string>, d: Option<SettingsBody>): (r: SettingsResult)
    ensures EmptySettings(d) ==> r == SettingsResult(Reply(400, false, "No data provided"), store, None)
    ensures !EmptySettings(d) ==> r.reply == Reply(200, true, "")
    ensures !EmptySettings(d) && d.value.volume.Some? ==>
      "volume" in r.store && r.store["volume"] == NatToString(ClampPercent(d.value.volume.value)) &&
      r.playerVolume == Some(ClampPercent(d.value.volume.value))
    ensures !EmptySettings(d) && d.value.holiday.Some? ==>
      "holiday_mode" in r.store && r.store["holiday_mode"] == Flag(d.value.holiday.value)
    ensures !EmptySettings(d) && d.value.autoStart.Some? ==>
      "auto_start" in r.store && r.store["auto_start"] == Flag(d.value.autoStart.value)
    ensures forall k :: k in store && k !in {"volume", "holiday_mode", "auto_start"} ==> k in r.store && r.store[k] == store[k]
    ensures forall k :: k in r.store ==> k in store || k in {"volume", "holiday_mode", "auto_start"}
  {
    if EmptySettings(d) then SettingsResult(Reply(400, false, "No data provided"), store, None)
    else
      var b := d.value;
      var s1 := if b.volume.Some? then store["volume" := NatToString(ClampPercent(b.volume.value))] else store;
      var s2 := if b.holiday.Some? then s1["holiday_mode" := Flag(b.holiday.value)] else s1;
      var s3 := if b.autoStart.Some? then s2["auto_start" := Flag(b.autoStart.value)] else s2;
      SettingsResult(Reply(200, true, ""), s3, if b.volume.Some? then Some(ClampPercent(b.volume.value)) else None)
  }

  /** What the settings table holds under the server's rules: a volume that
      reads back in [0, 100] and flags that are '1' or '0'. */
  predicate GoodSettings(store: map<string, string>)
  {
    ("volume" in store ==> ReadVolume(store).Some? && 0 <= ReadVolume(store).value <= 100) &&
    ("holiday_mode" in store ==> store["holiday_mode"] in {"1", "0"}) &&
    ("auto_start" in store ==> store["auto_start"] in {"1", "0"})
  }

  /** The defaults the table starts with. */
  lemma DefaultSettingsGood()
    ensures GoodSettings(map["volume" := "80", "holiday_mode" := "0", "auto_start" := "1"])
  {
    var s := map["volume" := "80", "holiday_mode" := "0", "auto_start" := "1"];
    assert AllDigits("80") && DigitsValue("80") == 80;
  }

  /** The decimal text of a percent reads back as that percent. */
  lemma ReadBack(store: map<string, string>, v: int)
    requires 0 <= v <= 100
    requires "volume" in store && store["volume"] == NatToString(v)
    ensures ReadVolume(store) == Some(v)
  {
    NatToStringValue(v);
    var s := NatToString(v);
    assert IsDigit(s[0]);
  }

  /** Every update keeps the table good, and a volume written reads back
      clamped. */
  lemma UpdateSettingsKeepsGood(store: map<string, string>, d: Option<SettingsBody>)
    requires GoodSettings(store)
    ensures GoodSettings(UpdateSettings(store, d).store)
    ensures !EmptySettings(d) && d.value.volume.Some? ==>
      ReadVolume(UpdateSettings(store, d).store) == Some(ClampPercent(d.value.volume.value))
  {
    var r := UpdateSettings(store, d).store;
    if !EmptySettings(d) && d.value.volume.Some? {
      ReadBack(r, ClampPercent(d.value.volume.value));
    }
  }

  // ---------------------------------------------------------------------
  // Manual play.

  /** The JSON body of `/api/play`: `audio_file` (None when absent) and how
      many other keys it holds. */
  datatype PlayBody = PlayBody(audioFile: Option<string>, others: nat)

  /** The database write `add_play_log(schedule_id, audio_file, status, notes)`. */
  datatype PlayLog = PlayLog(scheduleId: Option<int>, audioFile: string, status: string, notes: string)

  datatype ManualPlay = ManualPlay(reply: Reply, played: Option<string>, log: Option<PlayLog>)

  /** `play_audio`: `onDisk` is `os.path.exists`, `plays` the player's
      result for a path. */
  function PlayAudio(d: Option<PlayBody>, onDisk: string -> bool, plays: string -> bool): (r: ManualPlay)
    ensures (d.None? || d.value == PlayBody(None, 0)) ==>
      r == ManualPlay(Reply(400, false, "No data provided"), None, None)
    ensures d.Some? && d.value != PlayBody(None, 0) && (d.value.audioFile.None? || d.value.audioFile == Some("")) ==>
      r == ManualPlay(Reply(400, false, "No audio file specified"), None, None)
    ensures r.reply.code == 404 <==>
      d.Some? && d.value.audioFile.Some? && d.value.audioFile.value != "" &&
      !onDisk("static/audio/" + d.value.audioFile.value)
    ensures r.played.Some? <==> r.reply.code == 200
    ensures r.played.Some? ==> r.played.value == "static/audio/" + d.value.audioFile.value
    ensures r.log.Some? <==> r.reply.code == 200 && r.reply.success
    ensures r.log.Some? ==> r.log.value == PlayLog(None, d.value.audioFile.value, "manual_play", "Played from announcements")
  {
    if d.None? || d.value == PlayBody(None, 0) then ManualPlay(Reply(400, false, "No data provided"), None, None)
    else if d.value.audioFile.None? || d.value.audioFile.value == "" then
      ManualPlay(Reply(400, false, "No audio file specified"), None, None)
    else
      var f := d.value.audioFile.value;
      var path := "static/audio/" + f;
      if !onDisk(path) then ManualPlay(Reply(404, false, "Audio file not found"), None, None)
      else
        var ok := plays(path);
        ManualPlay(Reply(200, ok, ""), Some(path), if ok then Some(PlayLog(None, f, "manual_play", "Played from announcements")) else None)
  }

  // ---------------------------------------------------------------------
  // PWA sync.

  /** One schedule of the sync body; missing fields are None. */
  datatype SyncSchedule = SyncSchedule(id: Option<int>, name: Option<string>, day: Option<string>,
                                       time: Option<string>, audioFile: Option<string>)

  /** One log of the sync body; missing fields are None. */
  datatype SyncLog = SyncLog(scheduleId: Option<int>, audioFile: Option<string>, status: Option<string>, notes: Option<string>)

  datatype SyncBody = SyncBody(schedules: Option<seq<SyncSchedule>>, logs: Option<seq<SyncLog>>, others: nat)

  /** A write `sync_data` issues to the table. */
  datatype DbWrite =
    | UpdateSchedule(id: int, name: string, day: string, time: string, audioFile: string)
    | AddSchedule(name: string, day: string, time: string, audioFile: string)
    | AddLog(log: PlayLog)

  /** `.get(key, '')`. */
  function OrEmpty(o: Option<string>): string { if o.Some? then o.value else "" }

  /** `'id' in schedule and schedule['id']`: present and not zero. */
  predicate HasId(s: SyncSchedule) { s.id.Some? && s.id.value != 0 }

  /** The write for one synced schedule: an update when it has an id, an
      add otherwise. */
  function ScheduleWrite(s: SyncSchedule): (w: DbWrite)
    ensures w.UpdateSchedule? <==> HasId(s)
    ensures w.AddSchedule? <==> !HasId(s)
  {
    if HasId(s) then UpdateSchedule(s.id.value, OrEmpty(s.name), OrEmpty(s.day), OrEmpty(s.time), OrEmpty(s.audioFile))
    else AddSchedule(OrEmpty(s.name), OrEmpty(s.day), OrEmpty(s.time), OrEmpty(s.audioFile))
  }

  function LogWrite(l: SyncLog): (w: DbWrite)
    ensures w.AddLog? && w.log.scheduleId == l.scheduleId
    ensures w.log.audioFile == (if l.audioFile.Some? then l.audioFile.value else "")
    ensures w.log.status == (if l.status.Some? then l.status.value else "")
    ensures w.log.notes == (if l.notes.Some? then l.notes.value else "")
  {
    AddLog(PlayLog(l.scheduleId, OrEmpty(l.audioFile), OrEmpty(l.status), OrEmpty(l.notes)))
  }

  predicate EmptySync(d: Option<SyncBody>)
  {
    d.None? || (d.value.schedules.None? && d.value.logs.None? && d.value.others == 0)
  }

  /** `sync_data`: one write per synced schedule, in order, then one log
      write per synced log, in order. */
  method SyncData(d: Option<SyncBody>) returns (reply: Reply, writes: seq<DbWrite>)
    ensures EmptySync(d) ==> reply == Reply(400, false, "No data provided") && writes == []
    ensures !EmptySync(d) ==> reply == Reply(200, true, "")
    ensures !EmptySync(d) ==>
      var ss := if d.value.schedules.Some? then d.value.schedules.value else [];
      var ls := if d.value.logs.Some? then d.value.logs.value else [];
      |writes| == |ss| + |ls| &&
      (forall i :: 0 <= i < |ss| ==> writes[i] == ScheduleWrite(ss[i])) &&
      (forall j :: 0 <= j < |ls| ==> writes[|ss| + j] == LogWrite(ls[j]))
  {
    writes := [];
    if EmptySync(d) {
      return Reply(400, false, "No data provided"), [];
    }
    var ss := if d.value.schedules.Some? then d.value.schedules.value else [];
    var ls := if d.value.logs.Some? then d.value.logs.value else [];
    for i := 0 to |ss|
      invariant |writes| == i
      invariant forall k :: 0 <= k < i ==> writes[k] == ScheduleWrite(ss[k])
    {
      writes := writes + [ScheduleWrite(ss[i])];
    }
    for j := 0 to |ls|
      invariant |writes| == |ss| + j
      invariant forall k :: 0 <= k < |ss| ==> writes[k] == ScheduleWrite(ss[k])
      invariant forall k :: 0 <= k < j ==> writes[|ss| + k] == LogWrite(ls[k])
    {
      writes := writes + [LogWrite(ls[j])];
    }
    reply := Reply(200, true, "");
  }
}

=== FILE: audio_page.dfy ===
/** The audio-library page (`static/js/audio.js`): the checks `uploadAudio`
    makes before posting, what it tells the user afterwards, and the display
    name filled in from a chosen file. The form, the modal and the request
    itself are outside the model. */
module AudioPage {
  import opened Text
  import App

  /** The largest upload the page sends: 50 MiB. */
  const MaxUploadBytes: nat := 50 * 1024 * 1024

  /** The chosen file: its name and size in bytes. */
  datatype File = File(name: string, size: nat)

  /** What `uploadAudio` does before any request. */
  datatype Precheck = Incomplete | TooLarge | Send(file: File, displayName: string)

  /** `uploadAudio`'s guards: both fields must be filled (an empty name is
      falsy), then the size must not exceed 50 MiB. */
  function CheckUpload(displayName: string, file: Option<File>): (r: Precheck)
    ensures r == Incomplete <==> displayName == "" || file.None?
    ensures r == TooLarge <==> displayName != "" && file.Some? && file.value.size > MaxUploadBytes
    ensures r.Send? ==> r.file == file.value && r.displayName == displayName && r.file.size <= MaxUploadBytes
  {
    if displayName == "" || file.None? then Incomplete
    else if file.value.size > MaxUploadBytes then TooLarge
    else Send(file.value, displayName)
  }

  /** Example: a file of exactly 50 MiB is sent; one byte more is refused. */
  lemma SizeBoundary(name: string)
    requires name != ""
    ensures CheckUpload(name, Some(File("a.mp3", MaxUploadBytes))).Send?
    ensures CheckUpload(name, Some(File("a.mp3", MaxUploadBytes + 1))) == TooLarge
  {
  }

  /** The server's answer: the request or its JSON failed, or a reply. */
  datatype Answer = RequestFailed | Replied(success: bool, error: string)

  /** The toast `uploadAudio` shows, and whether the page reloads. */
  datatype Toast = Toast(message: string, kind: string)

  function UploadToast(p: Precheck, a: Answer): (r: (Toast, bool))
    ensures r.1 <==> p.Send? && a.Replied? && a.success
    ensures p == Incomplete ==> r.0 == Toast("Mohon lengkapi semua field", "warning")
    ensures p == TooLarge ==> r.0 == Toast("Ukuran file maksimal 50MB", "danger")
    ensures p.Send? && a.Replied? && !a.success ==> r.0 == Toast("Gagal upload file: " + a.error, "danger")
    ensures p.Send? && a.RequestFailed? ==> r.0 == Toast("Gagal upload file audio", "danger")
  {
    match p
    case Incomplete => (Toast("Mohon lengkapi semua field", "warning"), false)
    case TooLarge => (Toast("Ukuran file maksimal 50MB", "danger"), false)
    case Send(_, _) =>
      match a
      case RequestFailed => (Toast("Gagal upload file audio", "danger"), false)
      case Replied(success, error) =>
        if success then (Toast("File audio berhasil diupload", "success"), true)
        else (Toast("Gagal upload file: " + error, "danger"), false)
  }

  /** What the page's `response.json()` makes of the server's answer: Flask's
      413 page is HTML, so parsing fails and the request counts as failed. */
  function ServerAnswer(u: App.Upload): (a: Answer)
    ensures a.RequestFailed? <==> u.EntityTooLarge?
    ensures u.Refused? ==> a == Replied(false, u.reply.error)
    ensures u.Saved? ==> a.Replied? && a.success
  {
    match u
    case EntityTooLarge => RequestFailed
    case Refused(reply) => Replied(false, reply.error)
    case Saved(_, _) => Replied(true, "")
  }

  /** The page's 50 MiB bound is on the file, the server's on the whole
      multipart body, which carries the file's bytes and more: a file at the
      page's limit is sent and refused by the server, and the user sees the
      generic failure toast. */
  lemma ClientLimitMeetsServerLimit(displayName: string, f: File, bodyLength: nat,
                                    secure: string -> string, stamp: string)
    requires displayName != "" && f.size == MaxUploadBytes && bodyLength > f.size
    ensures CheckUpload(displayName, Some(f)).Send?
    ensures App.UploadAudio(bodyLength, Some(f.name), secure, stamp) == App.EntityTooLarge
    ensures UploadToast(CheckUpload(displayName, Some(f)), ServerAnswer(App.UploadAudio(bodyLength, Some(f.name), secure, stamp)))
            == (Toast("Gagal upload file audio", "danger"), false)
  {
  }

  // ---------------------------------------------------------------------
  // Display name auto-fill.

  /** `filename.substring(0, filename.lastIndexOf('.'))`: `substring` turns
      the -1 of a name without a dot into 0, so such a name gives `''`. */
  function DerivedName(filename: string): (r: string)
    ensures '.' !in filename ==> r == ""
    ensures '.' in filename ==>
      exists ext :: r + ext == filename && |ext| >= 1 && ext[0] == '.' && '.' !in ext[1..]
  {
    var i := LastIndexOf(filename, '.');
    if i < 0 then ""
    else
      assert filename[..i] + filename[i..] == filename;
      assert filename[i..][1..] == filename[i + 1..];
      filename[..i]
  }

  /** The `change` listener: with a file chosen and the display name empty,
      the name becomes the derived one; otherwise it stays. */
  function AutoFill(chosen: Option<string>, displayName: string): (r: string)
    ensures chosen.Some? && displayName == "" ==> r == DerivedName(chosen.value)
    ensures !(chosen.Some? && displayName == "") ==> r == displayName
  {
    if chosen.Some? && displayName == "" then DerivedName(chosen.value) else displayName
  }

  /** For a file whose name has a stem and an extension, the page's derived
      name is the stem the server's `os.path.splitext` finds. */
  lemma DerivedNameIsServerStem(filename: string)
    requires App.SplitExt(filename).1 != ""
    ensures DerivedName(filename) == App.SplitExt(filename).0
  {
    var i := LastIndexOf(filename, '.');
    assert i > 0;
  }

  /** A name without a dot fills in nothing, so the upload stays incomplete
      until a name is typed. */
  lemma NoDotLeavesNameEmpty(filename: string, file: File)
    requires '.' !in filename
    ensures CheckUpload(AutoFill(Some(filename), ""), Some(file)) == Incomplete
  {
  }
}

=== FILE: auth.dfy ===
/** Sign-in (`auth.py`, and the `/login` and `/logout` routes of `app.py`
    that use it): the fixed user table, password checking, roles and the
    two route guards.

    SHA-256 is a parameter `hash`: the model never looks inside it. The
    Flask session is a map from keys to strings. */
module Auth {
  import opened Text

  datatype User = User(passwordHash: string, role: string)

  /** `DEFAULT_USERS`: `admin` and `operator`, both with the hash of
      `nopassword`. */
  function DefaultUsers(hash: string -> string): (users: map<string, User>)
    ensures users.Keys == {"admin", "operator"}
    ensures users["admin"].role == "admin" && users["operator"].role == "operator"
  {
    map["admin" := User(hash("nopassword"), "admin"), "operator" := User(hash("nopassword"), "operator")]
  }

  /** `verify_password`: the user must exist and the password's hash must
      equal the stored one. */
  function VerifyPassword(users: map<string, User>, hash: string -> string, username: string, password: string): (ok: bool)
    ensures ok <==> username in users && users[username].passwordHash == hash(password)
  {
    if username in users then users[username].passwordHash == hash(password) else false
  }

  /** `get_user_role`: the stored role, or None for an unknown user. */
  function GetUserRole(users: map<string, User>, username: string): (r: Option<string>)
    ensures r.Some? <==> username in users
    ensures r.Some? ==> r.value == users[username].role
  {
    if username in users then Some(users[username].role) else None
  }

  /** Both default accounts accept the shipped password, whatever the hash. */
  lemma DefaultPasswordWorks(hash: string -> string)
    ensures VerifyPassword(DefaultUsers(hash), hash, "admin", "nopassword")
    ensures VerifyPassword(DefaultUsers(hash), hash, "operator", "nopassword")
    ensures forall u, p :: u != "admin" && u != "operator" ==> !VerifyPassword(DefaultUsers(hash), hash, u, p)
  {
  }

  // ---------------------------------------------------------------------
  // Guards.

  type Session = map<string, string>

  /** What a guarded route does: run the view, or redirect with a flash
      message. */
  datatype Decision =
    | CallThrough
    | ToLogin(next: string)   // `Silakan login terlebih dahulu`, `?next=` the requested URL
    | ToIndex                 // `Akses ditolak. ...`

  /** `login_required`. */
  function LoginRequired(session: Session, url: string): (d: Decision)
    ensures d == CallThrough <==> "username" in session
    ensures d != CallThrough ==> d == ToLogin(url)
  {
    if "username" !in session then ToLogin(url) else CallThrough
  }

  /** `admin_required`: no user means the login page; a role other than
      `admin`, or none, means the index; otherwise the view runs. */
  function AdminRequired(session: Session, url: string): (d: Decision)
    ensures d == ToLogin(url) <==> "username" !in session
    ensures d == ToIndex <==> "username" in session && ("role" !in session || session["role"] != "admin")
    ensures d == CallThrough <==> "username" in session && "role" in session && session["role"] == "admin"
  {
    if "username" !in session then ToLogin(url)
    else if "role" !in session || session["role"] != "admin" then ToIndex
    else CallThrough
  }

  /** Whatever the admin guard lets through, the login guard lets through,
      and both send an anonymous visitor to the same login redirect. */
  lemma AdminImpliesLogin(session: Session, url: string)
    ensures AdminRequired(session, url) == CallThrough ==> LoginRequired(session, url) == CallThrough
    ensures LoginRequired(session, url) != CallThrough ==> AdminRequired(session, url) == LoginRequired(session, url)
  {
  }

  // ---------------------------------------------------------------------
  // The routes that write the session.

  /** A POST to `/login`: on a verified password, `username` and `role` are
      stored and the browser goes to `next` or the index; otherwise the
      session is unchanged. */
  function Login(users: map<string, User>, hash: string -> string, session: Session,
                 username: string, password: string, next: Option<string>): (r: (Session, Option<string>))
    ensures VerifyPassword(users, hash, username, password) ==>
      r.0 == session["username" := username]["role" := users[username].role] &&
      r.1 == Some(if next.Some? && next.value != "" then next.value else "/")
    ensures !VerifyPassword(users, hash, username, password) ==> r == (session, None)
  {
    if VerifyPassword(users, hash, username, password) then
      var role := GetUserRole(users, username);
      (session["username" := username]["role" := role.value],
       Some(if next.Some? && next.value != "" then next.value else "/"))
    else (session, None)
  }

  /** `/logout` clears the whole session. */
  function Logout(session: Session): (r: Session)
    ensures forall url :: LoginRequired(r, url) == ToLogin(url) && AdminRequired(r, url) == ToLogin(url)
  {
    map[]
  }

  /** After signing in, every `login_required` page opens, and an
      `admin_required` page opens exactly for the `admin` role. */
  lemma LoginOpensGuards(users: map<string, User>, hash: string -> string, session: Session,
                         username: string, password: string, next: Option<string>, url: string)
    requires VerifyPassword(users, hash, username, password)
    ensures var s := Login(users, hash, session, username, password, next).0;
      LoginRequired(s, url) == CallThrough &&
      (AdminRequired(s, url) == CallThrough <==> users[username].role == "admin")
  {
  }

  /** Example: the shipped `operator` account is kept out of admin pages, `admin` is
      let in. */
  lemma OperatorIsNotAdmin(hash: string -> string, session: Session, url: string)
    ensures var s := Login(DefaultUsers(hash), hash, session, "operator", "nopassword", None).0;
      AdminRequired(s, url) == ToIndex
    ensures var s := Login(DefaultUsers(hash), hash, session, "admin", "nopassword", None).0;
      AdminRequired(s, url) == CallThrough
  {
  }
}

=== FILE: bell_scheduler.dfy ===
/** The server's bell scheduler (`scheduler.py`): it turns the schedule
    table into weekly cron jobs, keyed both in its own `jobs` dictionary
    (schedule id to job) and in the cron store under `schedule_<id>`, and
    decides what a job does when it fires.

    The cron store stands for APScheduler's job store; its firing is not
    modelled beyond `FiresAt`, the moment a job's trigger names. */
module ServerScheduler {
  import opened Text
  import opened Clock
  import opened Schedules

  /** A registered job: the schedule it plays and its weekly trigger
      (Python weekday, Monday 0). */
  datatype Job = Job(scheduleId: int, dayNum: nat, hour: nat, minute: nat, audioFile: string, name: string)

  /** `f"schedule_{schedule_id}"`. */
  function JobId(id: int): (r: string)
    ensures |r| > 9 && r[..9] == "schedule_"
  {
    "schedule_" + IntToString(id)
  }

  lemma JobIdInjective(a: int, b: int)
    requires JobId(a) == JobId(b)
    ensures a == b
  {
    assert JobId(a)[9..] == IntToString(a);
    assert JobId(b)[9..] == IntToString(b);
    IntToStringInjective(a, b);
  }

  /** The trigger `add_job` builds for a row, or None when it returns False:
      the time does not parse as two integers, the day is not one of the
      seven names, or the cron trigger refuses the hour or minute. */
  function JobFor(s: Schedule): (r: Option<Job>)
    ensures r.Some? <==> CronClock(s.time).Some? && PyDayNumber(s.day).Some?
    ensures r.Some? ==>
      r.value.scheduleId == s.id && r.value.dayNum < 7 &&
      r.value.hour < 24 && r.value.minute < 60 && AppDayName(r.value.dayNum) == s.day
  {
    match (CronClock(s.time), PyDayNumber(s.day))
    case (Some(hm), Some(d)) =>
      PyDayNumberInverse(s.day);
      Some(Job(s.id, d, hm.0, hm.1, s.audioFile, s.name))
    case _ => None
  }

  /** The moment a job's cron trigger names. */
  predicate FiresAt(j: Job, weekday: nat, h: nat, m: nat)
  {
    j.dayNum == weekday && j.hour == h && j.minute == m
  }

  /** A row the browser engine finds due on the day it calls `JsDayName(i)`
      at `HH:MM` gets a server job firing at that same moment (Python
      weekday `(i + 6) % 7`). */
  lemma CronAgreesWithBrowser(s: Schedule, i: nat, h: nat, m: nat)
    requires i < 7 && h < 24 && m < 60
    requires Holds(DueAt(JsDayName(i), FormatTime(h, m)), s)
    ensures JobFor(s).Some? && FiresAt(JobFor(s).value, (i + 6) % 7, h, m)
  {
  }

  /** `if schedule['is_active']` followed by a successful `add_job`. */
  predicate Loads(s: Schedule)
  {
    s.isActive != 0 && JobFor(s).Some?
  }

  /** The `jobs` dictionary after loading the rows in order: a later row
      with the same id replaces an earlier one. */
  function Registered(rows: seq<Schedule>): map<int, Job>
  {
    if rows == [] then map[]
    else
      var m := Registered(rows[..|rows| - 1]);
      var s := rows[|rows| - 1];
      if Loads(s) then m[s.id := JobFor(s).value] else m
  }

  /** An id holds a job exactly when some row with that id loads. */
  lemma RegisteredDomain(rows: seq<Schedule>, k: int)
    ensures k in Registered(rows) <==> exists i :: 0 <= i < |rows| && Loads(rows[i]) && rows[i].id == k
  {
    if k in Registered(rows) {
      RegisteredHasRow(rows, k);
    }
    if exists i :: 0 <= i < |rows| && Loads(rows[i]) && rows[i].id == k {
      var i :| 0 <= i < |rows| && Loads(rows[i]) && rows[i].id == k;
      RowIsRegistered(rows, i);
    }
  }

  lemma {:induction false} RegisteredHasRow(rows: seq<Schedule>, k: int)
    requires k in Registered(rows)
    ensures exists i :: 0 <= i < |rows| && Loads(rows[i]) && rows[i].id == k
  {
    var init, s := rows[..|rows| - 1], rows[|rows| - 1];
    if Loads(s) && s.id == k {
      assert Loads(rows[|rows| - 1]);
    } else {
      RegisteredHasRow(init, k);
      var i :| 0 <= i < |init| && Loads(init[i]) && init[i].id == k;
      assert rows[i] == init[i];
    }
  }

  lemma {:induction false} RowIsRegistered(rows: seq<Schedule>, i: nat)
    requires i < |rows| && Loads(rows[i])
    ensures rows[i].id in Registered(rows)
  {
    var init, s := rows[..|rows| - 1], rows[|rows| - 1];
    if i < |init| {
      assert init[i] == rows[i];
      RowIsRegistered(init, i);
    }
  }

  /** The job kept under an id is the one of the last row with that id that
      loads. */
  lemma {:induction false} RegisteredLast(rows: seq<Schedule>, i: nat)
    requires i < |rows| && Loads(rows[i])
    requires forall j :: i < j < |rows| ==> !(Loads(rows[j]) && rows[j].id == rows[i].id)
    ensures rows[i].id in Registered(rows) && Registered(rows)[rows[i].id] == JobFor(rows[i]).value
  {
    var init := rows[..|rows| - 1];
    if i < |rows| - 1 {
      assert init[i] == rows[i];
      forall j | i < j < |init| ensures !(Loads(init[j]) && init[j].id == init[i].id) {
        assert init[j] == rows[j];
      }
      RegisteredLast(init, i);
    }
  }

  /** `loaded_count`: the rows that load. */
  function CountLoaded(rows: seq<Schedule>): (n: nat)
    ensures n <= |rows|
  {
    if rows == [] then 0
    else CountLoaded(rows[..|rows| - 1]) + (if Loads(rows[|rows| - 1]) then 1 else 0)
  }

  predicate DistinctIds(rows: seq<Schedule>)
  {
    forall i, j :: 0 <= i < j < |rows| ==> rows[i].id != rows[j].id
  }

  /** Every loaded row adds at most one key; with distinct ids exactly one,
      so `loaded_count` then equals `len(self.jobs)`. */
  lemma {:induction false} CountLoadedBounds(rows: seq<Schedule>)
    ensures |Registered(rows).Keys| <= CountLoaded(rows)
    ensures DistinctIds(rows) ==> |Registered(rows).Keys| == CountLoaded(rows)
  {
    if rows != [] {
      var init := rows[..|rows| - 1];
      var s := rows[|rows| - 1];
      CountLoadedBounds(init);
      var m := Registered(init);
      if Loads(s) {
        if s.id in m {
          assert m[s.id := JobFor(s).value].Keys == m.Keys;
        } else {
          assert m[s.id := JobFor(s).value].Keys == m.Keys + {s.id};
        }
        if DistinctIds(rows) && s.id in m {
          RegisteredDomain(init, s.id);
          assert false;
        }
      }
      assert DistinctIds(rows) ==> DistinctIds(init);
    }
  }

  /** A bell log row: `add_play_log(schedule_id, audio_file, status, notes)`. */
  datatype BellLog = BellLog(scheduleId: int, audioFile: string, status: string, notes: string)

  /** What `_play_scheduled_bell` does: the path it plays (if any) and the
      log row it writes. */
  datatype Firing = Firing(played: Option<string>, log: BellLog)

  /** `_play_scheduled_bell`: `holiday` is the `holiday_mode` setting (None
      when unset), `play` the player's result for a path. */
  function PlayScheduledBell(id: int, audioFile: string, holiday: Option<string>, play: string -> bool): (r: Firing)
    ensures r.log.scheduleId == id && r.log.audioFile == audioFile
    ensures holiday == Some("1") ==> r == Firing(None, BellLog(id, audioFile, "cancelled", "Holiday mode active"))
    ensures holiday != Some("1") ==> r.played == Some("static/audio/" + audioFile)
    ensures holiday != Some("1") && play("static/audio/" + audioFile) ==> r.log.status == "success" && r.log.notes == ""
    ensures holiday != Some("1") && !play("static/audio/" + audioFile) ==>
      r.log.status == "failed" && r.log.notes == "Audio file not found or error playing"
  {
    if holiday == Some("1") then Firing(None, BellLog(id, audioFile, "cancelled", "Holiday mode active"))
    else
      var path := "static/audio/" + audioFile;
      if play(path) then Firing(Some(path), BellLog(id, audioFile, "success", ""))
      else Firing(Some(path), BellLog(id, audioFile, "failed", "Audio file not found or error playing"))
  }

  /** The cron store and `jobs` hold the same jobs, the store under
      `schedule_<id>`. */
  predicate Mirrors(cron: map<string, Job>, jobs: map<int, Job>)
  {
    (forall k :: k in jobs ==> JobId(k) in cron && cron[JobId(k)] == jobs[k] && jobs[k].scheduleId == k) &&
    (forall j :: j in cron ==> cron[j].scheduleId in jobs && JobId(cron[j].scheduleId) == j)
  }

  lemma MirrorsSet(cron: map<string, Job>, jobs: map<int, Job>, job: Job)
    requires Mirrors(cron, jobs)
    ensures Mirrors(cron[JobId(job.scheduleId) := job], jobs[job.scheduleId := job])
  {
    var id := job.scheduleId;
    forall k | k in jobs && k != id ensures JobId(k) != JobId(id) {
      if JobId(k) == JobId(id) { JobIdInjective(k, id); }
    }
  }

  lemma MirrorsRemove(cron: map<string, Job>, jobs: map<int, Job>, id: int)
    requires Mirrors(cron, jobs)
    ensures Mirrors(cron - {JobId(id)}, jobs - {id})
  {
    forall k | k in jobs && k != id ensures JobId(k) != JobId(id) {
      if JobId(k) == JobId(id) { JobIdInjective(k, id); }
    }
  }

  class BellScheduler {
    /** APScheduler's job store, by job id. */
    var cron: map<string, Job>
    /** `self.jobs`, by schedule id. */
    var jobs: map<int, Job>

    predicate Valid()
      reads this
    {
      Mirrors(cron, jobs)
    }

    constructor ()
      ensures Valid() && jobs == map[] && cron == map[]
    {
      cron := map[];
      jobs := map[];
    }

    /** `add_job`: register the row's job, replacing any job of that id;
        False, with nothing changed, when the row does not parse. */
    method AddJob(s: Schedule) returns (ok: bool)
      requires Valid()
      modifies this
      ensures Valid()
      ensures ok <==> JobFor(s).Some?
      ensures ok ==> jobs == old(jobs)[s.id := JobFor(s).value] && JobId(s.id) in cron && cron[JobId(s.id)] == JobFor(s).value
      ensures !ok ==> jobs == old(jobs) && cron == old(cron)
    {
      var job := JobFor(s);
      if job.None? {
        return false;
      }
      MirrorsSet(cron, jobs, job.value);
      cron := cron[JobId(s.id) := job.value];
      jobs := jobs[s.id := job.value];
      ok := true;
    }

    /** `clear_all_jobs`. */
    method ClearAllJobs()
      modifies this
      ensures Valid() && jobs == map[] && cron == map[]
    {
      cron := map[];
      jobs := map[];
    }

    /** `load_schedules`: empty both stores, then add every active row, in
        order, counting the adds that succeed. */
    method LoadSchedules(rows: seq<Schedule>) returns (loadedCount: nat)
      requires Valid()
      modifies this
      ensures Valid()
      ensures jobs == Registered(rows)
      ensures loadedCount == CountLoaded(rows)
    {
      ClearAllJobs();
      loadedCount := 0;
      for i := 0 to |rows|
        invariant Valid()
        invariant jobs == Registered(rows[..i])
        invariant loadedCount == CountLoaded(rows[..i])
      {
        assert rows[..i + 1][..i] == rows[..i];
        if rows[i].isActive != 0 {
          var ok := AddJob(rows[i]);
          if ok {
            loadedCount := loadedCount + 1;
          }
        }
      }
      assert rows[..|rows|] == rows;
    }

    /** `remove_job`: the cron store raises for an unknown job id, which
        makes it False with nothing changed. */
    method RemoveJob(id: int) returns (ok: bool)
      requires Valid()
      modifies this
      ensures Valid()
      ensures ok <==> id in old(jobs)
      ensures jobs == old(jobs) - {id} && cron == old(cron) - {JobId(id)}
    {
      if JobId(id) !in cron {
        assert id !in jobs;
        return false;
      }
      JobIdInjective(cron[JobId(id)].scheduleId, id);
      MirrorsRemove(cron, jobs, id);
      cron := cron - {JobId(id)};
      jobs := jobs - {id};
      ok := true;
    }
  }

  /** `init_scheduler`: a fresh scheduler loaded from the table. */
  method InitScheduler(rows: seq<Schedule>) returns (b: BellScheduler)
    ensures fresh(b) && b.Valid() && b.jobs == Registered(rows)
  {
    b := new BellScheduler();
    var _ := b.LoadSchedules(rows);
  }

  /** Module `reload_schedules`: reload the global scheduler, or do nothing
      when it has not been created. */
  method ReloadSchedules(bell: BellScheduler?, rows: seq<Schedule>)
    requires bell != null ==> bell.Valid()
    modifies if bell != null then {bell} else {}
    ensures bell != null ==> bell.Valid() && bell.jobs == Registered(rows)
  {
    if bell != null {
      var _ := bell.LoadSchedules(rows);
    }
  }
}

=== FILE: client_player.dfy ===
/** The kiosk page (`client/player.js`): the countdown to the next bell,
    the status indicator, today's schedule list and the bell audio.

    Its globals (`countdownInterval`, `currentAudio`) and the countdown's
    `remaining` become the fields of one `ClientPlayer`; each timer tick or
    audio event is a method call. */
module ClientPlayer {
  import opened Text

  // ---------------------------------------------------------------------
  // Countdown text.

  /** `HH:MM:SS` of a number of seconds: hours, minutes of the hour and
      seconds of the minute, each padded to two digits. */
  function CountdownText(r: nat): (t: string)
    ensures |t| >= 8
    ensures r < 360000 ==> |t| == 8 && t[2] == ':' && t[5] == ':'
  {
    Pad2(r / 3600) + ":" + Pad2((r % 3600) / 60) + ":" + Pad2(r % 60)
  }

  /** The text reads back as the number of seconds it was made from. */
  lemma CountdownReadsBack(r: nat)
    requires r < 360000
    ensures var t := CountdownText(r);
      AllDigits(t[..2]) && AllDigits(t[3..5]) && AllDigits(t[6..]) &&
      DigitsValue(t[..2]) * 3600 + DigitsValue(t[3..5]) * 60 + DigitsValue(t[6..]) == r
  {
    var hh, mm, ss := r / 3600, (r % 3600) / 60, r % 60;
    HmsSplit(r);
    ThreeFields(Pad2(hh), Pad2(mm), Pad2(ss));
  }

  /** Hours, minutes and seconds of `r` put back together give `r`. */
  lemma HmsSplit(r: nat)
    requires r < 360000
    ensures r / 3600 < 100 && (r % 3600) / 60 < 60 && r % 60 < 60
    ensures (r / 3600) * 3600 + ((r % 3600) / 60) * 60 + r % 60 == r
  {
  }

  /** The fields of `a:b:c` for two-character `a`, `b`, `c`. */
  lemma ThreeFields(a: string, b: string, c: string)
    requires |a| == 2 && |b| == 2 && |c| == 2
    ensures var t := a + ":" + b + ":" + c;
      t[..2] == a && t[3..5] == b && t[6..] == c
  {
  }

  // ---------------------------------------------------------------------
  // Today's list.

  datatype Class = Past | Active | Upcoming

  /** `schedule.time < currentTime` is past, equal is active, the rest upcoming. */
  function Classify(time: string, now: string): (c: Class)
    ensures c == Past <==> Less(time, now)
    ensures c == Active <==> time == now
  {
    LessIrreflexive(now);
    if Less(time, now) then Past else if time == now then Active else Upcoming
  }

  /** Upcoming means strictly later than now. */
  lemma UpcomingIsLater(time: string, now: string)
    ensures Classify(time, now) == Upcoming <==> Less(now, time)
  {
    LessTotal(time, now);
    if Less(now, time) { LessAsymmetric(now, time); LessIrreflexive(now); }
  }

  /** Each class has its own icon. */
  function Icon(c: Class): (r: string)
    ensures r == "check-circle" <==> c == Past
    ensures r == "bell-fill" <==> c == Active
    ensures r == "alarm" <==> c == Upcoming
  {
    match c
    case Past => "check-circle"
    case Active => "bell-fill"
    case Upcoming => "alarm"
  }

  /** One entry of today's list as the page gets it. */
  datatype Entry = Entry(time: string, name: string)

  datatype Item = Item(time: string, name: string, cls: Class, icon: string)

  datatype ListView = EmptyState | Items(items: seq<Item>)

  /** `displaySchedules`: the empty state for a missing or empty list,
      otherwise one item per schedule, in order. */
  method DisplaySchedules(schedules: Option<seq<Entry>>, now: string) returns (v: ListView)
    ensures (schedules.None? || schedules.value == []) <==> v == EmptyState
    ensures v.Items? ==>
      |v.items| == |schedules.value| &&
      forall i :: 0 <= i < |v.items| ==>
        var e := schedules.value[i];
        v.items[i] == Item(e.time, e.name, Classify(e.time, now), Icon(Classify(e.time, now)))
  {
    if schedules.None? || |schedules.value| == 0 {
      return EmptyState;
    }
    var ss := schedules.value;
    var html: seq<Item> := [];
    for i := 0 to |ss|
      invariant |html| == i
      invariant forall k :: 0 <= k < i ==>
        html[k] == Item(ss[k].time, ss[k].name, Classify(ss[k].time, now), Icon(Classify(ss[k].time, now)))
    {
      var c := Classify(ss[i].time, now);
      html := html + [Item(ss[i].time, ss[i].name, c, Icon(c))];
    }
    v := Items(html);
  }

  // ---------------------------------------------------------------------
  // Status.

  datatype NextInfo = NextInfo(name: string, time: string, inSeconds: Option<int>)

  /** The status object the server pushes. */
  datatype StatusData = StatusData(isPlaying: bool, currentFile: Option<string>, holiday: bool, next: Option<NextInfo>)

  datatype Indicator = Playing(file: string) | Holiday | Online

  /** The indicator: playing first, then holiday, then online. */
  function IndicatorFor(d: StatusData): (r: Indicator)
    ensures d.isPlaying <==> r.Playing?
    ensures r == Holiday <==> !d.isPlaying && d.holiday
    ensures r == Online <==> !d.isPlaying && !d.holiday
    ensures r.Playing? ==> r.file == if d.currentFile.Some? && d.currentFile.value != "" then d.currentFile.value else "Audio"
  {
    if d.isPlaying then Playing(if d.currentFile.Some? && d.currentFile.value != "" then d.currentFile.value else "Audio")
    else if d.holiday then Holiday
    else Online
  }

  class ClientPlayer {
    /** `countdownInterval`: the id of the last interval started. */
    var countdownInterval: Option<nat>
    /** Intervals not yet cleared. */
    var live: set<nat>
    var nextTimer: nat
    var remaining: int
    var display: string
    var indicator: Indicator
    var nextBellShown: bool
    /** `currentAudio`: the URL of the bell being played. */
    var currentAudio: Option<string>
    /** Audio elements paused so far, oldest first. */
    var paused: seq<string>
    /** Status refreshes scheduled after a countdown reached zero. */
    var refreshes: nat

    /** At most one countdown runs: only the last interval started can be
        live. */
    predicate Valid()
      reads this
    {
      (forall x :: x in live ==> countdownInterval == Some(x)) &&
      (forall x :: x in live ==> x < nextTimer) &&
      (countdownInterval.Some? ==> countdownInterval.value < nextTimer)
    }

    constructor ()
      ensures Valid() && countdownInterval == None && live == {} && currentAudio == None && paused == []
    {
      countdownInterval, live, nextTimer := None, {}, 0;
      remaining, display, indicator, nextBellShown := 0, "", Online, false;
      currentAudio, paused, refreshes := None, [], 0;
    }

    /** `clearInterval(countdownInterval)`; the variable keeps its value. */
    method ClearCountdown()
      requires Valid()
      modifies this`live
      ensures Valid() && live == {}
    {
      if countdownInterval.Some? {
        live := live - {countdownInterval.value};
      }
      assert forall x :: x in live ==> countdownInterval == Some(x);
    }

    /** One run of `updateCountdown`: at zero or below show `00:00:00`, stop
        the interval and schedule a refresh; otherwise show the time left
        and count one second down. */
    method UpdateCountdown()
      requires Valid()
      modifies this`live, this`display, this`remaining, this`refreshes
      ensures Valid()
      ensures old(remaining) <= 0 ==>
        display == "00:00:00" && live == {} && remaining == old(remaining) && refreshes == old(refreshes) + 1
      ensures old(remaining) > 0 ==>
        display == CountdownText(old(remaining)) && remaining == old(remaining) - 1 &&
        live == old(live) && refreshes == old(refreshes)
    {
      if remaining <= 0 {
        display := "00:00:00";
        ClearCountdown();
        refreshes := refreshes + 1;
        return;
      }
      display := CountdownText(remaining);
      remaining := remaining - 1;
    }

    /** `startCountdown`: clear the running countdown, show the first value
        at once and start a fresh interval. */
    method StartCountdown(seconds: int)
      requires Valid()
      modifies this`live, this`display, this`remaining, this`refreshes, this`countdownInterval, this`nextTimer
      ensures Valid()
      ensures countdownInterval == Some(old(nextTimer)) && live == {old(nextTimer)}
      ensures seconds <= 0 ==> display == "00:00:00" && remaining == seconds
      ensures seconds > 0 ==> display == CountdownText(seconds) && remaining == seconds - 1
    {
      ClearCountdown();
      remaining := seconds;
      UpdateCountdown();
      countdownInterval := Some(nextTimer);
      live := {nextTimer};
      nextTimer := nextTimer + 1;
    }

    /** A tick of the running interval. */
    method Tick()
      requires Valid() && countdownInterval.Some? && countdownInterval.value in live
      modifies this`live, this`display, this`remaining, this`refreshes
      ensures Valid()
      ensures old(remaining) <= 0 ==> display == "00:00:00" && live == {}
      ensures old(remaining) > 0 ==> display == CountdownText(old(remaining)) && remaining == old(remaining) - 1
    {
      UpdateCountdown();
    }

    /** `hideNextBell`. */
    method HideNextBell()
      requires Valid()
      modifies this`nextBellShown, this`live
      ensures Valid() && !nextBellShown && live == {}
    {
      nextBellShown := false;
      ClearCountdown();
    }

    /** `updateStatus`: set the indicator; show the next bell and restart the
        countdown exactly when there is a next bell and holiday mode is off. */
    method UpdateStatus(d: StatusData)
      requires Valid()
      modifies this
      ensures Valid()
      ensures indicator == IndicatorFor(d)
      ensures nextBellShown <==> d.next.Some? && !d.holiday
      ensures nextBellShown ==>
        live == {old(nextTimer)} &&
        var s := if d.next.value.inSeconds.Some? then d.next.value.inSeconds.value else 0;
        remaining == (if s <= 0 then s else s - 1)
      ensures !nextBellShown ==> live == {}
      ensures currentAudio == old(currentAudio) && paused == old(paused)
    {
      indicator := IndicatorFor(d);
      if d.next.Some? && !d.holiday {
        nextBellShown := true;
        var s := if d.next.value.inSeconds.Some? then d.next.value.inSeconds.value else 0;
        StartCountdown(s);
      } else {
        HideNextBell();
      }
    }

    /** `playBellAudio`: pause and drop the previous audio, then create the
        new one. */
    method PlayBellAudio(origin: string, audioFile: string)
      modifies this`currentAudio, this`paused
      ensures currentAudio == Some(origin + "/api/client/audio/" + audioFile)
      ensures paused == old(paused) + (if old(currentAudio).Some? then [old(currentAudio).value] else [])
    {
      if currentAudio.Some? {
        paused := paused + [currentAudio.value];
        currentAudio := None;
      }
      currentAudio := Some(origin + "/api/client/audio/" + audioFile);
    }

    /** The audio's `ended` listener. */
    method AudioEnded()
      modifies this`currentAudio
      ensures currentAudio == None
    {
      currentAudio := None;
    }
  }
}

=== FILE: clock.dfy ===
/** Wall-clock text shared by the browser and server sides: `HH:MM` formatting,
    the two ways the code reads an `HH:MM` back (JavaScript `Number` on the
    pieces of `split(':')`, Python `int` followed by the cron trigger's range
    check), the three weekday tables, and the one-minute-early reminder delay. */
module Clock {
  import opened Text
  import opened JsNumbers

  const MinuteMs: nat := 60000
  const HourMs: nat := 3600000
  const DayMs: nat := 86400000
  /** The reminder is shown this long before the bell. */
  const LeadMs: nat := 60000

  /** `formatTime`: two zero-padded digits, a colon, two zero-padded digits. */
  function FormatTime(h: nat, m: nat): (r: string)
    requires h < 24 && m < 60
    ensures |r| == 5 && r[2] == ':'
    ensures AllDigits(r[..2]) && AllDigits(r[3..])
    ensures DigitsValue(r[..2]) == h && DigitsValue(r[3..]) == m
  {
    var r := Pad2(h) + ":" + Pad2(m);
    assert r[..2] == Pad2(h) && r[3..] == Pad2(m);
    r
  }

  lemma LessCons(c: char, a: string, d: char, b: string)
    ensures Less([c] + a, [d] + b) == if c != d then c < d else Less(a, b)
  {
    assert ([c] + a)[1..] == a && ([d] + b)[1..] == b;
  }

  lemma DigitCharOrder(x: nat, y: nat)
    requires x < 10 && y < 10
    ensures DigitChar(x) < DigitChar(y) <==> x < y
    ensures DigitChar(x) == DigitChar(y) <==> x == y
  {
  }

  /** The five characters of a formatted time, one by one. */
  lemma FormatTimeChars(h: nat, m: nat)
    requires h < 24 && m < 60
    ensures FormatTime(h, m) ==
      [DigitChar(h / 10)] + ([DigitChar(h % 10)] + ([':'] + ([DigitChar(m / 10)] + [DigitChar(m % 10)])))
  {
  }

  /** Lexicographic order of two digit quadruples. */
  predicate QuadLess(a1: nat, b1: nat, c1: nat, d1: nat, a2: nat, b2: nat, c2: nat, d2: nat)
  {
    if a1 != a2 then a1 < a2
    else if b1 != b2 then b1 < b2
    else if c1 != c2 then c1 < c2
    else d1 < d2
  }

  lemma FormatTimeQuad(h1: nat, m1: nat, h2: nat, m2: nat)
    requires h1 < 24 && m1 < 60 && h2 < 24 && m2 < 60
    ensures Less(FormatTime(h1, m1), FormatTime(h2, m2)) <==>
      QuadLess(h1 / 10, h1 % 10, m1 / 10, m1 % 10, h2 / 10, h2 % 10, m2 / 10, m2 % 10)
  {
    var a1, b1, c1, d1 := h1 / 10, h1 % 10, m1 / 10, m1 % 10;
    var a2, b2, c2, d2 := h2 / 10, h2 % 10, m2 / 10, m2 % 10;
    var t1, t2 := [DigitChar(d1)], [DigitChar(d2)];
    var u1, u2 := [DigitChar(c1)] + t1, [DigitChar(c2)] + t2;
    var v1, v2 := [':'] + u1, [':'] + u2;
    var w1, w2 := [DigitChar(b1)] + v1, [DigitChar(b2)] + v2;
    FormatTimeChars(h1, m1);
    FormatTimeChars(h2, m2);
    LessCons(DigitChar(a1), w1, DigitChar(a2), w2);
    LessCons(DigitChar(b1), v1, DigitChar(b2), v2);
    LessCons(':', u1, ':', u2);
    LessCons(DigitChar(c1), t1, DigitChar(c2), t2);
    LessCons(DigitChar(d1), [], DigitChar(d2), []);
    DigitCharOrder(a1, a2);
    DigitCharOrder(b1, b2);
    DigitCharOrder(c1, c2);
    DigitCharOrder(d1, d2);
  }

  lemma QuadMinutes(h1: nat, m1: nat, h2: nat, m2: nat)
    requires h1 < 24 && m1 < 60 && h2 < 24 && m2 < 60
    ensures QuadLess(h1 / 10, h1 % 10, m1 / 10, m1 % 10, h2 / 10, h2 % 10, m2 / 10, m2 % 10) <==>
      h1 * 60 + m1 < h2 * 60 + m2
  {
    var a1, b1, c1, d1 := h1 / 10, h1 % 10, m1 / 10, m1 % 10;
    var a2, b2, c2, d2 := h2 / 10, h2 % 10, m2 / 10, m2 % 10;
    assert h1 == 10 * a1 + b1 && h2 == 10 * a2 + b2;
    assert m1 == 10 * c1 + d1 && m2 == 10 * c2 + d2;
    assert b1 < 10 && b2 < 10 && d1 < 10 && d2 < 10 && c1 < 6 && c2 < 6;
  }

  /** Comparing formatted times as strings is comparing the minutes of the day:
      the string `<` that the pages use on `HH:MM` values orders them in time. */
  lemma FormatTimeOrder(h1: nat, m1: nat, h2: nat, m2: nat)
    requires h1 < 24 && m1 < 60 && h2 < 24 && m2 < 60
    ensures Less(FormatTime(h1, m1), FormatTime(h2, m2)) <==> h1 * 60 + m1 < h2 * 60 + m2
  {
    FormatTimeQuad(h1, m1, h2, m2);
    QuadMinutes(h1, m1, h2, m2);
  }

  // ---------------------------------------------------------------------
  // Reading `HH:MM` back.

  /** `const [hours, minutes] = time.split(':').map(Number)` followed by
      `setHours(hours, minutes, 0, 0)`, which truncates each number toward
      zero. A missing minutes piece is `undefined`, and it, NaN and the
      infinities all make the date invalid: None. Hours and minutes may be
      negative or large; the date arithmetic carries them over. */
  function JsClock(time: string): (r: Option<(int, int)>)
    ensures ':' !in time ==> r.None?
  {
    var parts := Split(time, ':');
    assert ':' !in time ==> |parts| == 1 by {
      if ':' !in time { SplitNone(time, ':'); }
    }
    if |parts| < 2 then None
    else match (JsNumber(parts[0]), JsNumber(parts[1]))
      case (Some(h), Some(m)) => Some((Trunc(h), Trunc(m)))
      case _ => None
  }

  /** Every `HH:MM` the pages write reads back as its hour and minute. */
  lemma JsClockFormatTime(h: nat, m: nat)
    requires h < 24 && m < 60
    ensures JsClock(FormatTime(h, m)) == Some((h, m))
  {
    FormatTimeDigits();
  }

  lemma FormatTimeDigits()
    ensures forall h: nat, m: nat {:trigger FormatTime(h, m)} :: h < 24 && m < 60 ==>
      var parts := Split(FormatTime(h, m), ':');
      |parts| == 2 && JsNumber(parts[0]) == Some(h as real) && JsNumber(parts[1]) == Some(m as real)
  {
    FormatTimeSplits();
    forall h: nat, m: nat | h < 24 && m < 60
      ensures var parts := Split(FormatTime(h, m), ':');
        |parts| == 2 && JsNumber(parts[0]) == Some(h as real) && JsNumber(parts[1]) == Some(m as real)
    {
      var s := FormatTime(h, m);
      JsNumberDigits(s[..2]);
      JsNumberDigits(s[3..]);
    }
  }

  /** `a:b` for pieces without a colon reads as the truncated numbers of
      its two pieces. */
  lemma {:induction false} JsClockPieces(a: string, b: string, h: real, m: real)
    requires ':' !in a && ':' !in b
    requires JsNumber(a) == Some(h) && JsNumber(b) == Some(m)
    ensures JsClock(a + [':'] + b) == Some((Trunc(h), Trunc(m)))
  {
    SplitTwo(a, ':', b);
  }

  /** Whole-number pieces read as themselves. */
  lemma {:induction false} JsClockWhole(a: string, b: string, h: int, m: int)
    requires ':' !in a && ':' !in b
    requires JsNumber(a) == Some(h as real) && JsNumber(b) == Some(m as real)
    ensures JsClock(a + [':'] + b) == Some((h, m))
  {
    JsClockPieces(a, b, h as real, m as real);
    TruncWhole(h);
    TruncWhole(m);
  }

  /** `a:b` with a piece `Number` rejects is an invalid date. */
  lemma {:induction false} JsClockNonNumeral(a: string, b: string)
    requires ':' !in a && ':' !in b
    requires JsNumber(a).None? || JsNumber(b).None?
    ensures JsClock(a + [':'] + b) == None
  {
    SplitTwo(a, ':', b);
  }

  /** Digit pieces of any length read as their values; an empty piece is 0. */
  lemma {:induction false} JsClockDigits(a: string, b: string)
    requires AllDigits(a) && AllDigits(b)
    ensures JsClock(a + [':'] + b) == Some((DigitsValue(a) as int, DigitsValue(b) as int))
  {
    assert ':' !in a && ':' !in b by { assert !IsDigit(':'); }
    JsNumberDigits(a);
    JsNumberDigits(b);
    JsClockWhole(a, b, DigitsValue(a), DigitsValue(b));
  }

  /** White space around the hour piece is dropped. */
  lemma {:induction false} JsClockPadded(w1: string, a: string, w2: string, b: string)
    requires AllJsSpace(w1) && AllJsSpace(w2) && ':' !in a && ':' !in b
    ensures JsClock(w1 + a + w2 + [':'] + b) == JsClock(a + [':'] + b)
  {
    assert ':' !in w1 + a + w2 by { assert !IsJsSpace(':'); }
    JsNumberPadded(w1, a, w2);
    if JsNumber(a).Some? && JsNumber(b).Some? {
      JsClockPieces(w1 + a + w2, b, JsNumber(a).value, JsNumber(b).value);
      JsClockPieces(a, b, JsNumber(a).value, JsNumber(b).value);
    } else {
      JsClockNonNumeral(w1 + a + w2, b);
      JsClockNonNumeral(a, b);
    }
  }

  lemma FormatTimeSplits()
    ensures forall h: nat, m: nat {:trigger FormatTime(h, m)} :: h < 24 && m < 60 ==>
      Split(FormatTime(h, m), ':') == [FormatTime(h, m)[..2], FormatTime(h, m)[3..]]
  {
    forall h: nat, m: nat | h < 24 && m < 60
      ensures Split(FormatTime(h, m), ':') == [FormatTime(h, m)[..2], FormatTime(h, m)[3..]]
    {
      var s := FormatTime(h, m);
      var a, b := s[..2], s[3..];
      assert ':' !in a by { assert forall i :: 0 <= i < |a| ==> IsDigit(a[i]); }
      assert ':' !in b by { assert forall i :: 0 <= i < |b| ==> IsDigit(b[i]); }
      assert s == a + [':'] + b;
      SplitTwo(a, ':', b);
    }
  }

  /** `hour, minute = map(int, time_str.split(':'))` followed by the cron
      trigger's field check: None when either raises. */
  function CronClock(time: string): (r: Option<(nat, nat)>)
    ensures r.Some? ==> r.value.0 < 24 && r.value.1 < 60
    ensures forall h: nat, m: nat :: h < 24 && m < 60 && time == FormatTime(h, m) ==> r == Some((h, m))
  {
    var parts := Split(time, ':');
    FormatTimeSplits();
    if |parts| != 2 then None
    else match (SignedInt(parts[0]), SignedInt(parts[1]))
      case (Some(h), Some(m)) => if 0 <= h < 24 && 0 <= m < 60 then Some((h as nat, m as nat)) else None
      case _ => None
  }

  // ---------------------------------------------------------------------
  // Weekday tables.

  /** Browser `getDayName`: `Date.getDay()` index, Sunday first. */
  function JsDayName(i: nat): (r: string)
    requires i < 7
    ensures PyDayNumber(r) == Some((i + 6) % 7)
  {
    ["Minggu", "Senin", "Selasa", "Rabu", "Kamis", "Jumat", "Sabtu"][i]
  }

  /** Server status page: Python `weekday()` index, Monday first. */
  function AppDayName(w: nat): (r: string)
    requires w < 7
    ensures PyDayNumber(r) == Some(w)
    ensures r == JsDayName((w + 1) % 7)
  {
    ["Senin", "Selasa", "Rabu", "Kamis", "Jumat", "Sabtu", "Minggu"][w]
  }

  /** Server scheduler `day_mapping.get(day_of_week)`: Senin is 0, Minggu is 6. */
  function PyDayNumber(name: string): (r: Option<nat>)
    ensures r.Some? ==> r.value < 7
  {
    if name == "Senin" then Some(0)
    else if name == "Selasa" then Some(1)
    else if name == "Rabu" then Some(2)
    else if name == "Kamis" then Some(3)
    else if name == "Jumat" then Some(4)
    else if name == "Sabtu" then Some(5)
    else if name == "Minggu" then Some(6)
    else None
  }

  /** The day map knows exactly the seven names the pages produce. */
  lemma PyDayNumberInverse(name: string)
    ensures PyDayNumber(name).Some? <==> exists w: nat :: w < 7 && AppDayName(w) == name
    ensures PyDayNumber(name).Some? ==> AppDayName(PyDayNumber(name).value) == name
  {
    if PyDayNumber(name).Some? {
      var w := PyDayNumber(name).value;
      assert AppDayName(w) == name;
    }
  }

  // ---------------------------------------------------------------------
  // The one-minute-early reminder.

  /** `scheduleNextNotification`'s delay: the time from `nowMs` (milliseconds
      since local midnight) to the next occurrence of the schedule's clock
      time -- today when strictly later, otherwise tomorrow -- less one minute.
      None when the time text makes the date arithmetic NaN. */
  function ReminderDelay(time: string, nowMs: nat): (r: Option<int>)
    requires nowMs < DayMs
    ensures r.Some? <==> JsClock(time).Some?
    ensures r.Some? && 0 <= JsClock(time).value.0 < 24 && 0 <= JsClock(time).value.1 < 60 ==>
      -(LeadMs as int) < r.value <= DayMs - LeadMs
  {
    match JsClock(time)
    case None => None
    case Some((h, m)) =>
      var at := h * HourMs + m * MinuteMs;
      var target := if at <= nowMs then at + DayMs else at;
      Some(target - nowMs - LeadMs)
  }

  /** A time that falls on or before this morning's midnight has passed,
      so the reminder aims at that time of day after the coming midnight:
      `-1:30` (its hour piece reads as -1) is 23:30 the day before, and the
      reminder is for 23:29 today. */
  lemma NegativeHourRollsOver(time: string, nowMs: nat, h: int, m: int)
    requires nowMs < DayMs && JsClock(time) == Some((h, m)) && h * HourMs + m * MinuteMs <= 0
    ensures ReminderDelay(time, nowMs) == Some(DayMs + h * HourMs + m * MinuteMs - nowMs - LeadMs)
  {
    DelayFromClock(time, nowMs, h, m, h * HourMs + m * MinuteMs);
  }

  /** The delay `setTimeout` waits: its argument is a WebIDL `long`, read
      modulo 2^32 as a signed 32-bit number, and a negative one waits 0. */
  function TimerDelay(d: int): (w: int)
    ensures 0 <= w < 0x8000_0000
    ensures 0 <= d < 0x8000_0000 ==> w == d
    ensures 0x8000_0000 <= d < 0x1_0000_0000 ==> w == 0
  {
    var u := d % 0x1_0000_0000;
    var s := if u >= 0x8000_0000 then u - 0x1_0000_0000 else u;
    if s < 0 then 0 else s
  }

  /** A clock text later than the one shown now names an instant later today. */
  lemma LaterClockIsLater(nowMs: nat, h: nat, m: nat)
    requires nowMs < DayMs && h < 24 && m < 60
    requires Less(FormatTime(nowMs / HourMs, (nowMs % HourMs) / MinuteMs), FormatTime(h, m))
    ensures nowMs < h * HourMs + m * MinuteMs
  {
    var ch, r := nowMs / HourMs, nowMs % HourMs;
    var cm := r / MinuteMs;
    FormatTimeOrder(ch, cm, h, m);
    assert nowMs == ch * HourMs + r;
    assert r < (cm + 1) * MinuteMs;
    assert ch * 60 + cm + 1 <= h * 60 + m;
    assert nowMs < (ch * 60 + cm + 1) * MinuteMs;
  }

  /** For a time later today the reminder delay needs no roll-over. */
  lemma ReminderDelaySameDay(time: string, nowMs: nat, h: nat, m: nat)
    requires nowMs < DayMs && nowMs < h * HourMs + m * MinuteMs
    requires JsClock(time) == Some((h as int, m as int))
    ensures ReminderDelay(time, nowMs) == Some(h * HourMs + m * MinuteMs - nowMs - LeadMs)
  {
    DelayFromClock(time, nowMs, h, m, h * HourMs + m * MinuteMs);
  }

  lemma DelayFromClock(time: string, nowMs: nat, h: int, m: int, at: int)
    requires nowMs < DayMs && JsClock(time) == Some((h, m)) && at == h * HourMs + m * MinuteMs
    ensures ReminderDelay(time, nowMs) == Some((if at <= nowMs then at + DayMs else at) - nowMs - LeadMs)
  {
  }

  /** The instant `u` (milliseconds from today's midnight) shows clock time `h:m`. */
  predicate ShowsClock(u: int, h: nat, m: nat) { u % DayMs == h * HourMs + m * MinuteMs }

  /** The reminder fires one minute before the first instant strictly after
      now at which the clock reads the schedule's time -- for every time
      text that reads as a clock time, each `HH:MM` included
      (`JsClockFormatTime`). */
  lemma {:induction false} ReminderTargetsNextOccurrence(time: string, h: nat, m: nat, nowMs: nat)
    requires h < 24 && m < 60 && nowMs < DayMs
    requires JsClock(time) == Some((h as int, m as int))
    ensures ReminderDelay(time, nowMs).Some?
    ensures var t := nowMs + ReminderDelay(time, nowMs).value + LeadMs;
      nowMs < t && ShowsClock(t, h, m) &&
      forall u :: nowMs < u && ShowsClock(u, h, m) ==> t <= u
  {
    var at := h * HourMs + m * MinuteMs;
    var d := (if at <= nowMs then at + DayMs else at) - nowMs - LeadMs;
    DelayFromClock(time, nowMs, h, m, at);
    assert ReminderDelay(time, nowMs) == Some(d);
    NextOccurrenceAt(h, m, at, nowMs, d);
  }

  /** The arithmetic of `ReminderTargetsNextOccurrence`, for the clock time's
      milliseconds `at`. */
  lemma NextOccurrenceAt(h: nat, m: nat, at: int, nowMs: nat, d: int)
    requires h < 24 && m < 60 && nowMs < DayMs && at == h * HourMs + m * MinuteMs
    requires d == (if at <= nowMs then at + DayMs else at) - nowMs - LeadMs
    ensures var t := nowMs + d + LeadMs;
      nowMs < t && ShowsClock(t, h, m) &&
      forall u :: nowMs < u && ShowsClock(u, h, m) ==> t <= u
  {
    ClockMsInDay(h, m, at);
    FirstOccurrence(at, nowMs, nowMs + d + LeadMs);
  }

  /** A clock time's milliseconds from midnight fall within the day. */
  lemma ClockMsInDay(h: nat, m: nat, at: int)
    requires h < 24 && m < 60 && at == h * HourMs + m * MinuteMs
    ensures 0 <= at < DayMs
  {
    assert h * HourMs <= 23 * HourMs;
    assert m * MinuteMs <= 59 * MinuteMs;
  }

  /** The first instant after `nowMs` whose time of day is `at`. */
  lemma FirstOccurrence(at: int, nowMs: int, t: int)
    requires 0 <= at < DayMs && 0 <= nowMs < DayMs
    requires t == if at <= nowMs then at + DayMs else at
    ensures nowMs < t && t % DayMs == at
    ensures forall u :: nowMs < u && u % DayMs == at ==> t <= u
  {
    forall u | nowMs < u && u % DayMs == at ensures t <= u {
      var q := u / DayMs;
      assert u == q * DayMs + at;
      if at <= nowMs {
        assert q >= 1;
      } else {
        assert q >= 0;
      }
    }
  }
}

=== FILE: js_number.dfy ===
/** JavaScript's string-to-number conversion (`Number(piece)`, the
    StringToNumber operation of section 7.1.4.1.1 of ECMA-262) and the
    truncation `Date.prototype.setHours` applies to its arguments
    (ToIntegerOrInfinity inside MakeTime, section 21.4.1.28).

    Numbers are exact rationals here: the rounding of doubles is not
    modelled. None stands for NaN and for the two infinities, which
    `setHours` turns into an invalid date alike. */
module JsNumbers {
  import opened Text

  // ---------------------------------------------------------------------
  // White space.

  /** StrWhiteSpaceChar: the white space and line terminators `Number`
      ignores around a numeral. */
  predicate IsJsSpace(c: char)
  {
    c == '\t' || c == '\n' || c == '\U{000B}' || c == '\U{000C}' || c == '\r' || c == ' ' ||
    c == '\U{00A0}' || c == '\U{1680}' || ('\U{2000}' <= c <= '\U{200A}') ||
    c == '\U{2028}' || c == '\U{2029}' || c == '\U{202F}' || c == '\U{205F}' ||
    c == '\U{3000}' || c == '\U{FEFF}'
  }

  predicate AllJsSpace(w: string) { forall i :: 0 <= i < |w| ==> IsJsSpace(w[i]) }

  /** A text with no white space at either end. */
  predicate Trimmed(s: string) { s == [] || (!IsJsSpace(s[0]) && !IsJsSpace(s[|s| - 1])) }

  function TrimStart(s: string): (r: string)
    ensures r == [] || !IsJsSpace(r[0])
    ensures |r| <= |s| && r == s[|s| - |r|..]
    decreases |s|
  {
    if |s| > 0 && IsJsSpace(s[0]) then TrimStart(s[1..]) else s
  }

  function TrimEnd(s: string): (r: string)
    ensures r == [] || !IsJsSpace(r[|r| - 1])
    ensures |r| <= |s| && r == s[..|r|]
    decreases |s|
  {
    if |s| > 0 && IsJsSpace(s[|s| - 1]) then TrimEnd(s[..|s| - 1]) else s
  }

  /** The numeral `Number` reads: the text without white space at either end. */
  function TrimJs(s: string): (r: string)
    ensures Trimmed(r)
    ensures |r| <= |s|
  {
    var a := TrimStart(s);
    var r := TrimEnd(a);
    assert r != [] ==> r[0] == a[0];
    r
  }

  lemma {:induction false} TrimStartSpaces(w: string, x: string)
    requires AllJsSpace(w)
    ensures TrimStart(w + x) == TrimStart(x)
    decreases |w|
  {
    if w != [] {
      assert (w + x)[1..] == w[1..] + x;
      TrimStartSpaces(w[1..], x);
    } else {
      assert w + x == x;
    }
  }

  lemma {:induction false} TrimEndSpaces(x: string, w: string)
    requires AllJsSpace(w)
    ensures TrimEnd(x + w) == TrimEnd(x)
    decreases |w|
  {
    if w != [] {
      assert (x + w)[..|x + w| - 1] == x + w[..|w| - 1];
      TrimEndSpaces(x, w[..|w| - 1]);
    } else {
      assert x + w == x;
    }
  }

  /** White space around a numeral is ignored: trimming a padded numeral
      gives the numeral back. */
  lemma {:induction false} TrimPadded(w1: string, s: string, w2: string)
    requires AllJsSpace(w1) && AllJsSpace(w2) && Trimmed(s)
    ensures TrimJs(w1 + s + w2) == s
  {
    assert w1 + s + w2 == w1 + (s + w2);
    TrimStartSpaces(w1, s + w2);
    if s == [] {
      assert s + w2 == w2 + [];
      TrimStartSpaces(w2, []);
      assert TrimStart(w1 + s + w2) == [];
    } else {
      assert (s + w2)[0] == s[0];
      assert TrimStart(s + w2) == s + w2;
      TrimEndSpaces(s, w2);
      assert TrimEnd(s) == s;
    }
  }

  // ---------------------------------------------------------------------
  // Numerals.

  function Pow(b: nat, n: nat): (r: nat)
    ensures r >= 1 || b == 0
  {
    if n == 0 then 1 else b * Pow(b, n - 1)
  }

  /** The value of a digit of `0x`, `0o` and `0b` numerals (either case). */
  function RadixDigit(c: char): Option<nat>
  {
    if '0' <= c <= '9' then Some(c as int - '0' as int)
    else if 'a' <= c <= 'f' then Some(c as int - 'a' as int + 10)
    else if 'A' <= c <= 'F' then Some(c as int - 'A' as int + 10)
    else None
  }

  predicate RadixDigits(s: string, base: nat)
  {
    forall i :: 0 <= i < |s| ==> RadixDigit(s[i]).Some? && RadixDigit(s[i]).value < base
  }

  function RadixValue(s: string, base: nat): nat
    requires RadixDigits(s, base)
  {
    if s == [] then 0 else base * RadixValue(s[..|s| - 1], base) + RadixDigit(s[|s| - 1]).value
  }

  /** The base a `0x`, `0o` or `0b` prefix names. */
  function Radix(c: char): Option<nat>
  {
    if c == 'x' || c == 'X' then Some(16)
    else if c == 'o' || c == 'O' then Some(8)
    else if c == 'b' || c == 'B' then Some(2)
    else None
  }

  /** The position of the first `e` or `E`, or the length. */
  function ExpAt(s: string): (i: nat)
    ensures i <= |s|
    ensures i < |s| ==> s[i] == 'e' || s[i] == 'E'
    ensures forall k :: 0 <= k < i ==> s[k] != 'e' && s[k] != 'E'
  {
    if s == [] || s[0] == 'e' || s[0] == 'E' then 0 else 1 + ExpAt(s[1..])
  }

  /** `digits`, `digits.`, `digits.digits` or `.digits`. */
  function Mantissa(m: string): Option<real>
  {
    var parts := Split(m, '.');
    if |parts| == 1 then
      (if m != [] && AllDigits(m) then Some(DigitsValue(m) as real) else None)
    else if |parts| == 2 && AllDigits(parts[0]) && AllDigits(parts[1]) && |parts[0]| + |parts[1]| > 0 then
      Some(DigitsValue(parts[0]) as real + DigitsValue(parts[1]) as real / Pow(10, |parts[1]|) as real)
    else None
  }

  /** `v` times ten to the power `x`. */
  function Scale(v: real, x: int): real
  {
    if x >= 0 then v * Pow(10, x) as real else v / Pow(10, -x) as real
  }

  /** StrUnsignedDecimalLiteral without `Infinity`: a mantissa and an
      optional exponent `e`/`E` with an optional sign. */
  function UnsignedDecimal(u: string): Option<real>
  {
    var e := ExpAt(u);
    match Mantissa(u[..e])
    case None => None
    case Some(v) =>
      if e == |u| then Some(v)
      else match SignedInt(u[e + 1..])
        case None => None
        case Some(x) => Some(Scale(v, x))
  }

  /** `Number(s)`: the numeral between the white space at either end. */
  function JsNumber(s: string): (r: Option<real>)
  {
    Numeral(TrimJs(s))
  }

  /** StrNumericLiteral: an empty text is 0; a `0x`/`0o`/`0b` numeral is
      read in its base and takes no sign; otherwise an optional sign and an
      unsigned decimal literal. Anything else, `Infinity` included, is None. */
  function Numeral(t: string): Option<real>
  {
    if t == [] then Some(0.0)
    else if |t| > 2 && t[0] == '0' && Radix(t[1]).Some? then
      (if RadixDigits(t[2..], Radix(t[1]).value) then Some(RadixValue(t[2..], Radix(t[1]).value) as real) else None)
    else if t[0] == '-' then
      (match UnsignedDecimal(t[1..]) case Some(v) => Some(-v) case None => None)
    else if t[0] == '+' then UnsignedDecimal(t[1..])
    else UnsignedDecimal(t)
  }

  /** ToIntegerOrInfinity on a finite number: truncation toward zero. */
  function Trunc(x: real): (r: int)
    ensures x >= 0.0 ==> r as real <= x < r as real + 1.0
    ensures x < 0.0 ==> r as real - 1.0 < x <= r as real
  {
    if x >= 0.0 then x.Floor else -((-x).Floor)
  }

  /** A whole number truncates to itself. */
  lemma TruncWhole(n: int)
    ensures Trunc(n as real) == n
  {
    if n < 0 {
      assert (-(n as real)).Floor == -n;
    }
  }

  // ---------------------------------------------------------------------
  // What `Number` reads.

  lemma {:induction false} MantissaDigits(s: string)
    requires s != [] && AllDigits(s)
    ensures Mantissa(s) == Some(DigitsValue(s) as real)
  {
    SplitNone(s, '.');
  }

  lemma {:induction false} ExpAtDigits(s: string)
    requires AllDigits(s)
    ensures ExpAt(s) == |s|
  {
  }

  lemma {:induction false} NoExponent(s: string)
    requires 'e' !in s && 'E' !in s
    ensures ExpAt(s) == |s|
    decreases |s|
  {
    if s != [] {
      assert s[0] != 'e' && s[0] != 'E';
      NoExponent(s[1..]);
    }
  }

  /** An unsigned run of decimal digits reads as its value. */
  lemma {:induction false} UnsignedDigits(s: string)
    requires s != [] && AllDigits(s)
    ensures UnsignedDecimal(s) == Some(DigitsValue(s) as real)
  {
    ExpAtDigits(s);
    assert s[..|s|] == s;
    MantissaDigits(s);
  }

  /** Plain decimal digits, the form `formatTime` writes, read as their value;
      the empty text reads as 0. */
  lemma {:induction false} JsNumberDigits(s: string)
    requires AllDigits(s)
    ensures JsNumber(s) == Some(DigitsValue(s) as real)
  {
    if s != [] {
      assert !IsJsSpace(s[0]) && !IsJsSpace(s[|s| - 1]);
      TrimPadded([], s, []);
      assert [] + s + [] == s;
      NumeralDigits(s);
    }
  }

  lemma {:induction false} NumeralDigits(s: string)
    requires s != [] && AllDigits(s)
    ensures Numeral(s) == Some(DigitsValue(s) as real)
  {
    assert s[0] != '-' && s[0] != '+';
    assert |s| > 2 ==> Radix(s[1]).None?;
    UnsignedDigits(s);
  }

  /** White space around the numeral does not change what `Number` reads. */
  lemma {:induction false} JsNumberPadded(w1: string, s: string, w2: string)
    requires AllJsSpace(w1) && AllJsSpace(w2)
    ensures JsNumber(w1 + s + w2) == JsNumber(s)
  {
    TrimJsPadded(w1, s, w2);
  }

  lemma {:induction false} TrimJsPadded(w1: string, s: string, w2: string)
    requires AllJsSpace(w1) && AllJsSpace(w2)
    ensures TrimJs(w1 + s + w2) == TrimJs(s)
  {
    assert w1 + s + w2 == w1 + (s + w2);
    TrimStartSpaces(w1, s + w2);
    if TrimStart(s) == [] {
      TrimStartBlank(s, w2);
      TrimStartSpaces(w2, []);
      assert w2 + [] == w2;
    } else {
      TrimStartAppend(s, w2);
      TrimEndSpaces(TrimStart(s), w2);
    }
  }

  lemma {:induction false} TrimStartAppend(s: string, x: string)
    requires TrimStart(s) != []
    ensures TrimStart(s + x) == TrimStart(s) + x
    decreases |s|
  {
    assert (s + x)[0] == s[0];
    if IsJsSpace(s[0]) {
      assert (s + x)[1..] == s[1..] + x;
      TrimStartAppend(s[1..], x);
    }
  }

  lemma {:induction false} TrimStartBlank(s: string, x: string)
    requires TrimStart(s) == []
    ensures TrimStart(s + x) == TrimStart(x)
    decreases |s|
  {
    if s == [] {
      assert s + x == x;
    } else {
      assert (s + x)[0] == s[0] && IsJsSpace(s[0]);
      assert (s + x)[1..] == s[1..] + x;
      TrimStartBlank(s[1..], x);
    }
  }

  /** A numeral with no white space at its ends is read as it stands. */
  lemma {:induction false} TrimmedSelf(t: string)
    requires Trimmed(t)
    ensures TrimJs(t) == t
  {
    TrimPadded([], t, []);
    assert [] + t + [] == t;
  }

  /** A minus sign before decimal digits negates their value. */
  lemma {:induction false} JsNumberNegative(s: string)
    requires s != [] && AllDigits(s)
    ensures JsNumber("-" + s) == Some(-(DigitsValue(s) as real))
  {
    var t := "-" + s;
    assert t[|t| - 1] == s[|s| - 1] && IsDigit(s[|s| - 1]);
    TrimmedSelf(t);
    NumeralSigned(s);
  }

  lemma {:induction false} NumeralSigned(s: string)
    requires s != [] && AllDigits(s)
    ensures Numeral("-" + s) == Some(-(DigitsValue(s) as real))
    ensures Numeral("+" + s) == Some(DigitsValue(s) as real)
  {
    assert ("-" + s)[1..] == s && ("+" + s)[1..] == s;
    assert ("-" + s)[0] == '-' && ("+" + s)[0] == '+';
    UnsignedDigits(s);
  }

  /** Examples of the forms beyond plain digits that `Number` accepts: a plus sign, a
      fraction, an exponent and a hexadecimal prefix. */
  lemma {:induction false} JsNumberForms()
    ensures JsNumber("+7") == Some(7.0)
    ensures JsNumber("7.5") == Some(7.5)
    ensures JsNumber(".5") == Some(0.5)
    ensures JsNumber("1e1") == Some(10.0)
    ensures JsNumber("0x10") == Some(16.0)
  {
    PlusSeven();
    SevenAndAHalf();
    AHalf();
    TenByExponent();
    SixteenInHex();
  }

  lemma {:induction false} PlusSeven()
    ensures JsNumber("+7") == Some(7.0)
  {
    TrimmedSelf("+7");
    assert "+" + "7" == "+7";
    NumeralSigned("7");
  }

  lemma {:induction false} SevenAndAHalf()
    ensures JsNumber("7.5") == Some(7.5)
  {
    TrimmedSelf("7.5");
    assert ExpAt("7.5") == 3;
    assert "7.5"[..3] == "7.5";
    assert Split("7.5", '.') == ["7", "5"] by { SplitTwo("7", '.', "5"); assert "7" + ['.'] + "5" == "7.5"; }
    assert Mantissa("7.5") == Some(7.5);
    assert UnsignedDecimal("7.5") == Some(7.5);
    assert Radix("7.5"[1]).None?;
  }

  lemma {:induction false} AHalf()
    ensures JsNumber(".5") == Some(0.5)
  {
    TrimmedSelf(".5");
    assert ExpAt(".5") == 2;
    assert ".5"[..2] == ".5";
    assert Split(".5", '.') == ["", "5"] by { SplitTwo("", '.', "5"); assert "" + ['.'] + "5" == ".5"; }
    assert Mantissa(".5") == Some(0.5);
    assert UnsignedDecimal(".5") == Some(0.5);
  }

  lemma {:induction false} TenByExponent()
    ensures JsNumber("1e1") == Some(10.0)
  {
    TrimmedSelf("1e1");
    assert ExpAt("1e1") == 1;
    assert "1e1"[..1] == "1" && "1e1"[2..] == "1";
    MantissaDigits("1");
    assert SignedInt("1") == Some(1);
    assert UnsignedDecimal("1e1") == Some(10.0);
    assert Radix("1e1"[1]).None?;
  }

  lemma {:induction false} SixteenInHex()
    ensures JsNumber("0x10") == Some(16.0)
  {
    TrimmedSelf("0x10");
    assert "0x10"[2..] == "10";
    assert "10"[..1] == "1";
    assert RadixValue("10", 16) == 16;
  }

  /** Text that is not a numeral is NaN, and so is a sign before a `0x`
      numeral. */
  lemma {:induction false} JsNumberRejects()
    ensures JsNumber("x") == None
    ensures JsNumber("-0x10") == None
  {
    NotANumeral();
    SignedHex();
  }

  lemma {:induction false} NotANumeral()
    ensures JsNumber("x") == None
  {
    TrimmedSelf("x");
    assert ExpAt("x") == 1;
    assert "x"[..1] == "x";
    SplitNone("x", '.');
    assert Mantissa("x") == None;
  }

  lemma {:induction false} SignedHex()
    ensures JsNumber("-0x10") == None
  {
    TrimmedSelf("-0x10");
    assert "-0x10"[1..] == "0x10";
    assert ExpAt("0x10") == 4;
    assert "0x10"[..4] == "0x10";
    SplitNone("0x10", '.');
    assert !IsDigit("0x10"[1]);
    assert Mantissa("0x10") == None;
  }
}

=== FILE: logs_view.dfy ===
/** The play-log page (`static/js/logs.js`): the table of the last logs and
    the three counters above it. Fetching the logs is outside the model; the
    page's functions get the list. */
module LogsView {
  import opened Text

  /** A log as `/api/logs` returns it; `null` fields are `None`. */
  datatype Log = Log(playedAt: string, scheduleName: Option<string>, audioFile: string, status: string, notes: Option<string>)

  // ---------------------------------------------------------------------
  // Table.

  /** The status badge: four known statuses, anything else an empty cell. */
  function Badge(status: string): (b: string)
    ensures b == "" <==>
      status != "success" && status != "failed" && status != "manual_play" && status != "cancelled"
  {
    if status == "success" then "Sukses"
    else if status == "failed" then "Gagal"
    else if status == "manual_play" then "Manual"
    else if status == "cancelled" then "Dibatalkan"
    else ""
  }

  /** JavaScript `x || fallback` on an optional string: `null` and `''` are
      falsy. */
  function OrElse(x: Option<string>, fallback: string): (r: string)
    ensures x.Some? && x.value != "" ==> r == x.value
    ensures x.None? || x.value == "" ==> r == fallback
  {
    if x.Some? && x.value != "" then x.value else fallback
  }

  /** A cell: either text or the `Manual` badge. */
  datatype NameCell = NameText(name: string) | ManualBadge

  datatype Row = Row(playedAt: string, name: NameCell, audioFile: string, badge: string, notes: string)

  datatype Table = Placeholder | Rows(rows: seq<Row>)

  function RowFor(log: Log): (r: Row)
    ensures r.name == ManualBadge <==> log.scheduleName.None? || log.scheduleName.value == ""
    ensures r.name.NameText? ==> r.name.name == log.scheduleName.value
    ensures r.notes == "-" <==> log.notes.None? || log.notes.value == "" || log.notes.value == "-"
    ensures r.playedAt == log.playedAt && r.audioFile == log.audioFile && r.badge == Badge(log.status)
  {
    Row(log.playedAt,
        if log.scheduleName.Some? && log.scheduleName.value != "" then NameText(log.scheduleName.value) else ManualBadge,
        log.audioFile, Badge(log.status), OrElse(log.notes, "-"))
  }

  /** `updateLogTable`: only the placeholder row for an empty list,
      otherwise one row per log, in order. */
  function UpdateLogTable(logs: seq<Log>): (t: Table)
    ensures t == Placeholder <==> logs == []
    ensures t.Rows? ==> |t.rows| == |logs| && forall i :: 0 <= i < |logs| ==> t.rows[i] == RowFor(logs[i])
  {
    if logs == [] then Placeholder
    else Rows(seq(|logs|, i requires 0 <= i < |logs| => RowFor(logs[i])))
  }

  // ---------------------------------------------------------------------
  // Counters.

  /** `logs.filter(log => log.status === st).length`. */
  function CountStatus(logs: seq<Log>, st: string): (n: nat)
    ensures n <= |logs|
  {
    if logs == [] then 0
    else CountStatus(logs[..|logs| - 1], st) + (if logs[|logs| - 1].status == st then 1 else 0)
  }

  /** The statuses of the logs, in order. */
  function Statuses(logs: seq<Log>): (r: seq<string>)
    ensures |r| == |logs| && forall i :: 0 <= i < |logs| ==> r[i] == logs[i].status
  {
    seq(|logs|, i requires 0 <= i < |logs| => logs[i].status)
  }

  /** A counter is the number of logs carrying exactly that status. */
  lemma {:induction false} CountIsMultiplicity(logs: seq<Log>, st: string)
    ensures CountStatus(logs, st) == multiset(Statuses(logs))[st]
  {
    if logs != [] {
      var init := logs[..|logs| - 1];
      CountIsMultiplicity(init, st);
      assert Statuses(logs) == Statuses(init) + [logs[|logs| - 1].status];
    }
  }

  /** A status a counter counts: exactly the badged ones except `cancelled`. */
  predicate Counted(status: string)
    ensures Counted(status) <==> Badge(status) != "" && status != "cancelled"
  {
    status == "success" || status == "failed" || status == "manual_play"
  }

  /** `updateStatistics`: the three counters. */
  datatype Stats = Stats(success: nat, failed: nat, manual: nat)

  function UpdateStatistics(logs: seq<Log>): (s: Stats)
    ensures s.success <= |logs| && s.failed <= |logs| && s.manual <= |logs|
  {
    Stats(CountStatus(logs, "success"), CountStatus(logs, "failed"), CountStatus(logs, "manual_play"))
  }

  /** The counters add up to at most the number of logs, and to exactly that
      number when every log is a success, a failure or a manual play;
      cancelled and unknown statuses are not counted. */
  lemma {:induction false} StatisticsBound(logs: seq<Log>)
    ensures var s := UpdateStatistics(logs);
      s.success + s.failed + s.manual <= |logs| &&
      (s.success + s.failed + s.manual == |logs| <==> forall i :: 0 <= i < |logs| ==> Counted(logs[i].status))
  {
    if logs != [] {
      var init := logs[..|logs| - 1];
      StatisticsBound(init);
      var last := logs[|logs| - 1];
      assert forall i :: 0 <= i < |init| ==> init[i] == logs[i];
      if forall i :: 0 <= i < |logs| ==> Counted(logs[i].status) {
        assert forall i :: 0 <= i < |init| ==> Counted(init[i].status) by {
          forall i | 0 <= i < |init| ensures Counted(init[i].status) { assert init[i] == logs[i]; }
        }
      }
      if !Counted(last.status) {
        assert !(forall i :: 0 <= i < |logs| ==> Counted(logs[i].status));
      }
    }
  }

  /** A cancelled log gets a badge in the table but no counter. */
  lemma CancelledShownNotCounted(logs: seq<Log>, i: int)
    requires 0 <= i < |logs| && logs[i].status == "cancelled"
    ensures RowFor(logs[i]).badge != ""
    ensures !Counted(logs[i].status)
  {
  }
}

=== FILE: outputs_scheduler.dfy ===
/** The second copy of the server scheduler kept under
    `mnt/user-data/outputs/school-bell-system/scheduler.py`. It registers,
    fires and removes jobs exactly as `scheduler.py` does; its loader
    counts nothing and reports the size of `jobs` instead. The row rules,
    job ids and firing decision are the ones of `ServerScheduler`. */
module OutputsScheduler {
  import opened Text
  import opened Schedules
  import opened ServerScheduler

  class BellScheduler {
    var cron: map<string, Job>
    var jobs: map<int, Job>

    predicate Valid()
      reads this
    {
      Mirrors(cron, jobs)
    }

    constructor ()
      ensures Valid() && jobs == map[] && cron == map[]
    {
      cron := map[];
      jobs := map[];
    }

    /** `add_job`. */
    method AddJob(s: Schedule) returns (ok: bool)
      requires Valid()
      modifies this
      ensures Valid()
      ensures ok <==> JobFor(s).Some?
      ensures ok ==> jobs == old(jobs)[s.id := JobFor(s).value] && JobId(s.id) in cron && cron[JobId(s.id)] == JobFor(s).value
      ensures !ok ==> jobs == old(jobs) && cron == old(cron)
    {
      var job := JobFor(s);
      if job.None? {
        return false;
      }
      MirrorsSet(cron, jobs, job.value);
      cron := cron[JobId(s.id) := job.value];
      jobs := jobs[s.id := job.value];
      ok := true;
    }

    /** `clear_all_jobs`. */
    method ClearAllJobs()
      modifies this
      ensures Valid() && jobs == map[] && cron == map[]
    {
      cron := map[];
      jobs := map[];
    }

    /** `load_schedules`: empty both stores, add every active row in order,
        and report `len(self.jobs)`. */
    method LoadSchedules(rows: seq<Schedule>) returns (reported: nat)
      requires Valid()
      modifies this
      ensures Valid()
      ensures jobs == Registered(rows)
      ensures reported == |jobs.Keys| && reported <= CountLoaded(rows)
      ensures DistinctIds(rows) ==> reported == CountLoaded(rows)
    {
      ClearAllJobs();
      for i := 0 to |rows|
        invariant Valid()
        invariant jobs == Registered(rows[..i])
      {
        assert rows[..i + 1][..i] == rows[..i];
        if rows[i].isActive != 0 {
          var _ := AddJob(rows[i]);
        }
      }
      assert rows[..|rows|] == rows;
      CountLoadedBounds(rows);
      reported := |jobs.Keys|;
    }

    /** `remove_job`. */
    method RemoveJob(id: int) returns (ok: bool)
      requires Valid()
      modifies this
      ensures Valid()
      ensures ok <==> id in old(jobs)
      ensures jobs == old(jobs) - {id} && cron == old(cron) - {JobId(id)}
    {
      if JobId(id) !in cron {
        assert id !in jobs;
        return false;
      }
      JobIdInjective(cron[JobId(id)].scheduleId, id);
      MirrorsRemove(cron, jobs, id);
      cron := cron - {JobId(id)};
      jobs := jobs - {id};
      ok := true;
    }
  }

  /** Module `reload_schedules`: nothing happens before `init_scheduler`. */
  method ReloadSchedules(bell: BellScheduler?, rows: seq<Schedule>)
    requires bell != null ==> bell.Valid()
    modifies if bell != null then {bell} else {}
    ensures bell != null ==> bell.Valid() && bell.jobs == Registered(rows)
  {
    if bell != null {
      var _ := bell.LoadSchedules(rows);
    }
  }

  /** `init_scheduler`. */
  method InitScheduler(rows: seq<Schedule>) returns (b: BellScheduler)
    ensures fresh(b) && b.Valid() && b.jobs == Registered(rows)
  {
    b := new BellScheduler();
    var _ := b.LoadSchedules(rows);
  }
}

=== FILE: pwa_audio.dfy ===
/** The browser playback engine (`PWAAudioPlayer`): one playback session at a
    time, a master volume clamped to [0, 1], a filename-to-bytes cache (a
    JavaScript `Map`, kept here as an insertion-ordered association list) and
    an HTML5-audio fallback chosen once, when `init` cannot create an audio
    context.

    What the browser does -- fetching, decoding, whether an audio context can
    be created, what localStorage holds -- comes in as parameters. */
module PwaAudio {
  import opened Text

  type Bytes = seq<bv8>

  // ---------------------------------------------------------------------
  // The cache.

  type Cache = seq<(string, Bytes)>

  function Keys(c: Cache): (ks: seq<string>)
    ensures |ks| == |c|
    ensures forall i :: 0 <= i < |c| ==> ks[i] == c[i].0
  {
    if c == [] then [] else [c[0].0] + Keys(c[1..])
  }

  predicate DistinctKeys(c: Cache)
  {
    forall i, j :: 0 <= i < j < |c| ==> c[i].0 != c[j].0
  }

  /** `audioCache.get(k)`. */
  function Lookup(c: Cache, k: string): (r: Option<Bytes>)
    ensures r.Some? <==> k in Keys(c)
    ensures r.Some? ==> (k, r.value) in c
  {
    if c == [] then None
    else if c[0].0 == k then Some(c[0].1)
    else Lookup(c[1..], k)
  }

  /** `audioCache.set(k, v)`: a known key keeps its place and takes the new
      bytes; a new key goes last. */
  function CacheSet(c: Cache, k: string, v: Bytes): (r: Cache)
    ensures Keys(r) == if k in Keys(c) then Keys(c) else Keys(c) + [k]
  {
    if c == [] then [(k, v)]
    else if c[0].0 == k then [(k, v)] + c[1..]
    else
      var rest := CacheSet(c[1..], k, v);
      assert Keys(c) == [c[0].0] + Keys(c[1..]);
      [c[0]] + rest
  }

  /** After `set`, `get` of the key gives the new bytes and every other key
      what it gave before. */
  lemma {:induction false} CacheSetLookup(c: Cache, k: string, v: Bytes, j: string)
    ensures Lookup(CacheSet(c, k, v), j) == if j == k then Some(v) else Lookup(c, j)
  {
    if c != [] && c[0].0 != k {
      CacheSetLookup(c[1..], k, v, j);
    }
  }

  lemma {:induction false} CacheSetDistinct(c: Cache, k: string, v: Bytes)
    requires DistinctKeys(c)
    ensures DistinctKeys(CacheSet(c, k, v))
  {
    var r := CacheSet(c, k, v);
    forall i, j | 0 <= i < j < |r| ensures r[i].0 != r[j].0 {
      assert Keys(r)[i] == r[i].0 && Keys(r)[j] == r[j].0;
      if k !in Keys(c) && j == |c| {
        assert Keys(c)[i] == Keys(r)[i];
      } else {
        assert Keys(r)[i] == Keys(c)[i] && Keys(r)[j] == Keys(c)[j];
      }
    }
  }

  lemma CacheSetKeepsDistinct(c: Cache, k: string, v: Bytes)
    ensures DistinctKeys(c) ==> DistinctKeys(CacheSet(c, k, v))
  {
    if DistinctKeys(c) {
      CacheSetDistinct(c, k, v);
    }
  }

  /** Sum of the cached byte lengths. */
  function TotalSize(c: Cache): (n: nat)
    ensures forall i :: 0 <= i < |c| ==> |c[i].1| <= n
  {
    if c == [] then 0 else |c[0].1| + TotalSize(c[1..])
  }

  /** Re-caching a file replaces its bytes in the total. */
  lemma {:induction false} TotalSizeSet(c: Cache, k: string, v: Bytes)
    ensures TotalSize(CacheSet(c, k, v)) + (match Lookup(c, k) case Some(old_) => |old_| case None => 0) ==
            TotalSize(c) + |v|
  {
    if c != [] && c[0].0 != k {
      TotalSizeSet(c[1..], k, v);
    }
  }

  // ---------------------------------------------------------------------
  // Sessions and the browser.

  /** The active session: a Web Audio source with its gain, or an HTML5
      audio element with its volume. `file` is kept by the model (the
      session objects of the page have no such property); `notify` records
      whether an `onEnded` callback was given. */
  datatype Session =
    | WebSession(file: string, gain: real, notify: bool)
    | ElementSession(file: string, volume: real, notify: bool)

  /** `play` options: `options.volume` and whether `options.onEnded` is set. */
  datatype Options = Options(volume: Option<real>, onEnded: bool)

  /** `options.volume || 1`: absent or zero means full. */
  function Factor(o: Options): (f: real)
    ensures o.volume.Some? && o.volume.value != 0.0 ==> f == o.volume.value
    ensures (o.volume.None? || o.volume.value == 0.0) ==> f == 1.0
  {
    if o.volume.Some? && o.volume.value != 0.0 then o.volume.value else 1.0
  }

  /** A session's level: the master volume times `options.volume || 1`. */
  function Gain(master: real, o: Options): (g: real)
    ensures o.volume.None? || o.volume.value == 0.0 ==> g == master
    ensures 0.0 <= master && o.volume.Some? && 0.0 < o.volume.value <= 1.0 ==> 0.0 <= g <= master
  {
    master * Factor(o)
  }

  /** `Math.max(0, Math.min(1, v))`. */
  function Clamp01(v: real): (r: real)
    ensures 0.0 <= r <= 1.0
    ensures 0.0 <= v <= 1.0 ==> r == v
    ensures v < 0.0 ==> r == 0.0
    ensures v > 1.0 ==> r == 1.0
  {
    if v < 0.0 then 0.0 else if v > 1.0 then 1.0 else v
  }

  /** An answer to `fetch('/static/audio/<file>')`. */
  datatype Reply = NetFail | Status(ok: bool, body: Bytes)

  /** What the browser offers: whether an audio context can be made, the
      parsed `audio-volume` entry, the audio file list `getAudioFileList`
      obtains, each file's fetch answer, and which bytes decode. */
  datatype Browser = Browser(contextOk: bool, savedVolume: Option<real>, files: seq<string>,
                             net: string -> Reply, decodes: Bytes -> bool)

  /** How a call to `play` settles: Web Audio resolves once the source has
      started; the HTML5 promise settles later, on `ended` or `error`. */
  datatype PlayResult = Started | Pending | Failed(message: string)

  /** `getAudioBuffer`'s result: the decoded bytes, or the error raised. */
  datatype Decoded = Buffer(bytes: Bytes) | DecodeError(message: string)

  /** `getCurrentFile` as written: `currentAudio.filename` is undefined for
      both kinds of session, so it reports no file even while playing. */
  function CurrentFileAsWritten(s: Option<Session>): (r: Option<string>)
    ensures r == None
  {
    None
  }

  /** The corrected `getCurrentFile`: the active session's file. */
  function CurrentFile(s: Option<Session>): (r: Option<string>)
    ensures r.Some? <==> s.Some?
    ensures s.Some? ==> r.value == s.value.file
  {
    if s.Some? then Some(s.value.file) else None
  }

  /** While a file plays, the code as written reports none. */
  lemma CurrentFileMissedWhilePlaying(f: string, g: real)
    ensures CurrentFileAsWritten(Some(WebSession(f, g, false))) == None
    ensures CurrentFile(Some(WebSession(f, g, false))) == Some(f)
  {
  }

  class PWAAudioPlayer {
    var isPlaying: bool
    var currentAudio: Option<Session>
    var volume: real
    /** localStorage `audio-volume`, as last written by `setVolume`. */
    var savedVolume: Option<real>
    var audioCache: Cache
    var useHTML5Audio: bool
    var isInitialized: bool
    /** URLs requested with `fetch`, in order. */
    var requests: seq<string>
    /** Number of `onEnded` callbacks invoked. */
    var endedCalls: nat

    predicate Valid()
      reads this
    {
      (isPlaying <==> currentAudio.Some?) &&
      (!isInitialized ==> currentAudio.None?) &&
      (currentAudio.Some? ==> (currentAudio.value.ElementSession? <==> useHTML5Audio)) &&
      DistinctKeys(audioCache)
    }

    /** `new PWAAudioPlayer()`: the field defaults, then the part of `init`
        that runs before its first `await`. Without an audio context the
        HTML5 fallback is chosen at once; otherwise the saved volume is read
        and the player stays uninitialised until `CompleteInit`. */
    constructor (b: Browser)
      ensures Valid()
      ensures !isPlaying && currentAudio == None && audioCache == []
      ensures requests == [] && endedCalls == 0 && savedVolume == None
      ensures useHTML5Audio <==> !b.contextOk
      ensures isInitialized <==> !b.contextOk
      ensures volume == if b.contextOk && b.savedVolume.Some? then b.savedVolume.value else 0.8
    {
      isPlaying, currentAudio, volume, savedVolume := false, None, 0.8, None;
      audioCache, useHTML5Audio, isInitialized := [], false, false;
      requests, endedCalls := [], 0;
      new;
      if !b.contextOk {
        InitHTML5Audio();
      } else if b.savedVolume.Some? {
        volume := b.savedVolume.value;
      }
    }

    /** The rest of `init`, once `preloadAudioFiles` settles: the listed
        files are cached and the player is initialised. */
    method CompleteInit(b: Browser)
      requires Valid()
      modifies this`isInitialized, this`audioCache, this`requests
      ensures Valid() && isInitialized
      ensures audioCache == Preloaded(old(audioCache), b.files, b.net)
      ensures |requests| == |old(requests)| + |b.files|
    {
      PreloadAudioFiles(b.files, b.net);
      isInitialized := true;
    }

    /** `cacheAudioFile`: only an ok answer enters the cache. */
    method CacheAudioFile(file: string, reply: Reply) returns (ok: bool)
      requires Valid()
      modifies this`audioCache, this`requests
      ensures Valid()
      ensures ok <==> reply.Status? && reply.ok
      ensures audioCache == if ok then CacheSet(old(audioCache), file, reply.body) else old(audioCache)
      ensures requests == old(requests) + ["/static/audio/" + file]
    {
      requests := requests + ["/static/audio/" + file];
      if reply.Status? && reply.ok {
        CacheSetDistinct(audioCache, file, reply.body);
        audioCache := CacheSet(audioCache, file, reply.body);
        ok := true;
      } else {
        ok := false;
      }
    }

    /** `preloadAudioFiles`: try to cache every listed file, in order. */
    method PreloadAudioFiles(files: seq<string>, net: string -> Reply)
      requires Valid()
      modifies this`audioCache, this`requests
      ensures Valid()
      ensures audioCache == Preloaded(old(audioCache), files, net)
      ensures |requests| == |old(requests)| + |files|
    {
      var i := 0;
      while i < |files|
        invariant 0 <= i <= |files|
        invariant Valid()
        invariant audioCache == Preloaded(old(audioCache), files[..i], net)
        invariant |requests| == |old(requests)| + i
      {
        var _ := CacheAudioFile(files[i], net(files[i]));
        assert files[..i + 1][..i] == files[..i];
        i := i + 1;
      }
      assert files[..|files|] == files;
    }

    /** `initHTML5Audio`, reached from `init` before anything plays. */
    method InitHTML5Audio()
      requires Valid() && currentAudio.None?
      modifies this`useHTML5Audio, this`isInitialized
      ensures Valid()
      ensures useHTML5Audio && isInitialized
    {
      useHTML5Audio := true;
      isInitialized := true;
    }

    /** `init`: without an audio context the HTML5 fallback is chosen (and
        the stored volume is not read); otherwise the stored volume is read
        and the listed files are preloaded. */
    method Init(b: Browser)
      requires Valid() && currentAudio.None?
      modifies this`useHTML5Audio, this`isInitialized, this`volume, this`audioCache, this`requests
      ensures Valid() && isInitialized
      ensures useHTML5Audio == (old(useHTML5Audio) || !b.contextOk)
      ensures !b.contextOk ==> volume == old(volume) && audioCache == old(audioCache) && requests == old(requests)
      ensures b.contextOk ==> volume == (if b.savedVolume.Some? then b.savedVolume.value else old(volume))
      ensures b.contextOk ==> audioCache == Preloaded(old(audioCache), b.files, b.net)
    {
      if !b.contextOk {
        InitHTML5Audio();
        return;
      }
      if b.savedVolume.Some? {
        volume := b.savedVolume.value;
      }
      CompleteInit(b);
    }

    /** The corrected `getAudioBuffer`: a cached file is decoded without any
        request; otherwise the file is cached and decoded, and failing that
        fetched once more directly. `decodeAudioData` is handed a copy of the
        cached ArrayBuffer (`slice(0)`), so the cache keeps its bytes. */
    method GetAudioBuffer(file: string, b: Browser) returns (r: Decoded)
      requires Valid()
      modifies this`audioCache, this`requests
      ensures Valid()
      ensures Lookup(old(audioCache), file).Some? ==>
        requests == old(requests) && audioCache == old(audioCache) &&
        r == Decode(Lookup(old(audioCache), file).value, b)
      ensures Lookup(old(audioCache), file).None? && b.net(file).Status? && b.net(file).ok ==>
        audioCache == CacheSet(old(audioCache), file, b.net(file).body) && r == Decode(b.net(file).body, b)
      ensures r.Buffer? ==> b.decodes(r.bytes)
    {
      var cached := Lookup(audioCache, file);
      if cached.Some? {
        return Decode(cached.value, b);
      }
      var ok := CacheAudioFile(file, b.net(file));
      if ok {
        CacheSetLookup(old(audioCache), file, b.net(file).body, file);
        return Decode(Lookup(audioCache, file).value, b);
      }
      r := FetchAndDecode(file, b);
    }

    /** `getAudioBuffer` as written: `decodeAudioData` is handed the cached
        ArrayBuffer itself and detaches it, which leaves the entry with no
        bytes. */
    method GetAudioBufferAsWritten(file: string, b: Browser) returns (r: Decoded)
      requires Valid()
      modifies this`audioCache, this`requests
      ensures Valid()
      ensures Lookup(old(audioCache), file).Some? ==>
        requests == old(requests) && audioCache == Detach(old(audioCache), file) &&
        r == Decode(Lookup(old(audioCache), file).value, b)
      ensures Lookup(old(audioCache), file).None? && b.net(file).Status? && b.net(file).ok ==>
        audioCache == Detach(CacheSet(old(audioCache), file, b.net(file).body), file) &&
        r == Decode(b.net(file).body, b)
      ensures r.Buffer? ==> b.decodes(r.bytes)
    {
      if Lookup(audioCache, file).Some? {
        r := DecodeCached(file, b);
        return;
      }
      var ok := CacheAudioFile(file, b.net(file));
      if ok {
        CacheSetLookup(old(audioCache), file, b.net(file).body, file);
        r := DecodeCached(file, b);
        return;
      }
      r := FetchAndDecode(file, b);
    }

    /** `decodeAudioData(this.audioCache.get(file))`, which detaches the
        cached ArrayBuffer. */
    method DecodeCached(file: string, b: Browser) returns (r: Decoded)
      requires Valid() && Lookup(audioCache, file).Some?
      modifies this`audioCache
      ensures Valid()
      ensures audioCache == Detach(old(audioCache), file)
      ensures r == Decode(Lookup(old(audioCache), file).value, b)
    {
      r := Decode(Lookup(audioCache, file).value, b);
      audioCache := Detach(audioCache, file);
    }

    /** `getAudioBuffer`'s last resort: fetch the file once more and decode
        the answer; any failure becomes the `Failed to load` error. */
    method FetchAndDecode(file: string, b: Browser) returns (r: Decoded)
      modifies this`requests
      ensures requests == old(requests) + ["/static/audio/" + file]
      ensures r.Buffer? <==> b.net(file).Status? && Decode(b.net(file).body, b).Buffer?
      ensures r.Buffer? ==> r.bytes == b.net(file).body && b.decodes(r.bytes)
      ensures r.DecodeError? ==> r.message == "Failed to load audio file: " + file
    {
      requests := requests + ["/static/audio/" + file];
      var reply := b.net(file);
      if reply.Status? && Decode(reply.body, b).Buffer? {
        return Buffer(reply.body);
      }
      return DecodeError("Failed to load audio file: " + file);
    }

    /** `stop`: nothing to do without an active session; otherwise the
        session is stopped and dropped. */
    method Stop()
      requires Valid()
      modifies this`isPlaying, this`currentAudio
      ensures Valid()
      ensures !isPlaying && currentAudio == None
    {
      if !isPlaying || currentAudio.None? {
        return;
      }
      isPlaying := false;
      currentAudio := None;
    }

    /** `play`: initialise when needed, stop any active session, then start
        the new one on the path chosen at init. */
    method Play(file: string, o: Options, b: Browser) returns (r: PlayResult)
      requires Valid()
      modifies this
      ensures Valid()
      ensures isInitialized
      ensures useHTML5Audio == (old(useHTML5Audio) || (!old(isInitialized) && !b.contextOk))
      ensures endedCalls == old(endedCalls) && savedVolume == old(savedVolume)
      ensures useHTML5Audio && 0.0 <= Gain(volume, o) <= 1.0 ==>
        r == Pending && isPlaying && currentAudio == Some(ElementSession(file, Gain(volume, o), o.onEnded))
      ensures useHTML5Audio && !(0.0 <= Gain(volume, o) <= 1.0) ==> r == Failed("IndexSizeError")
      ensures !useHTML5Audio && r == Started ==>
        isPlaying && currentAudio == Some(WebSession(file, Gain(volume, o), o.onEnded))
      ensures r.Failed? ==> !isPlaying && currentAudio == None
      ensures r.Pending? <==> useHTML5Audio && 0.0 <= Gain(volume, o) <= 1.0
      ensures r.Started? ==> !useHTML5Audio
      ensures volume == if !old(isInitialized) && b.contextOk && b.savedVolume.Some? then b.savedVolume.value else old(volume)
      ensures var c0 := if old(isInitialized) || !b.contextOk then old(audioCache) else Preloaded(old(audioCache), b.files, b.net);
        (useHTML5Audio ==> audioCache == c0) &&
        (!useHTML5Audio && Lookup(c0, file).Some? ==>
          audioCache == c0 && (r == Started <==> Decode(Lookup(c0, file).value, b).Buffer?)) &&
        (!useHTML5Audio && Lookup(c0, file).None? && b.net(file).Status? && b.net(file).ok ==>
          audioCache == CacheSet(c0, file, b.net(file).body) && (r == Started <==> Decode(b.net(file).body, b).Buffer?))
      ensures old(isInitialized) && (useHTML5Audio || Lookup(old(audioCache), file).Some?) ==> requests == old(requests)
    {
      if !isInitialized {
        Init(b);
      }
      if isPlaying {
        Stop();
      }
      if useHTML5Audio {
        r := PlayHTML5Audio(file, o);
      } else {
        var buffer := GetAudioBuffer(file, b);
        if buffer.DecodeError? {
          r := Failed(buffer.message);
        } else {
          r := PlayWebAudio(file, o);
        }
      }
    }

    /** `playWebAudio`: start the source with gain `volume * (options.volume || 1)`. */
    method PlayWebAudio(file: string, o: Options) returns (r: PlayResult)
      requires Valid() && isInitialized && !useHTML5Audio
      modifies this`isPlaying, this`currentAudio
      ensures Valid()
      ensures r == Started && isPlaying
      ensures currentAudio == Some(WebSession(file, Gain(volume, o), o.onEnded))
    {
      isPlaying := true;
      currentAudio := Some(WebSession(file, Gain(volume, o), o.onEnded));
      r := Started;
    }

    /** `playHTML5Audio`: the element starts at once; its promise settles on
        `ended` or `error`. Setting `audio.volume` outside [0, 1] throws an
        `IndexSizeError` inside the executor, so the promise rejects before
        `play()` and the session fields stay as they were. */
    method PlayHTML5Audio(file: string, o: Options) returns (r: PlayResult)
      requires Valid() && isInitialized && useHTML5Audio
      modifies this`isPlaying, this`currentAudio
      ensures Valid()
      ensures r == Pending <==> 0.0 <= Gain(volume, o) <= 1.0
      ensures r == Pending ==>
        isPlaying && currentAudio == Some(ElementSession(file, Gain(volume, o), o.onEnded))
      ensures r != Pending ==>
        r == Failed("IndexSizeError") && isPlaying == old(isPlaying) && currentAudio == old(currentAudio)
    {
      if 0.0 <= Gain(volume, o) <= 1.0 {
        isPlaying := true;
        currentAudio := Some(ElementSession(file, Gain(volume, o), o.onEnded));
        r := Pending;
      } else {
        r := Failed("IndexSizeError");
      }
    }

    /** The `ended` handler of either path: clear the session, then call
        `onEnded` when one was given. The handler belongs to the session it
        was attached to but clears whatever is current. */
    method SessionEnded(notify: bool)
      requires Valid()
      modifies this`isPlaying, this`currentAudio, this`endedCalls
      ensures Valid()
      ensures !isPlaying && currentAudio == None
      ensures endedCalls == old(endedCalls) + (if notify then 1 else 0)
    {
      isPlaying := false;
      currentAudio := None;
      if notify {
        endedCalls := endedCalls + 1;
      }
    }

    /** The HTML5 `error` handler: clear the session; the promise rejects. */
    method ElementError()
      requires Valid()
      modifies this`isPlaying, this`currentAudio
      ensures Valid()
      ensures !isPlaying && currentAudio == None
    {
      isPlaying := false;
      currentAudio := None;
    }

    /** `setVolume`: store the clamped value and apply exactly that value to
        an active session (its play-time factor is not reapplied). */
    method SetVolume(v: real)
      requires Valid()
      modifies this`volume, this`savedVolume, this`currentAudio
      ensures Valid()
      ensures volume == Clamp01(v) && savedVolume == Some(volume)
      ensures old(currentAudio).None? ==> currentAudio == None
      ensures old(currentAudio).Some? && old(currentAudio).value.WebSession? ==>
        currentAudio == Some(old(currentAudio).value.(gain := volume))
      ensures old(currentAudio).Some? && old(currentAudio).value.ElementSession? ==>
        currentAudio == Some(old(currentAudio).value.(volume := volume))
    {
      volume := Clamp01(v);
      savedVolume := Some(volume);
      if isPlaying && currentAudio.Some? {
        if useHTML5Audio {
          currentAudio := Some(currentAudio.value.(volume := volume));
        } else {
          currentAudio := Some(currentAudio.value.(gain := volume));
        }
      }
    }

    /** `importSettings`: a given volume goes through `setVolume`. */
    method ImportSettings(v: Option<real>)
      requires Valid()
      modifies this`volume, this`savedVolume, this`currentAudio
      ensures Valid()
      ensures v.Some? ==> volume == Clamp01(v.value)
      ensures v.None? ==> volume == old(volume) && currentAudio == old(currentAudio)
    {
      if v.Some? {
        SetVolume(v.value);
      }
    }

    /** `previewAudio`: play at half volume with the callback, and answer
        whether `play` resolved. On Web Audio the answer comes at once: true
        once the source started, false when it could not be decoded. On the
        HTML5 path `play` settles only when the element does, so the answer
        is still pending (None): true after `SessionEnded`, false after
        `ElementError`; a saved volume outside [0, 2] makes the half-volume element
        reject at once, and the answer is false. */
    method PreviewAudio(file: string, callback: bool, b: Browser) returns (ok: Option<bool>)
      requires Valid()
      modifies this
      ensures Valid()
      ensures ok == None <==> useHTML5Audio && 0.0 <= volume <= 2.0
      ensures useHTML5Audio && 0.0 <= volume <= 1.0 ==>
        currentAudio == Some(ElementSession(file, Gain(volume, Options(Some(0.5), callback)), callback))
      ensures ok == Some(true) ==> currentAudio == Some(WebSession(file, Gain(volume, Options(Some(0.5), callback)), callback))
      ensures ok == Some(false) ==> currentAudio == None
    {
      var r := Play(file, Options(Some(0.5), callback), b);
      ok := match r
        case Started => Some(true)
        case Pending => None
        case Failed(_) => Some(false);
    }

    /** `clearCache`. */
    method ClearCache()
      requires Valid()
      modifies this`audioCache
      ensures Valid()
      ensures audioCache == []
    {
      audioCache := [];
    }

    /** `getCacheSize`: sum of the cached byte lengths. */
    method GetCacheSize() returns (total: nat)
      ensures total == TotalSize(audioCache)
    {
      total := 0;
      var i := 0;
      while i < |audioCache|
        invariant 0 <= i <= |audioCache|
        invariant total + TotalSize(audioCache[i..]) == TotalSize(audioCache)
      {
        assert audioCache[i..][1..] == audioCache[i + 1..];
        total := total + |audioCache[i].1|;
        i := i + 1;
      }
    }

    /** The corrected `getCurrentFile`. */
    function GetCurrentFile(): (r: Option<string>)
      reads this
      ensures r == CurrentFile(currentAudio)
    {
      CurrentFile(currentAudio)
    }
  }

  /** `decodeAudioData` of the bytes. No bytes -- an empty file, or an
      ArrayBuffer an earlier call detached -- never decode. */
  function Decode(bytes: Bytes, b: Browser): (r: Decoded)
    ensures r.Buffer? <==> bytes != [] && b.decodes(bytes)
    ensures r.Buffer? ==> r.bytes == bytes
  {
    if bytes != [] && b.decodes(bytes) then Buffer(bytes) else DecodeError("decodeAudioData failed")
  }

  /** The cache once `decodeAudioData` has detached the entry of `k`: the
      entry keeps its place and has no bytes left. */
  function Detach(c: Cache, k: string): (r: Cache)
    ensures Lookup(r, k) == Some([])
    ensures forall j :: j != k ==> Lookup(r, j) == Lookup(c, j)
    ensures DistinctKeys(c) ==> DistinctKeys(r)
  {
    CacheSetKeepsDistinct(c, k, []);
    forall j ensures Lookup(CacheSet(c, k, []), j) == if j == k then Some([]) else Lookup(c, j) {
      CacheSetLookup(c, k, [], j);
    }
    CacheSet(c, k, [])
  }

  /** As written, a file that decodes from the cache once fails the next
      time, and its bytes drop out of the cache size; the corrected cache
      decodes it again. */
  lemma DetachedReplayFails(c: Cache, file: string, b: Browser)
    requires Lookup(c, file).Some? && Decode(Lookup(c, file).value, b).Buffer?
    ensures Decode(Lookup(Detach(c, file), file).value, b).DecodeError?
    ensures TotalSize(Detach(c, file)) + |Lookup(c, file).value| == TotalSize(c)
    ensures Decode(Lookup(c, file).value, b).Buffer?
  {
    TotalSizeSet(c, file, []);
  }

  /** The cache after trying to cache the files in order. */
  function Preloaded(c: Cache, files: seq<string>, net: string -> Reply): (r: Cache)
    ensures forall k :: k in Keys(c) ==> k in Keys(r)
  {
    if files == [] then c
    else
      var c0 := Preloaded(c, files[..|files| - 1], net);
      var f := files[|files| - 1];
      if net(f).Status? && net(f).ok then CacheSet(c0, f, net(f).body) else c0
  }

  /** Preloading caches exactly the files that answered ok, each with its
      bytes, and keeps what was cached before for the others. */
  lemma {:induction false} PreloadedLookup(c: Cache, files: seq<string>, net: string -> Reply, k: string)
    ensures k in files && net(k).Status? && net(k).ok ==> Lookup(Preloaded(c, files, net), k) == Some(net(k).body)
    ensures (k !in files || !(net(k).Status? && net(k).ok)) ==> Lookup(Preloaded(c, files, net), k) == Lookup(c, k)
  {
    if files != [] {
      var init, f := files[..|files| - 1], files[|files| - 1];
      assert files == init + [f];
      assert k in files <==> k in init || k == f;
      PreloadedLookup(c, init, net, k);
      var c0 := Preloaded(c, init, net);
      if net(f).Status? && net(f).ok {
        CacheSetLookup(c0, f, net(f).body, k);
      } else {
        assert Preloaded(c, files, net) == c0;
      }
    }
  }
}

=== FILE: pwa_scheduler.dfy ===
/** The browser bell engine (`PWAScheduler`): it keeps the schedule list, a
    localStorage backup and an IndexedDB copy of it, fires every schedule
    whose day and `HH:MM` match the clock each time it checks, appends play
    logs to a newest-first log capped at 100 entries, posts them to the server
    while online, and keeps one timer for a reminder a minute before the next
    bell.

    Everything the page reads from its surroundings at a check -- the clock,
    the holiday flag, `Date.now()` and how playing each file turns out -- is
    passed in as a `Tick`; network replies and storage outcomes are
    parameters of the methods that meet them. */
module PwaScheduler {
  import opened Text
  import opened Clock
  import opened JsNumbers
  import opened Schedules

  /** How the audio engine's `play` promise settled for one schedule. */
  datatype PlayOutcome = Played | PlayFailed(message: string)

  /** The environment of one `checkSchedules` call. `weekday` is
      `Date.getDay()` (Sunday is 0), `nowMs` the milliseconds since local
      midnight, `time` the `formatTime(now)` text, `holiday` whether
      localStorage `holiday-mode` reads `'true'`, `stamp` the `Date.now()`
      value and `iso` the ISO text written into logs. */
  datatype Tick = Tick(weekday: nat, nowMs: nat, time: string, holiday: bool, stamp: int, iso: string,
                       outcome: Schedule -> PlayOutcome)

  predicate ValidTick(t: Tick) { t.weekday < 7 && t.nowMs < DayMs }

  /** `time` is what `formatTime` makes of the clock at `nowMs`. */
  predicate ClockReads(t: Tick)
  {
    t.nowMs < DayMs && t.time == FormatTime(t.nowMs / HourMs, (t.nowMs % HourMs) / MinuteMs)
  }

  /** `getDayName(now.getDay())`. */
  function DayOf(t: Tick): string
    requires ValidTick(t)
  {
    JsDayName(t.weekday)
  }

  /** The schedules a check fires: active, for today, at this very minute. */
  function Due(list: seq<Schedule>, t: Tick): (r: seq<Schedule>)
    requires ValidTick(t)
    ensures |r| <= |list|
    ensures forall i :: 0 <= i < |r| ==> r[i].isActive == 1 && r[i].day == DayOf(t) && r[i].time == t.time
  {
    Filter(list, DueAt(DayOf(t), t.time))
  }

  /** The log `logPlay` writes for a schedule after its play settled. */
  function EntryFor(s: Schedule, t: Tick): (r: LogEntry)
    ensures r.scheduleId == s.id && r.scheduleName == s.name && r.audioFile == s.audioFile
    ensures r.id == t.stamp && r.playedAt == t.iso && !r.synced
    ensures r.status == "success" <==> t.outcome(s).Played?
    ensures r.notes == if t.outcome(s).Played? then "" else t.outcome(s).message
  {
    match t.outcome(s)
    case Played => LogEntry(t.stamp, s.id, s.name, s.audioFile, t.iso, "success", "", false)
    case PlayFailed(msg) => LogEntry(t.stamp, s.id, s.name, s.audioFile, t.iso, "failed", msg, false)
  }

  /** The logs written for the fired schedules, in firing order; none in
      holiday mode, where `triggerSchedule` returns before playing. */
  function Entries(due: seq<Schedule>, t: Tick): (r: seq<LogEntry>)
    ensures |r| == if t.holiday then 0 else |due|
  {
    if t.holiday || due == [] then []
    else Entries(due[..|due| - 1], t) + [EntryFor(due[|due| - 1], t)]
  }

  /** One log per fired schedule, naming it, with status "success" exactly
      when it played; nothing at all in holiday mode. */
  lemma {:induction false} EntriesShape(due: seq<Schedule>, t: Tick)
    ensures t.holiday ==> Entries(due, t) == []
    ensures !t.holiday ==> |Entries(due, t)| == |due|
    ensures !t.holiday ==> forall i :: 0 <= i < |due| ==>
      Entries(due, t)[i].scheduleId == due[i].id && Entries(due, t)[i].audioFile == due[i].audioFile &&
      !Entries(due, t)[i].synced &&
      (Entries(due, t)[i].status == "success" <==> t.outcome(due[i]) == Played)
  {
    if !t.holiday && due != [] {
      EntriesShape(due[..|due| - 1], t);
    }
  }

  /** Firing one more due schedule pushes its log on top. */
  lemma EntriesStep(due: seq<Schedule>, i: nat, t: Tick)
    requires i < |due|
    ensures Entries(due[..i + 1], t) == Entries(due[..i], t) + (if t.holiday then [] else [EntryFor(due[i], t)])
  {
    assert due[..i + 1][..i] == due[..i];
  }

  /** Pushing one more entry pushes it on the result so far. */
  lemma PushAllSnoc(logs0: seq<LogEntry>, es: seq<LogEntry>, e: LogEntry)
    ensures PushAll(logs0, es + [e]) == LogPush(PushAll(logs0, es), e)
  {
    assert (es + [e])[..|es|] == es;
  }

  /** The pending reminder timer: whose bell it announces and its delay. */
  datatype Reminder = Reminder(name: string, delayMs: int)

  /** `scheduleNextNotification(n)`: the old timer is cleared and a new one
      set only when more than a minute remains before the bell; the timer
      waits what `setTimeout` makes of that delay. */
  function Arm(n: Schedule, nowMs: nat): (r: Option<Reminder>)
    requires nowMs < DayMs
    ensures r.Some? <==> ReminderDelay(n.time, nowMs).Some? && ReminderDelay(n.time, nowMs).value > 0
    ensures r.Some? ==> r.value.name == n.name && 0 <= r.value.delayMs < 0x8000_0000
    ensures r.Some? && ReminderDelay(n.time, nowMs).value < 0x8000_0000 ==>
      r.value.delayMs == ReminderDelay(n.time, nowMs).value
  {
    match ReminderDelay(n.time, nowMs)
    case Some(d) => if d > 0 then Some(Reminder(n.name, TimerDelay(d))) else None
    case None => None
  }

  /** A bell 2^31 ms or more ahead -- `597:00` is, from any time before
      00:27 -- wraps `setTimeout`'s 32-bit delay to a negative number, so
      the reminder shows at once. */
  lemma FarBellRemindsAtOnce(n: Schedule, a: string, b: string, nowMs: nat)
    requires nowMs < DayMs && AllDigits(a) && AllDigits(b) && n.time == a + [':'] + b
    requires 0x8000_0000 + nowMs + LeadMs <= DigitsValue(a) * HourMs + DigitsValue(b) * MinuteMs < 0x1_0000_0000
    ensures Arm(n, nowMs) == Some(Reminder(n.name, 0))
  {
    JsClockDigits(a, b);
    WrappedDelayArmsNow(n, nowMs, DigitsValue(a), DigitsValue(b), DigitsValue(a) * HourMs + DigitsValue(b) * MinuteMs);
  }

  /** A delay in [2^31, 2^32) wraps to a negative `long`: the timer is due at once. */
  lemma WrappedDelayArmsNow(n: Schedule, nowMs: nat, h: int, m: int, at: int)
    requires nowMs < DayMs && JsClock(n.time) == Some((h, m)) && at == h * HourMs + m * MinuteMs
    requires 0x8000_0000 + nowMs + LeadMs <= at < 0x1_0000_0000
    ensures Arm(n, nowMs) == Some(Reminder(n.name, 0))
  {
    DelayFromClock(n.time, nowMs, h, m, at);
    assert ReminderDelay(n.time, nowMs) == Some(at - nowMs - LeadMs);
  }

  /** For a bell written `HH:MM` later today, the reminder is due one
      minute before it. */
  lemma ArmToday(n: Schedule, nowMs: nat, h: nat, m: nat)
    requires nowMs < DayMs && nowMs < h * HourMs + m * MinuteMs && h < 24 && m < 60
    requires n.time == FormatTime(h, m)
    ensures var at := h * HourMs + m * MinuteMs;
      Arm(n, nowMs) == (if at - nowMs > LeadMs then Some(Reminder(n.name, at - nowMs - LeadMs)) else None)
  {
    JsClockFormatTime(h, m);
    ReminderDelaySameDay(n.time, nowMs, h, m);
  }

  /** `updateNextSchedule`: with a next schedule the reminder is re-armed for
      it; with none the old timer is left alone. */
  function NextReminder(prev: Option<Reminder>, list: seq<Schedule>, t: Tick): (r: Option<Reminder>)
    requires ValidTick(t)
    ensures NextSchedule(list, DayOf(t), t.time).None? ==> r == prev
    ensures NextSchedule(list, DayOf(t), t.time).Some? && r.Some? ==>
      r.value.name == NextSchedule(list, DayOf(t), t.time).value.name && r.value.delayMs < 0x8000_0000
  {
    match NextSchedule(list, DayOf(t), t.time)
    case None => prev
    case Some(n) => Arm(n, t.nowMs)
  }

  /** After a check whose next bell reads `HH:MM`, that bell is later today
      and the pending reminder is the one armed for it (see `ArmToday`). */
  lemma NextReminderToday(list: seq<Schedule>, t: Tick, n: Schedule, h: nat, m: nat)
    requires ValidTick(t) && ClockReads(t) && h < 24 && m < 60
    requires NextSchedule(list, DayOf(t), t.time) == Some(n) && n.time == FormatTime(h, m)
    ensures t.nowMs < h * HourMs + m * MinuteMs
    ensures NextReminder(None, list, t) == Arm(n, t.nowMs)
  {
    NextIsLater(list, t, n);
    TickBefore(t, n, h, m);
    NextReminderIsArm(list, t, n);
  }

  lemma NextIsLater(list: seq<Schedule>, t: Tick, n: Schedule)
    requires ValidTick(t) && NextSchedule(list, DayOf(t), t.time) == Some(n)
    ensures Less(t.time, n.time)
  {
  }

  lemma TickBefore(t: Tick, n: Schedule, h: nat, m: nat)
    requires ClockReads(t) && h < 24 && m < 60
    requires Less(t.time, n.time) && n.time == FormatTime(h, m)
    ensures t.nowMs < h * HourMs + m * MinuteMs
  {
    LaterClockIsLater(t.nowMs, h, m);
  }

  lemma NextReminderIsArm(list: seq<Schedule>, t: Tick, n: Schedule)
    requires ValidTick(t) && NextSchedule(list, DayOf(t), t.time) == Some(n)
    ensures NextReminder(None, list, t) == Arm(n, t.nowMs)
  {
  }

  /** `syncWithServer`'s fetch: no answer (or unreadable JSON), a non-2xx
      status, or the server's list. */
  datatype Fetched = Failed | NotOk | Ok(data: seq<Schedule>)

  /** How the promise of `saveToIndexedDB` settles: the transaction
      commits, the promise rejects (and `saveSchedules` catches it), or the
      promise never settles. */
  datatype IdbSave = Committed | NotWritten | NeverSettles

  /** `saveToIndexedDB` as written. It opens `SchoolBellDB` version 1 with no
      upgrade handler and asks for the `schedules` store without checking
      that it exists. When the store is missing, `transaction` throws inside
      `onsuccess`, and the promise neither resolves nor rejects. No page
      script creates the store. */
  function SaveToIndexedDB(hasStore: bool, commits: bool): (r: IdbSave)
    ensures r == NeverSettles <==> !hasStore
    ensures r == Committed <==> hasStore && commits
  {
    if !hasStore then NeverSettles else if commits then Committed else NotWritten
  }

  /** The corrected save: it checks `objectStoreNames` as `loadFromIndexedDB`
      does, and resolves without writing when the store is missing. */
  function SaveToIndexedDBCorrected(hasStore: bool, commits: bool): (r: IdbSave)
    ensures r != NeverSettles
    ensures r == Committed <==> hasStore && commits
  {
    if hasStore && commits then Committed else NotWritten
  }

  /** With the store present the two saves agree; without it only the
      corrected one settles. */
  lemma SaveVariantsAgree(hasStore: bool, commits: bool)
    ensures hasStore ==> SaveToIndexedDBCorrected(hasStore, commits) == SaveToIndexedDB(hasStore, commits)
    ensures !hasStore ==> (SaveToIndexedDB(hasStore, commits) == NeverSettles &&
      SaveToIndexedDBCorrected(hasStore, commits) == NotWritten)
  {
  }

  /** `syncWithServer` waits for ever: the server's list differs from the
      current one, so it is saved, and the save never settles. */
  predicate SyncHangs(resp: Fetched, current: seq<Schedule>, idb: IdbSave)
  {
    resp.Ok? && resp.data != current && idb == NeverSettles
  }

  /** The corrected `syncPendingLogs` result: a pending log becomes synced
      only when the server took it. */
  function MarkSynced(logs: seq<LogEntry>, delivered: LogEntry -> bool): (r: seq<LogEntry>)
    ensures |r| == |logs|
    ensures forall i :: 0 <= i < |logs| ==> r[i] == logs[i].(synced := r[i].synced)
    ensures forall i :: 0 <= i < |logs| ==> (r[i].synced <==> logs[i].synced || delivered(logs[i]))
  {
    seq(|logs|, i requires 0 <= i < |logs| => MarkOne(logs[i], delivered))
  }

  /** One log after the corrected sync. */
  function MarkOne(e: LogEntry, delivered: LogEntry -> bool): LogEntry
  {
    if !e.synced && delivered(e) then e.(synced := true) else e
  }

  /** `syncPendingLogs` as written: `syncLogToServer` catches every error, so
      the loop marks every pending log synced whatever the server did. */
  function MarkSyncedAsWritten(logs: seq<LogEntry>): (r: seq<LogEntry>)
    ensures |r| == |logs|
    ensures forall i :: 0 <= i < |logs| ==> r[i] == logs[i].(synced := true)
  {
    seq(|logs|, i requires 0 <= i < |logs| => logs[i].(synced := true))
  }

  /** A log the server never received is marked synced by the code as
      written, so it is never sent again; the corrected version keeps it. */
  lemma AsWrittenMarksUndelivered()
    ensures var e := LogEntry(1, 7, "Masuk", "bell.mp3", "2024-01-01T07:00:00.000Z", "success", "", false);
      var nothing := (x: LogEntry) => false;
      MarkSyncedAsWritten([e])[0].synced && !nothing(e) && !MarkSynced([e], nothing)[0].synced
  {
  }

  /** After the sync as written no log is pending, so none is ever sent
      again. */
  lemma {:induction false} AsWrittenLeavesNothingPending(logs: seq<LogEntry>)
    ensures Pending(MarkSyncedAsWritten(logs)) == []
  {
    if logs != [] {
      var n := |logs| - 1;
      AsWrittenLeavesNothingPending(logs[..n]);
      assert MarkSyncedAsWritten(logs)[..n] == MarkSyncedAsWritten(logs[..n]);
    }
  }

  /** Logs still pending after a corrected sync are exactly those the server
      did not take, so the next sync retries them. */
  lemma {:induction false} MarkSyncedKeepsUndelivered(logs: seq<LogEntry>, delivered: LogEntry -> bool)
    ensures Pending(MarkSynced(logs, delivered)) == PendingUndelivered(logs, delivered)
  {
    if logs != [] {
      var r := MarkSynced(logs, delivered);
      var n := |logs| - 1;
      MarkSyncedKeepsUndelivered(logs[..n], delivered);
      assert r[..n] == MarkSynced(logs[..n], delivered);
    }
  }

  /** `logs.filter(log => !log.synced)`. */
  function Pending(logs: seq<LogEntry>): (r: seq<LogEntry>)
    ensures |r| <= |logs|
    ensures forall i :: 0 <= i < |r| ==> !r[i].synced
  {
    if logs == [] then []
    else Pending(logs[..|logs| - 1]) + (if logs[|logs| - 1].synced then [] else [logs[|logs| - 1]])
  }

  lemma PendingStep(logs: seq<LogEntry>, i: nat)
    requires i < |logs|
    ensures Pending(logs[..i + 1]) == Pending(logs[..i]) + (if logs[i].synced then [] else [logs[i]])
  {
    assert logs[..i + 1][..i] == logs[..i];
  }

  function PendingUndelivered(logs: seq<LogEntry>, delivered: LogEntry -> bool): seq<LogEntry>
  {
    if logs == [] then []
    else
      var e := logs[|logs| - 1];
      PendingUndelivered(logs[..|logs| - 1], delivered) + (if e.synced || delivered(e) then [] else [e])
  }

  class PWAScheduler {
    /** `this.schedules` */
    var schedules: seq<Schedule>
    /** localStorage `school-bell-schedules`; None when never written. */
    var backup: Option<seq<Schedule>>
    /** The IndexedDB `schedules` store. */
    var stored: seq<Schedule>
    /** localStorage `school-bell-logs`, newest first. */
    var logs: seq<LogEntry>
    /** Bodies of the `POST /api/logs` requests sent, in order. */
    var posted: seq<LogEntry>
    /** `nextScheduleTimer` while it is pending. */
    var reminder: Option<Reminder>
    /** `checkInterval` is set. */
    var checking: bool
    var isOnline: bool

    /** The state after a check: the due schedules' logs pushed in order,
        posted too when online, and the reminder moved to the next bell. */
    predicate Checked(logs0: seq<LogEntry>, posted0: seq<LogEntry>, reminder0: Option<Reminder>, t: Tick)
      reads this
      requires ValidTick(t)
    {
      var es := Entries(Due(schedules, t), t);
      logs == PushAll(logs0, es) &&
      posted == posted0 + (if isOnline then es else []) &&
      reminder == NextReminder(reminder0, schedules, t)
    }

    constructor (online: bool)
      ensures schedules == [] && backup == None && stored == [] && logs == [] && posted == []
      ensures reminder == None && !checking && isOnline == online
    {
      schedules, backup, stored, logs, posted := [], None, [], [], [];
      reminder, checking, isOnline := None, false, online;
    }

    /** `logPlay`: push the log and, while online, post it. */
    method LogPlay(e: LogEntry)
      modifies this
      ensures logs == LogPush(old(logs), e)
      ensures posted == old(posted) + (if isOnline then [e] else [])
      ensures schedules == old(schedules) && backup == old(backup) && stored == old(stored)
      ensures reminder == old(reminder) && checking == old(checking) && isOnline == old(isOnline)
    {
      logs := LogPush(logs, e);
      if isOnline {
        posted := posted + [e];
      }
    }

    /** `triggerSchedule`: skip in holiday mode, otherwise play and log. */
    method TriggerSchedule(s: Schedule, t: Tick)
      modifies this
      ensures logs == (if t.holiday then old(logs) else LogPush(old(logs), EntryFor(s, t)))
      ensures posted == old(posted) + (if isOnline && !t.holiday then [EntryFor(s, t)] else [])
      ensures schedules == old(schedules) && backup == old(backup) && stored == old(stored)
      ensures reminder == old(reminder) && checking == old(checking) && isOnline == old(isOnline)
    {
      if t.holiday {
        return;
      }
      LogPlay(EntryFor(s, t));
    }

    /** `updateNextSchedule` with `scheduleNextNotification`. */
    method UpdateNextSchedule(t: Tick)
      requires ValidTick(t)
      modifies this`reminder
      ensures reminder == NextReminder(old(reminder), schedules, t)
    {
      var next := NextSchedule(schedules, DayOf(t), t.time);
      if next.Some? {
        ghost var armed := Arm(next.value, t.nowMs);
        reminder := None;
        var delay := ReminderDelay(next.value.time, t.nowMs);
        if delay.Some? && delay.value > 0 {
          reminder := Some(Reminder(next.value.name, TimerDelay(delay.value)));
        }
        assert reminder == armed;
      }
    }

    /** `dueSchedules.forEach(s => this.triggerSchedule(s))`. */
    method TriggerAll(due: seq<Schedule>, t: Tick)
      modifies this
      ensures logs == PushAll(old(logs), Entries(due, t))
      ensures posted == old(posted) + (if isOnline then Entries(due, t) else [])
      ensures schedules == old(schedules) && backup == old(backup) && stored == old(stored)
      ensures reminder == old(reminder) && checking == old(checking) && isOnline == old(isOnline)
    {
      var i := 0;
      ghost var es: seq<LogEntry> := [];
      while i < |due|
        invariant 0 <= i <= |due|
        invariant schedules == old(schedules) && backup == old(backup) && stored == old(stored)
        invariant reminder == old(reminder) && checking == old(checking) && isOnline == old(isOnline)
        invariant es == Entries(due[..i], t)
        invariant logs == PushAll(old(logs), es)
        invariant posted == old(posted) + (if isOnline then es else [])
      {
        EntriesStep(due, i, t);
        PushAllSnoc(old(logs), es, EntryFor(due[i], t));
        TriggerSchedule(due[i], t);
        es := es + (if t.holiday then [] else [EntryFor(due[i], t)]);
        i := i + 1;
      }
      assert due[..|due|] == due;
    }

    /** `checkSchedules`: fire every due schedule, then re-arm the reminder.
        Nothing remembers what already fired, so a second check within the
        same minute fires the same schedules again. */
    method CheckSchedules(t: Tick)
      requires ValidTick(t)
      modifies this
      ensures Checked(old(logs), old(posted), old(reminder), t)
      ensures schedules == old(schedules) && backup == old(backup) && stored == old(stored)
      ensures checking == old(checking) && isOnline == old(isOnline)
    {
      ghost var es := Entries(Due(schedules, t), t);
      TriggerAll(Due(schedules, t), t);
      ghost var logs1, posted1 := logs, posted;
      UpdateNextSchedule(t);
      assert logs == logs1 == PushAll(old(logs), es);
      assert posted == posted1 == old(posted) + (if isOnline then es else []);
    }

    /** `saveSchedules`: the localStorage backup is always written; the
        IndexedDB copy only when its transaction commits. `settled` is
        whether the awaited IndexedDB write settled, so that the caller goes
        on. */
    method SaveSchedules(idb: IdbSave) returns (settled: bool)
      modifies this`backup, this`stored
      ensures backup == Some(schedules)
      ensures stored == if idb == Committed then schedules else old(stored)
      ensures settled <==> idb != NeverSettles
    {
      backup := Some(schedules);
      if idb == Committed {
        stored := schedules;
      }
      settled := idb != NeverSettles;
    }

    /** `syncWithServer`: adopt and save the server's list when it differs. */
    method SyncWithServer(resp: Fetched, idb: IdbSave) returns (settled: bool)
      modifies this`schedules, this`backup, this`stored
      ensures resp.Ok? ==> schedules == resp.data
      ensures !resp.Ok? ==> schedules == old(schedules)
      ensures if resp.Ok? && resp.data != old(schedules)
        then backup == Some(schedules) && stored == (if idb == Committed then schedules else old(stored))
        else backup == old(backup) && stored == old(stored)
      ensures settled <==> !SyncHangs(resp, old(schedules), idb)
    {
      settled := true;
      if resp.Ok? && resp.data != schedules {
        schedules := resp.data;
        settled := SaveSchedules(idb);
      }
    }

    /** `loadSchedules`: online, only the server is asked, and a failed
        request leaves the list as it was; offline, a non-empty IndexedDB copy
        wins, then the localStorage backup. `idbReadable` is false when
        opening or reading the store fails. */
    method LoadSchedules(resp: Fetched, idbReadable: bool, idb: IdbSave) returns (settled: bool)
      modifies this`schedules, this`backup, this`stored
      ensures settled <==> !(isOnline && SyncHangs(resp, old(schedules), idb))
      ensures isOnline ==> schedules == (if resp.Ok? then resp.data else old(schedules))
      ensures isOnline ==> if resp.Ok? && resp.data != old(schedules)
        then backup == Some(schedules) && stored == (if idb == Committed then schedules else old(stored))
        else backup == old(backup) && stored == old(stored)
      ensures !isOnline ==> backup == old(backup) && stored == old(stored)
      ensures !isOnline ==> (schedules ==
        if !idbReadable then old(schedules)
        else if |stored| > 0 then stored
        else if backup.Some? then backup.value
        else old(schedules))
    {
      settled := true;
      if isOnline {
        settled := SyncWithServer(resp, idb);
      } else if idbReadable {
        if |stored| > 0 {
          schedules := stored;
        } else if backup.Some? {
          schedules := backup.value;
        }
      }
    }

    /** `startScheduleChecking`: arm the interval and check at once. */
    method StartScheduleChecking(t: Tick)
      requires ValidTick(t)
      modifies this
      ensures checking
      ensures Checked(old(logs), old(posted), old(reminder), t)
      ensures schedules == old(schedules) && isOnline == old(isOnline)
      ensures backup == old(backup) && stored == old(stored)
    {
      ghost var logs0, posted0, reminder0 := logs, posted, reminder;
      checking := true;
      assert logs == logs0 && posted == posted0 && reminder == reminder0;
      CheckSchedules(t);
    }

    /** `init`: load, ask for the notification permission, then start
        checking. `promptSettles` is false exactly when the browser has a
        `Notification` API and the user leaves its prompt unanswered, so
        `await Notification.requestPermission()` stays pending. When the
        load waits for ever on its save, or the prompt does, `init` never
        gets past it: nothing is checked and no interval is armed. */
    method Init(resp: Fetched, idbReadable: bool, idb: IdbSave, promptSettles: bool, t: Tick)
      requires ValidTick(t)
      modifies this
      ensures isOnline == old(isOnline)
      ensures var hangs := (isOnline && SyncHangs(resp, old(schedules), idb)) || !promptSettles;
        (!hangs ==> checking && Checked(old(logs), old(posted), old(reminder), t)) &&
        (hangs ==> checking == old(checking) && logs == old(logs) && posted == old(posted) && reminder == old(reminder))
      ensures isOnline ==> schedules == (if resp.Ok? then resp.data else old(schedules))
      ensures isOnline ==> if resp.Ok? && resp.data != old(schedules)
        then backup == Some(schedules) && stored == (if idb == Committed then schedules else old(stored))
        else backup == old(backup) && stored == old(stored)
      ensures !isOnline ==> backup == old(backup) && stored == old(stored)
      ensures !isOnline ==> (schedules ==
        if !idbReadable then old(schedules)
        else if |old(stored)| > 0 then old(stored)
        else if old(backup).Some? then old(backup).value
        else old(schedules))
    {
      ghost var schedules0, logs0, posted0, reminder0 := schedules, logs, posted, reminder;
      var settled := LoadSchedules(resp, idbReadable, idb);
      assert settled == !(isOnline && SyncHangs(resp, schedules0, idb));
      assert logs == logs0 && posted == posted0 && reminder == reminder0;
      if settled && promptSettles {
        StartScheduleChecking(t);
        assert Checked(logs0, posted0, reminder0, t);
      }
    }

    /** A visibility change checks again when the page became visible. */
    method HandleVisibilityChange(visible: bool, t: Tick)
      requires ValidTick(t)
      modifies this
      ensures visible ==> Checked(old(logs), old(posted), old(reminder), t)
      ensures !visible ==> logs == old(logs) && posted == old(posted) && reminder == old(reminder)
      ensures schedules == old(schedules) && isOnline == old(isOnline) && checking == old(checking)
    {
      if visible {
        CheckSchedules(t);
      }
    }

    /** `await this.saveSchedules(); this.checkSchedules();`: save, then
        check once the save settled. */
    method SaveThenCheck(idb: IdbSave, t: Tick)
      requires ValidTick(t)
      modifies this
      ensures schedules == old(schedules) && backup == Some(schedules)
      ensures stored == (if idb == Committed then schedules else old(stored))
      ensures checking == old(checking) && isOnline == old(isOnline)
      ensures idb != NeverSettles ==> Checked(old(logs), old(posted), old(reminder), t)
      ensures idb == NeverSettles ==> logs == old(logs) && posted == old(posted) && reminder == old(reminder)
    {
      ghost var logs0, posted0, reminder0 := logs, posted, reminder;
      var settled := SaveSchedules(idb);
      assert logs == logs0 && posted == posted0 && reminder == reminder0;
      if settled {
        CheckSchedules(t);
      }
    }

    /** `addSchedule`: append, save, then check once the save settles. */
    method AddSchedule(s: Schedule, idb: IdbSave, t: Tick)
      requires ValidTick(t)
      modifies this
      ensures schedules == old(schedules) + [s] && backup == Some(schedules)
      ensures stored == (if idb == Committed then schedules else old(stored))
      ensures isOnline == old(isOnline) && checking == old(checking)
      ensures idb != NeverSettles ==> Checked(old(logs), old(posted), old(reminder), t)
      ensures idb == NeverSettles ==> logs == old(logs) && posted == old(posted) && reminder == old(reminder)
    {
      schedules := schedules + [s];
      SaveThenCheck(idb, t);
    }

    /** Replace the first entry with the id by its edited copy (`findIndex`
        then assignment, or `find` then a field write on the found object). */
    method EditSchedule(id: int, e: Edit) returns (found: bool)
      modifies this`schedules
      ensures found == IndexOfId(old(schedules), id).Some?
      ensures schedules == EditFirst(old(schedules), id, e)
    {
      EditFirstAtIndex(schedules, id, e);
      var k := IndexOfId(schedules, id);
      found := k.Some?;
      if found {
        schedules := schedules[k.value := Apply(e, schedules[k.value])];
      }
    }

    /** `updateSchedule`: merge the patch into the first entry with the id;
        an unknown id changes nothing and saves nothing. */
    method UpdateSchedule(id: int, patch: Patch, idb: IdbSave, t: Tick)
      requires ValidTick(t)
      modifies this
      ensures schedules == EditFirst(old(schedules), id, MergeWith(patch))
      ensures isOnline == old(isOnline) && checking == old(checking)
      ensures IndexOfId(old(schedules), id).None? ==> (backup == old(backup) && stored == old(stored) &&
        logs == old(logs) && posted == old(posted) && reminder == old(reminder))
      ensures IndexOfId(old(schedules), id).Some? ==>
        backup == Some(schedules) && stored == (if idb == Committed then schedules else old(stored))
      ensures IndexOfId(old(schedules), id).Some? && idb != NeverSettles ==>
        Checked(old(logs), old(posted), old(reminder), t)
      ensures idb == NeverSettles ==> logs == old(logs) && posted == old(posted) && reminder == old(reminder)
    {
      ghost var logs0, posted0, reminder0 := logs, posted, reminder;
      var found := EditSchedule(id, MergeWith(patch));
      if found {
        SaveThenCheck(idb, t);
        assert idb != NeverSettles ==> Checked(logs0, posted0, reminder0, t);
      }
    }

    /** `deleteSchedule`: drop every entry with the id, then save, even when
        nothing was dropped, and check once the save settles. */
    method DeleteSchedule(id: int, idb: IdbSave, t: Tick)
      requires ValidTick(t)
      modifies this
      ensures schedules == Filter(old(schedules), OtherThan(id)) && backup == Some(schedules)
      ensures stored == (if idb == Committed then schedules else old(stored))
      ensures isOnline == old(isOnline) && checking == old(checking)
      ensures idb != NeverSettles ==> Checked(old(logs), old(posted), old(reminder), t)
      ensures idb == NeverSettles ==> logs == old(logs) && posted == old(posted) && reminder == old(reminder)
    {
      schedules := Filter(schedules, OtherThan(id));
      SaveThenCheck(idb, t);
    }

    /** `toggleSchedule`: flip `is_active` of the first entry with the id. */
    method ToggleSchedule(id: int, idb: IdbSave, t: Tick)
      requires ValidTick(t)
      modifies this
      ensures schedules == EditFirst(old(schedules), id, FlipActive)
      ensures isOnline == old(isOnline) && checking == old(checking)
      ensures IndexOfId(old(schedules), id).None? ==> (backup == old(backup) && stored == old(stored) &&
        logs == old(logs) && posted == old(posted) && reminder == old(reminder))
      ensures IndexOfId(old(schedules), id).Some? ==>
        backup == Some(schedules) && stored == (if idb == Committed then schedules else old(stored))
      ensures IndexOfId(old(schedules), id).Some? && idb != NeverSettles ==>
        Checked(old(logs), old(posted), old(reminder), t)
      ensures idb == NeverSettles ==> logs == old(logs) && posted == old(posted) && reminder == old(reminder)
    {
      ghost var logs0, posted0, reminder0 := logs, posted, reminder;
      var found := EditSchedule(id, FlipActive);
      if found {
        SaveThenCheck(idb, t);
        assert idb != NeverSettles ==> Checked(logs0, posted0, reminder0, t);
      }
    }

    /** The corrected `syncPendingLogs`: post every pending log and mark it
        synced only when the server took it. */
    method SyncPendingLogs(delivered: LogEntry -> bool)
      modifies this`logs, this`posted
      ensures logs == MarkSynced(old(logs), delivered)
      ensures posted == old(posted) + Pending(old(logs))
    {
      var all := logs;
      for i := 0 to |all|
        invariant |logs| == |all|
        invariant forall k :: 0 <= k < i ==> logs[k] == MarkOne(all[k], delivered)
        invariant forall k :: i <= k < |all| ==> logs[k] == all[k]
        invariant posted == old(posted) + Pending(all[..i])
      {
        PendingStep(all, i);
        var e := all[i];
        if !e.synced {
          posted := posted + [e];
          if delivered(e) {
            logs := logs[i := e.(synced := true)];
          }
        }
        assert logs[i] == MarkOne(e, delivered);
      }
      assert all[..|all|] == all;
      forall k | 0 <= k < |all| ensures logs[k] == MarkSynced(all, delivered)[k] {
      }
    }

    /** `syncPendingLogs` as written: every pending log is posted and, since
        `syncLogToServer` swallows its own errors, marked synced. */
    method SyncPendingLogsAsWritten()
      modifies this`logs, this`posted
      ensures logs == MarkSyncedAsWritten(old(logs))
      ensures posted == old(posted) + Pending(old(logs))
    {
      var all := logs;
      for i := 0 to |all|
        invariant |logs| == |all|
        invariant forall k :: 0 <= k < i ==> logs[k] == all[k].(synced := true)
        invariant forall k :: i <= k < |all| ==> logs[k] == all[k]
        invariant posted == old(posted) + Pending(all[..i])
      {
        PendingStep(all, i);
        var e := all[i];
        if !e.synced {
          posted := posted + [e];
          logs := logs[i := e.(synced := true)];
        }
      }
      assert all[..|all|] == all;
    }

    /** `handleOnline` as written: the schedules are synced and every
        pending log ends up marked synced, delivered or not. Neither sync is
        awaited, so a save that never settles holds up nothing here. */
    method HandleOnlineAsWritten(resp: Fetched, idb: IdbSave)
      modifies this
      ensures isOnline
      ensures schedules == (if resp.Ok? then resp.data else old(schedules))
      ensures if resp.Ok? && resp.data != old(schedules)
        then backup == Some(schedules) && stored == (if idb == Committed then schedules else old(stored))
        else backup == old(backup) && stored == old(stored)
      ensures logs == MarkSyncedAsWritten(old(logs))
      ensures posted == old(posted) + Pending(old(logs))
      ensures checking == old(checking) && reminder == old(reminder)
    {
      isOnline := true;
      var _ := SyncWithServer(resp, idb);
      SyncPendingLogsAsWritten();
    }

    /** The corrected `handleOnline`: sync the schedules and the pending logs,
        marking a log synced only when the server took it. */
    method HandleOnline(resp: Fetched, idb: IdbSave, delivered: LogEntry -> bool)
      modifies this
      ensures isOnline
      ensures schedules == (if resp.Ok? then resp.data else old(schedules))
      ensures if resp.Ok? && resp.data != old(schedules)
        then backup == Some(schedules) && stored == (if idb == Committed then schedules else old(stored))
        else backup == old(backup) && stored == old(stored)
      ensures logs == MarkSynced(old(logs), delivered)
      ensures posted == old(posted) + Pending(old(logs))
      ensures checking == old(checking) && reminder == old(reminder)
    {
      isOnline := true;
      var _ := SyncWithServer(resp, idb);
      SyncPendingLogs(delivered);
    }

    method HandleOffline()
      modifies this`isOnline
      ensures !isOnline
    {
      isOnline := false;
    }

    /** `destroy`: stop the interval and the reminder timer. */
    method Destroy()
      modifies this`checking, this`reminder
      ensures !checking && reminder == None
    {
      checking := false;
      reminder := None;
    }
  }

  /** A first start online with the page's own save: the store was never
      created and the server has a bell, so `init` saves the server's list,
      waits for ever, and never starts checking -- no bell rings, however
      the notification prompt is answered. */
  method FirstStartNeverChecks(bell: Schedule, commits: bool, promptSettles: bool, t: Tick) returns (checks: bool)
    requires ValidTick(t)
    ensures !checks
  {
    var p := new PWAScheduler(true);
    p.Init(Ok([bell]), true, SaveToIndexedDB(false, commits), promptSettles, t);
    checks := p.checking;
  }

  /** The same first start with the corrected save and an answered
      notification prompt: checking starts. */
  method FirstStartChecks(bell: Schedule, commits: bool, t: Tick) returns (checks: bool)
    requires ValidTick(t)
    ensures checks
  {
    var p := new PWAScheduler(true);
    p.Init(Ok([bell]), true, SaveToIndexedDBCorrected(false, commits), true, t);
    checks := p.checking;
  }

  /** Example: a Monday check whose clock text is 07:00 fires the 07:00 bell. */
  lemma MondaySevenFires(bell: Schedule, t: Tick)
    requires bell == Schedule(1, "Masuk", "Senin", "07:00", "bell.mp3", 1)
    requires ValidTick(t) && t.weekday == 1 && t.time == "07:00" && !t.holiday
    ensures Due([bell], t) == [bell]
    ensures Entries(Due([bell], t), t) == [EntryFor(bell, t)]
  {
    assert Holds(DueAt(DayOf(t), t.time), bell);
    assert Entries([bell], t) == Entries([], t) + [EntryFor(bell, t)];
  }

  lemma SevenOClock(nowMs: nat)
    requires 7 * HourMs <= nowMs < 7 * HourMs + MinuteMs
    ensures nowMs < DayMs && FormatTime(nowMs / HourMs, (nowMs % HourMs) / MinuteMs) == "07:00"
  {
    assert nowMs / HourMs == 7 && (nowMs % HourMs) / MinuteMs == 0;
    assert Pad2(7) == "07" && Pad2(0) == "00";
  }

  /** Nothing stops a schedule from firing twice in one minute: a check at
      start-up at 07:00:10 and another when the page becomes visible again at
      07:00:50 both find the 07:00 bell due, and each logs it. */
  lemma SameMinuteFiresTwice()
    ensures var bell := Schedule(1, "Masuk", "Senin", "07:00", "bell.mp3", 1);
      var t1 := Tick(1, 7 * HourMs + 10000, "07:00", false, 1, "07:00:10", (s: Schedule) => Played);
      var t2 := t1.(nowMs := 7 * HourMs + 50000, stamp := 2);
      ClockReads(t1) && ClockReads(t2) &&
      Entries(Due([bell], t1), t1) == [EntryFor(bell, t1)] &&
      Entries(Due([bell], t2), t2) == [EntryFor(bell, t2)]
  {
    var bell := Schedule(1, "Masuk", "Senin", "07:00", "bell.mp3", 1);
    var t1 := Tick(1, 7 * HourMs + 10000, "07:00", false, 1, "07:00:10", (s: Schedule) => Played);
    var t2 := t1.(nowMs := 7 * HourMs + 50000, stamp := 2);
    SevenOClock(t1.nowMs);
    SevenOClock(t2.nowMs);
    MondaySevenFires(bell, t1);
    MondaySevenFires(bell, t2);
  }
}

=== FILE: pwa_ui.dfy ===
/** The installable dashboard's controller (`static/js/pwa-ui.js`): today's
    list with its past / next / active marking, the notification tables,
    the connectivity and install state, the volume slider and the
    holiday-mode switch.

    The page's DOM, the toasts' timers and the service worker are outside
    the model; a shown toast is recorded as a (message, type) pair. */
module PwaUi {
  import opened Text
  import opened Clock
  import opened Schedules
  import PwaAudio

  // ---------------------------------------------------------------------
  // Today's list (`displayTodaySchedules`).

  /** `schedule-item` plus ` next`, plus ` active`, or nothing extra. */
  datatype Mark = Next | Active | Plain

  /** One rendered schedule: its mark, whether its play button is disabled
      and its icon. */
  datatype Item = Item(time: string, name: string, audioFile: string, mark: Mark, disabled: bool, icon: string)

  datatype ListView = Placeholder | Items(items: seq<Item>)

  /** `isNext` for the schedule at position `i`: later than now, and its
      position is the first position whose time is later than now. */
  predicate IsNext(s: seq<Schedule>, i: int, now: string)
    requires 0 <= i < |s|
    ensures IsNext(s, i, now) <==> Less(now, s[i].time) && forall j :: 0 <= j < i ==> !Less(now, s[j].time)
  {
    Less(now, s[i].time) && i == FirstLaterIndex(s, now)
  }

  /** The item built for the schedule at position `i`. */
  function ItemAt(s: seq<Schedule>, i: int, now: string): (it: Item)
    requires 0 <= i < |s|
    ensures it.time == s[i].time && it.name == s[i].name && it.audioFile == s[i].audioFile
    ensures it.disabled <==> Less(s[i].time, now)
    ensures it.icon == (if it.disabled then "bi-check-circle" else "bi-play-fill")
    ensures it.mark == Next <==>
      Less(now, s[i].time) && forall j :: 0 <= j < i ==> !Less(now, s[j].time)
    ensures it.mark == Plain <==> Less(s[i].time, now)
  {
    var isPast := Less(s[i].time, now);
    var isNext := IsNext(s, i, now);
    var it := Item(s[i].time, s[i].name, s[i].audioFile,
                   if isNext then Next else if !isPast then Active else Plain,
                   isPast, if isPast then "bi-check-circle" else "bi-play-fill");
    if isNext then LessAsymmetric(now, s[i].time); it else it
  }

  /** `displayTodaySchedules`: the placeholder for an empty list, otherwise
      one item per schedule, in order. */
  function DisplayTodaySchedules(s: seq<Schedule>, now: string): (v: ListView)
    ensures v == Placeholder <==> s == []
    ensures v.Items? ==> |v.items| == |s| && forall i :: 0 <= i < |s| ==> v.items[i] == ItemAt(s, i, now)
  {
    if s == [] then Placeholder
    else Items(seq(|s|, i requires 0 <= i < |s| => ItemAt(s, i, now)))
  }

  /** At most one schedule is marked next. */
  lemma AtMostOneNext(s: seq<Schedule>, now: string, i: int, j: int)
    requires 0 <= i < |s| && 0 <= j < |s|
    requires ItemAt(s, i, now).mark == Next && ItemAt(s, j, now).mark == Next
    ensures i == j
  {
  }

  /** Some schedule is marked next exactly when some schedule is later than
      now; on the sorted list from `getTodaySchedules` it is the earliest of
      those, the one `getNextSchedule` returns. */
  lemma NextIsEarliestLater(s: seq<Schedule>, now: string)
    requires SortedByTime(s)
    ensures (exists i :: 0 <= i < |s| && ItemAt(s, i, now).mark == Next) <==>
      (exists j :: 0 <= j < |s| && Less(now, s[j].time))
    ensures forall i, j :: 0 <= i < |s| && 0 <= j < |s| && ItemAt(s, i, now).mark == Next && Less(now, s[j].time) ==>
      Le(s[i].time, s[j].time)
  {
    var k := FirstLaterIndex(s, now);
    FirstLaterIsEarliest(s, now);
    if exists j :: 0 <= j < |s| && Less(now, s[j].time) {
      assert k >= 0;
      assert ItemAt(s, k, now).mark == Next;
    }
    forall i, j | 0 <= i < |s| && 0 <= j < |s| && ItemAt(s, i, now).mark == Next && Less(now, s[j].time)
      ensures Le(s[i].time, s[j].time)
    {
      assert i == k;
    }
  }

  // ---------------------------------------------------------------------
  // Notification tables.

  /** `getNotificationIcon`: the four known types, any other gives info's. */
  function NotificationIcon(kind: string): (r: string)
    ensures r == "bi-info-circle" <==> kind != "success" && kind != "error" && kind != "warning"
  {
    if kind == "success" then "bi-check-circle"
    else if kind == "error" then "bi-x-circle"
    else if kind == "warning" then "bi-exclamation-triangle"
    else "bi-info-circle"
  }

  /** `getNotificationColor`, with the same fallback. */
  function NotificationColor(kind: string): (r: string)
    ensures r == "#17a2b8" <==> kind != "success" && kind != "error" && kind != "warning"
  {
    if kind == "success" then "#28a745"
    else if kind == "error" then "#dc3545"
    else if kind == "warning" then "#ffc107"
    else "#17a2b8"
  }

  /** The two tables distinguish the same types: two types get the same icon
      exactly when they get the same colour. */
  lemma IconAndColorAgree(a: string, b: string)
    ensures NotificationIcon(a) == NotificationIcon(b) <==> NotificationColor(a) == NotificationColor(b)
  {
  }

  // ---------------------------------------------------------------------
  // Connectivity and audio count.

  /** What `updateConnectivityStatus` writes. */
  datatype Connectivity = Connectivity(indicatorClass: string, text: string, offlineShown: bool, systemStatus: string)

  function ConnectivityView(online: bool): (c: Connectivity)
    ensures c.offlineShown <==> !online
    ensures c.text == (if online then "Online" else "Offline")
  {
    if online then Connectivity("status-indicator online", "Online", false, "Online - Ready")
    else Connectivity("status-indicator offline", "Offline", true, "Offline - Local Mode")
  }

  /** `getAudioCount`: online with an ok reply, the reply's length, which is
      also cached; otherwise the cached list's length, or 0. `reply` is the
      parsed list of an ok response (None when offline, failed or not ok). */
  function AudioCount(online: bool, reply: Option<seq<string>>, cached: Option<seq<string>>): (r: (nat, Option<seq<string>>))
    ensures online && reply.Some? ==> r == (|reply.value|, reply)
    ensures !(online && reply.Some?) ==> r.1 == cached && r.0 == (if cached.Some? then |cached.value| else 0)
  {
    if online && reply.Some? then (|reply.value|, reply)
    else (if cached.Some? then |cached.value| else 0, cached)
  }

  // ---------------------------------------------------------------------
  // The URL's `action` parameter.

  datatype UrlOutcome = Stay | Throws | Shows(page: string)

  /** `handleURLParams` as written: for `action=play` it calls
      `this.showAnnouncements()`, but `showAnnouncements` is installed on
      `window` by `setupQuickActions`, not on the controller, so the call
      throws a TypeError and no page is shown. */
  function HandleURLParamsAsWritten(action: Option<string>): (r: UrlOutcome)
    ensures r != Shows("announcements")
    ensures r == Throws <==> action == Some("play")
  {
    if action == Some("play") then Throws else Stay
  }

  /** The play action from a notification never reaches the announcements
      page. */
  lemma PlayActionShowsNothing()
    ensures HandleURLParamsAsWritten(Some("play")) == Throws
  {
  }

  /** A toast as shown: message and type. */
  type Toast = (string, string)

  class PWAUI {
    var installPrompt: bool
    var promptShown: bool
    var isOnline: bool
    var currentPage: string
    var connectivity: Connectivity
    /** localStorage `holiday-mode`. */
    var holidayStored: Option<string>
    var holidayChecked: bool
    var volumeText: string
    var toasts: seq<Toast>

    /** `new PWAUI()` together with the state-setting steps of its `init`
        that run after `await this.registerServiceWorker()` -- after the
        constructor has returned: `initializeUI` loads the saved holiday mode
        and `startUIUpdates` shows the connectivity view. The service worker, the listeners
        and the timers are not modelled. */
    constructor (online: bool, storedHoliday: Option<string>)
      ensures !installPrompt && !promptShown && isOnline == online && currentPage == "dashboard"
      ensures connectivity == ConnectivityView(online) && toasts == [] && holidayStored == storedHoliday
      ensures holidayChecked <==> storedHoliday == Some("true")
    {
      installPrompt, promptShown, isOnline, currentPage := false, false, online, "dashboard";
      connectivity := ConnectivityView(online);
      holidayStored, holidayChecked, volumeText, toasts := storedHoliday, false, "", [];
      new;
      LoadHolidayMode();
    }

    /** Loading the saved holiday mode: a non-empty saved value sets the
        switch to whether it is `'true'`; an absent or empty one leaves it. */
    method LoadHolidayMode()
      modifies this`holidayChecked
      ensures holidayStored.Some? && holidayStored.value != "" ==> (holidayChecked <==> holidayStored == Some("true"))
      ensures !(holidayStored.Some? && holidayStored.value != "") ==> holidayChecked == old(holidayChecked)
    {
      if holidayStored.Some? && holidayStored.value != "" {
        holidayChecked := holidayStored.value == "true";
      }
    }

    /** `showNotification`. */
    method ShowNotification(message: string, kind: string)
      modifies this`toasts
      ensures toasts == old(toasts) + [(message, kind)]
    {
      toasts := toasts + [(message, kind)];
    }

    /** The `online` listener. */
    method HandleOnline()
      modifies this`isOnline, this`connectivity, this`toasts
      ensures isOnline && connectivity == ConnectivityView(true)
      ensures toasts == old(toasts) + [("Koneksi tersambung kembali", "success")]
    {
      isOnline := true;
      connectivity := ConnectivityView(isOnline);
      ShowNotification("Koneksi tersambung kembali", "success");
    }

    /** The `offline` listener. */
    method HandleOffline()
      modifies this`isOnline, this`connectivity, this`toasts
      ensures !isOnline && connectivity == ConnectivityView(false)
      ensures toasts == old(toasts) + [("Mode offline diaktifkan", "warning")]
    {
      isOnline := false;
      connectivity := ConnectivityView(isOnline);
      ShowNotification("Mode offline diaktifkan", "warning");
    }

    /** The `beforeinstallprompt` listener keeps the event and shows the
        prompt. */
    method BeforeInstallPrompt()
      modifies this`installPrompt, this`promptShown
      ensures installPrompt && promptShown
    {
      installPrompt := true;
      promptShown := installPrompt;
    }

    /** `installApp`: nothing without a kept event; otherwise a success
        toast when the user accepts, and the event and prompt are dropped
        either way. */
    method InstallApp(accepted: bool)
      modifies this`installPrompt, this`promptShown, this`toasts
      ensures !old(installPrompt) ==>
        installPrompt == old(installPrompt) && promptShown == old(promptShown) && toasts == old(toasts)
      ensures old(installPrompt) ==> !installPrompt && !promptShown
      ensures old(installPrompt) ==>
        toasts == old(toasts) + (if accepted then [("Aplikasi berhasil diinstall!", "success")] else [])
    {
      if !installPrompt {
        return;
      }
      if accepted {
        ShowNotification("Aplikasi berhasil diinstall!", "success");
      }
      installPrompt := false;
      promptShown := false;
    }

    /** `showPage`: record the page and announce it. */
    method ShowPage(page: string)
      modifies this`currentPage, this`toasts
      ensures currentPage == page
      ensures toasts == old(toasts) + [("Halaman " + page + " akan segera tersedia", "info")]
    {
      currentPage := page;
      ShowNotification("Halaman " + page + " akan segera tersedia", "info");
    }

    /** `handleURLParams` with the call it evidently means, the quick action
        `showAnnouncements`: `action=play` opens the announcements page. */
    method HandleURLParams(action: Option<string>)
      modifies this`currentPage, this`toasts
      ensures action == Some("play") ==> currentPage == "announcements"
      ensures action != Some("play") ==> currentPage == old(currentPage) && toasts == old(toasts)
    {
      if action == Some("play") {
        ShowPage("announcements");
      }
    }

    /** The holiday switch's `change` listener: store `'true'`/`'false'` and
        announce the new mode. */
    method HolidayChanged(checked: bool)
      modifies this`holidayStored, this`holidayChecked, this`toasts
      ensures holidayStored == Some(if checked then "true" else "false")
      ensures holidayChecked == checked
      ensures toasts == old(toasts) +
        [(if checked then "Mode libur diaktifkan" else "Mode libur dinonaktifkan", "info")]
    {
      holidayChecked := checked;
      holidayStored := Some(if checked then "true" else "false");
      ShowNotification(if checked then "Mode libur diaktifkan" else "Mode libur dinonaktifkan", "info");
    }

    /** The volume slider's `input` listener: show `p%` and hand `p / 100` to
        the player when there is one. */
    method VolumeInput(p: nat, player: PwaAudio.PWAAudioPlayer?)
      requires player != null ==> player.Valid()
      modifies this`volumeText, player
      ensures volumeText == NatToString(p) + "%"
      ensures player != null ==> player.Valid() && player.volume == PwaAudio.Clamp01(p as real / 100.0)
      ensures player != null && p <= 100 ==> player.volume == p as real / 100.0
    {
      volumeText := NatToString(p) + "%";
      if player != null {
        player.SetVolume(p as real / 100.0);
      }
    }
  }
}

=== FILE: schedules.dfy ===
/** Schedule records and the list operations the browser scheduler builds from
    array built-ins: `filter`, a stable `sort` by `time`, `find`/`findIndex`,
    the object spread used by updates, and the play log kept newest-first and
    capped at 100 entries. */
module Schedules {
  import opened Text

  /** A bell schedule as the server's JSON carries it. `isActive` is the raw
      number: matching tests `is_active === 1`, toggling tests truthiness. */
  datatype Schedule = Schedule(id: int, name: string, day: string, time: string, audioFile: string, isActive: int)

  /** The selections the scheduler filters by. */
  datatype Criterion =
    | ActiveOn(day: string)              // `is_active === 1 && day_of_week === day`
    | DueAt(day: string, time: string)   // ... `&& time === currentTime`
    | OtherThan(id: int)                 // `s.id !== id`

  predicate Holds(c: Criterion, s: Schedule)
  {
    match c
    case ActiveOn(day) => s.isActive == 1 && s.day == day
    case DueAt(day, time) => s.isActive == 1 && s.day == day && s.time == time
    case OtherThan(id) => s.id != id
  }

  /** `list.filter(...)`: the entries that meet the criterion, in list order. */
  function Filter(list: seq<Schedule>, c: Criterion): (r: seq<Schedule>)
    ensures |r| <= |list|
    ensures forall i :: 0 <= i < |r| ==> Holds(c, r[i])
  {
    if list == [] then []
    else
      var rest := Filter(list[1..], c);
      if Holds(c, list[0]) then [list[0]] + rest else rest
  }

  /** Filtering keeps every matching entry as often as it occurs, and nothing else. */
  lemma {:induction false} FilterCount(list: seq<Schedule>, c: Criterion)
    ensures forall x :: multiset(Filter(list, c))[x] == if Holds(c, x) then multiset(list)[x] else 0
  {
    if list != [] {
      FilterCount(list[1..], c);
      assert list == [list[0]] + list[1..];
    }
  }

  /** Filtering keeps the order of what it keeps: it distributes over `+`. */
  lemma {:induction false} FilterAppend(a: seq<Schedule>, b: seq<Schedule>, c: Criterion)
    ensures Filter(a + b, c) == Filter(a, c) + Filter(b, c)
  {
    if a == [] {
      assert a + b == b;
    } else {
      assert (a + b)[0] == a[0] && (a + b)[1..] == a[1..] + b;
      FilterAppend(a[1..], b, c);
    }
  }

  // ---------------------------------------------------------------------
  // Sorting by time.

  /** Ascending by `time` as `sort((a, b) => a.time.localeCompare(b.time))`
      leaves it. */
  predicate SortedByTime(s: seq<Schedule>)
  {
    forall i, j :: 0 <= i < j < |s| ==> Le(s[i].time, s[j].time)
  }

  /** Insert `x` in front of the first entry that is not earlier than it, so
      that entries with equal times keep their original order. */
  function InsertByTime(x: Schedule, s: seq<Schedule>): (r: seq<Schedule>)
    ensures multiset(r) == multiset(s) + multiset{x}
  {
    if s == [] then [x]
    else
      assert s == [s[0]] + s[1..];
      if Less(s[0].time, x.time) then [s[0]] + InsertByTime(x, s[1..]) else [x] + s
  }

  lemma {:induction false} InsertByTimeSorted(x: Schedule, s: seq<Schedule>)
    requires SortedByTime(s)
    ensures SortedByTime(InsertByTime(x, s))
  {
    var r := InsertByTime(x, s);
    if s == [] {
    } else if Less(s[0].time, x.time) {
      var rest := InsertByTime(x, s[1..]);
      InsertByTimeSorted(x, s[1..]);
      assert s == [s[0]] + s[1..];
      forall j | 0 < j < |r| ensures Le(s[0].time, r[j].time) {
        assert r[j] == rest[j - 1];
        assert r[j] in multiset(rest);
        if r[j] == x {
          LessAsymmetric(s[0].time, x.time);
        } else {
          assert r[j] in multiset(s[1..]);
          var k :| 0 <= k < |s[1..]| && s[1..][k] == r[j];
          assert s[k + 1] == r[j];
        }
      }
    } else {
      forall j | 0 < j < |r| ensures Le(x.time, r[j].time) {
        if j > 1 { LeTransitive(x.time, s[0].time, r[j].time); }
      }
    }
  }

  /** The stable sort by time. */
  function SortByTime(s: seq<Schedule>): (r: seq<Schedule>)
    ensures multiset(r) == multiset(s)
    ensures SortedByTime(r)
  {
    if s == [] then []
    else
      assert s == [s[0]] + s[1..];
      var t := SortByTime(s[1..]);
      InsertByTimeSorted(s[0], t);
      InsertByTime(s[0], t)
  }

  /** The entries whose time is `tm`, in their order. */
  function AtTime(s: seq<Schedule>, tm: string): (r: seq<Schedule>)
    ensures |r| <= |s|
  {
    if s == [] then [] else (if s[0].time == tm then [s[0]] else []) + AtTime(s[1..], tm)
  }

  lemma {:induction false} InsertByTimeStable(x: Schedule, s: seq<Schedule>, tm: string)
    ensures AtTime(InsertByTime(x, s), tm) == (if x.time == tm then [x] else []) + AtTime(s, tm)
  {
    if s != [] && Less(s[0].time, x.time) {
      var rest := InsertByTime(x, s[1..]);
      InsertByTimeStable(x, s[1..], tm);
      assert s[0].time == tm ==> x.time != tm by { LessIrreflexive(x.time); }
      assert ([s[0]] + rest)[1..] == rest;
    } else if s != [] {
      assert ([x] + s)[1..] == s;
    }
  }

  /** The sort is stable: entries with the same time keep their order. */
  lemma {:induction false} SortByTimeStable(s: seq<Schedule>, tm: string)
    ensures AtTime(SortByTime(s), tm) == AtTime(s, tm)
  {
    if s != [] {
      SortByTimeStable(s[1..], tm);
      InsertByTimeStable(s[0], SortByTime(s[1..]), tm);
    }
  }

  /** `getTodaySchedules`: the active schedules for `day`, earliest first. */
  function TodaySchedules(list: seq<Schedule>, day: string): (r: seq<Schedule>)
    ensures SortedByTime(r)
    ensures forall x :: multiset(r)[x] == if Holds(ActiveOn(day), x) then multiset(list)[x] else 0
  {
    FilterCount(list, ActiveOn(day));
    SortByTime(Filter(list, ActiveOn(day)))
  }

  // ---------------------------------------------------------------------
  // Finding.

  /** `findIndex(s => s.time > now)`; -1 when there is none. */
  function FirstLaterIndex(s: seq<Schedule>, now: string): (k: int)
    ensures -1 <= k < |s|
    ensures k >= 0 ==> Less(now, s[k].time)
    ensures forall i :: 0 <= i < |s| && (k < 0 || i < k) ==> !Less(now, s[i].time)
  {
    if s == [] then -1
    else if Less(now, s[0].time) then 0
    else
      var k := FirstLaterIndex(s[1..], now);
      if k < 0 then -1 else k + 1
  }

  /** In a time-sorted list the first entry later than `now` is the earliest
      of all entries later than `now`. */
  lemma FirstLaterIsEarliest(s: seq<Schedule>, now: string)
    requires SortedByTime(s)
    ensures var k := FirstLaterIndex(s, now);
      k >= 0 ==> forall j :: 0 <= j < |s| && Less(now, s[j].time) ==> Le(s[k].time, s[j].time)
  {
    var k := FirstLaterIndex(s, now);
    if k >= 0 {
      forall j | 0 <= j < |s| && Less(now, s[j].time) ensures Le(s[k].time, s[j].time) {
        if j == k { LessIrreflexive(s[k].time); }
      }
    }
  }

  /** `getNextSchedule`: the earliest active schedule for `day` whose time is
      strictly later than `now`, or none. */
  function NextSchedule(list: seq<Schedule>, day: string, now: string): (r: Option<Schedule>)
    ensures r.Some? ==> r.value in list && Holds(ActiveOn(day), r.value) && Less(now, r.value.time)
    ensures r.Some? ==> forall x :: x in list && Holds(ActiveOn(day), x) && Less(now, x.time) ==> Le(r.value.time, x.time)
    ensures r.None? ==> forall x :: x in list && Holds(ActiveOn(day), x) ==> !Less(now, x.time)
  {
    var today := TodaySchedules(list, day);
    var k := FirstLaterIndex(today, now);
    FirstLaterIsEarliest(today, now);
    forall x | x in list && Holds(ActiveOn(day), x) ensures x in today {
      assert multiset(today)[x] == multiset(list)[x];
    }
    if k < 0 then None
    else
      assert today[k] in multiset(today);
      Some(today[k])
  }

  /** `findIndex(s => s.id === id)`. */
  function IndexOfId(list: seq<Schedule>, id: int): (r: Option<nat>)
    ensures r.Some? ==> r.value < |list| && list[r.value].id == id
    ensures forall i :: 0 <= i < |list| && (r.None? || i < r.value) ==> list[i].id != id
  {
    if list == [] then None
    else if list[0].id == id then Some(0)
    else match IndexOfId(list[1..], id)
      case None => None
      case Some(k) => Some(k + 1)
  }

  // ---------------------------------------------------------------------
  // Editing one entry.

  /** The properties an `updateSchedule` call may carry; absent ones keep
      their old value under `{ ...old, ...patch }`. */
  datatype Patch = Patch(id: Option<int>, name: Option<string>, day: Option<string>,
                         time: Option<string>, audioFile: Option<string>, isActive: Option<int>)

  function Pick<T>(o: Option<T>, old_: T): T
  {
    if o.Some? then o.value else old_
  }

  function Merge(s: Schedule, p: Patch): Schedule
  {
    Schedule(Pick(p.id, s.id), Pick(p.name, s.name), Pick(p.day, s.day),
             Pick(p.time, s.time), Pick(p.audioFile, s.audioFile), Pick(p.isActive, s.isActive))
  }

  /** `is_active ? 0 : 1`: a non-zero number is truthy. */
  function Flip(v: int): (r: int)
    ensures r == 0 || r == 1
    ensures (r == 1) <==> (v == 0)
  {
    if v != 0 then 0 else 1
  }

  datatype Edit = MergeWith(patch: Patch) | FlipActive

  function Apply(e: Edit, s: Schedule): Schedule
  {
    match e
    case MergeWith(p) => Merge(s, p)
    case FlipActive => s.(isActive := Flip(s.isActive))
  }

  /** Edit the first entry with the id; an unknown id changes nothing. */
  function EditFirst(list: seq<Schedule>, id: int, e: Edit): (r: seq<Schedule>)
    ensures |r| == |list|
    ensures (forall i :: 0 <= i < |list| ==> list[i].id != id) ==> r == list
  {
    if list == [] then []
    else if list[0].id == id then [Apply(e, list[0])] + list[1..]
    else [list[0]] + EditFirst(list[1..], id, e)
  }

  /** Only the first entry with the id is edited. */
  lemma {:induction false} EditFirstEditsFirst(list: seq<Schedule>, id: int, e: Edit, k: nat)
    requires k < |list| && list[k].id == id
    requires forall i :: 0 <= i < k ==> list[i].id != id
    ensures EditFirst(list, id, e) == list[k := Apply(e, list[k])]
  {
    if k > 0 {
      forall i | 0 <= i < k - 1 ensures list[1..][i].id != id { assert list[1..][i] == list[i + 1]; }
      EditFirstEditsFirst(list[1..], id, e, k - 1);
    }
  }

  /** Editing the first entry with the id is editing at `findIndex`'s index. */
  lemma EditFirstAtIndex(list: seq<Schedule>, id: int, e: Edit)
    ensures IndexOfId(list, id).None? ==> EditFirst(list, id, e) == list
    ensures IndexOfId(list, id).Some? ==> var k := IndexOfId(list, id).value;
      EditFirst(list, id, e) == list[k := Apply(e, list[k])]
  {
    if IndexOfId(list, id).Some? {
      EditFirstEditsFirst(list, id, e, IndexOfId(list, id).value);
    }
  }

  // ---------------------------------------------------------------------
  // The local play log.

  const LogCap: nat := 100

  /** A play-log entry; `synced` is absent (falsy) on entries the page writes. */
  datatype LogEntry = LogEntry(id: int, scheduleId: int, scheduleName: string, audioFile: string,
                               playedAt: string, status: string, notes: string, synced: bool)

  /** `logs.unshift(log); if (logs.length > 100) logs.splice(100)`. */
  function LogPush(logs: seq<LogEntry>, e: LogEntry): (r: seq<LogEntry>)
    ensures |r| >= 1 && r[0] == e
    ensures |r| == Min(LogCap, |logs| + 1)
    ensures r[1..] == logs[..|r| - 1]
  {
    var l := [e] + logs;
    if |l| > LogCap then l[..LogCap] else l
  }

  /** The log after pushing the entries in order. */
  function PushAll(logs: seq<LogEntry>, es: seq<LogEntry>): seq<LogEntry>
  {
    if es == [] then logs else LogPush(PushAll(logs, es[..|es| - 1]), es[|es| - 1])
  }

  function Reversed<T>(s: seq<T>): (r: seq<T>)
    ensures |r| == |s|
  {
    if s == [] then [] else [s[|s| - 1]] + Reversed(s[..|s| - 1])
  }

  lemma {:induction false} ReversedAt<T>(s: seq<T>, i: nat)
    requires i < |s|
    ensures Reversed(s)[i] == s[|s| - 1 - i]
  {
    if i > 0 { ReversedAt(s[..|s| - 1], i - 1); }
  }

  function Min(a: nat, b: nat): nat { if a < b then a else b }

  /** Ring-buffer semantics: newest first, the oldest dropped past 100. */
  lemma {:induction false} PushAllKeepsNewest(logs: seq<LogEntry>, es: seq<LogEntry>)
    requires |logs| <= LogCap
    ensures PushAll(logs, es) == (Reversed(es) + logs)[..Min(LogCap, |es| + |logs|)]
  {
    if es != [] {
      var init, last := es[..|es| - 1], es[|es| - 1];
      PushAllKeepsNewest(logs, init);
      var x := Reversed(init) + logs;
      var k := Min(LogCap, |x|);
      assert Reversed(es) + logs == [last] + x;
      assert PushAll(logs, es) == LogPush(x[..k], last);
      assert ([last] + x[..k])[..Min(LogCap, k + 1)] == ([last] + x)[..Min(LogCap, |es| + |logs|)];
    }
  }

  /** After at least 100 insertions into an empty log exactly 100 remain:
      the newest, newest first. */
  lemma RingAfterManyInsertions(es: seq<LogEntry>)
    requires |es| >= LogCap
    ensures |PushAll([], es)| == LogCap
    ensures forall i :: 0 <= i < LogCap ==> PushAll([], es)[i] == es[|es| - 1 - i]
  {
    PushAllKeepsNewest([], es);
    assert Reversed(es) + [] == Reversed(es);
    forall i | 0 <= i < LogCap ensures PushAll([], es)[i] == es[|es| - 1 - i] {
      ReversedAt(es, i);
    }
  }
}

=== FILE: text.dfy ===
/** Text helpers shared by the models: decimal text of numbers (Python `str`,
    JavaScript `toString` and `padStart(2, '0')`), the lexicographic order that
    JavaScript and Python use for `<` on strings, ASCII lower-casing, and
    splitting on a separator character. */
module Text {

  datatype Option<T> = None | Some(value: T)

  predicate IsDigit(c: char) { '0' <= c <= '9' }

  predicate AllDigits(s: string) { forall i :: 0 <= i < |s| ==> IsDigit(s[i]) }

  function DigitChar(d: nat): (c: char)
    requires d < 10
    ensures IsDigit(c)
  {
    (('0' as int) + d) as char
  }

  function DigitValue(c: char): nat
    requires IsDigit(c)
  {
    c as int - '0' as int
  }

  /** Value of a string of decimal digits; the empty string is 0. */
  function DigitsValue(s: string): nat
    requires AllDigits(s)
  {
    if s == [] then 0 else 10 * DigitsValue(s[..|s| - 1]) + DigitValue(s[|s| - 1])
  }

  /** An optional sign and at least one decimal digit: Python's `int` on a
      piece without white space, and JavaScript's SignedInteger. */
  function SignedInt(s: string): Option<int>
  {
    if |s| > 1 && (s[0] == '-' || s[0] == '+') && AllDigits(s[1..]) then
      Some(if s[0] == '-' then -(DigitsValue(s[1..]) as int) else DigitsValue(s[1..]))
    else if |s| > 0 && AllDigits(s) then Some(DigitsValue(s))
    else None
  }

  /** Decimal text of a natural number, without leading zeros. */
  function NatToString(n: nat): (s: string)
    ensures |s| >= 1 && AllDigits(s)
    ensures n < 10 ==> |s| == 1
    ensures 10 <= n < 100 ==> |s| == 2
    decreases n
  {
    if n < 10 then [DigitChar(n)] else NatToString(n / 10) + [DigitChar(n % 10)]
  }

  lemma {:induction false} NatToStringValue(n: nat)
    ensures DigitsValue(NatToString(n)) == n
    decreases n
  {
    if n >= 10 {
      NatToStringValue(n / 10);
      var s := NatToString(n);
      assert s[..|s| - 1] == NatToString(n / 10);
      assert DigitValue(DigitChar(n % 10)) == n % 10;
    }
  }

  /** A leading '0' does not change the value of a digit string. */
  lemma {:induction false} LeadingZeroValue(s: string)
    requires AllDigits(s)
    ensures AllDigits("0" + s) && DigitsValue("0" + s) == DigitsValue(s)
    decreases |s|
  {
    var z := "0" + s;
    assert AllDigits(z) by {
      forall i | 0 <= i < |z| ensures IsDigit(z[i]) {
        if i > 0 { assert z[i] == s[i - 1]; }
      }
    }
    if s != [] {
      LeadingZeroValue(s[..|s| - 1]);
      assert z[..|z| - 1] == "0" + s[..|s| - 1];
    }
  }

  /** Decimal text of an integer (Python `str`, JavaScript template text). */
  function IntToString(i: int): (s: string)
    ensures |s| >= 1
  {
    if i < 0 then "-" + NatToString(-i) else NatToString(i)
  }

  /** Different integers have different texts. */
  lemma IntToStringInjective(a: int, b: int)
    requires IntToString(a) == IntToString(b)
    ensures a == b
  {
    var s := IntToString(a);
    IntToStringSign(a);
    IntToStringSign(b);
    if a >= 0 {
      NatToStringValue(a);
      NatToStringValue(b);
    } else {
      assert s[1..] == NatToString(-a) == NatToString(-b);
      NatToStringValue(-a);
      NatToStringValue(-b);
    }
  }

  lemma IntToStringSign(i: int)
    ensures IntToString(i)[0] == '-' <==> i < 0
  {
    if i >= 0 {
      assert IsDigit(NatToString(i)[0]);
    }
  }

  /** JavaScript `n.toString().padStart(2, '0')`. */
  function Pad2(n: nat): (r: string)
    ensures AllDigits(r) && |r| >= 2 && DigitsValue(r) == n
    ensures n < 100 ==> |r| == 2 && r == [DigitChar(n / 10), DigitChar(n % 10)]
  {
    NatToStringValue(n);
    if n < 10 then
      LeadingZeroValue(NatToString(n));
      "0" + NatToString(n)
    else
      NatToString(n)
  }

  // ---------------------------------------------------------------------
  // Lexicographic order of strings (JavaScript and Python `<` on strings).

  predicate Less(a: string, b: string)
  {
    if |a| == 0 then |b| > 0
    else if |b| == 0 then false
    else if a[0] != b[0] then a[0] < b[0]
    else Less(a[1..], b[1..])
  }

  lemma {:induction false} LessIrreflexive(a: string)
    ensures !Less(a, a)
  {
    if |a| > 0 { LessIrreflexive(a[1..]); }
  }

  lemma {:induction false} LessAsymmetric(a: string, b: string)
    requires Less(a, b)
    ensures !Less(b, a)
  {
    if |a| > 0 && |b| > 0 && a[0] == b[0] { LessAsymmetric(a[1..], b[1..]); }
  }

  lemma {:induction false} LessTransitive(a: string, b: string, c: string)
    requires Less(a, b) && Less(b, c)
    ensures Less(a, c)
  {
    if |a| > 0 && a[0] == b[0] && b[0] == c[0] {
      LessTransitive(a[1..], b[1..], c[1..]);
    }
  }

  lemma {:induction false} LessTotal(a: string, b: string)
    ensures a == b || Less(a, b) || Less(b, a)
  {
    if |a| > 0 && |b| > 0 && a[0] == b[0] {
      LessTotal(a[1..], b[1..]);
      if a[1..] == b[1..] {
        assert a == [a[0]] + a[1..] && b == [b[0]] + b[1..];
      }
    }
  }

  /** "Not later than": the order a stable sort by `<` leaves its output in. */
  predicate Le(a: string, b: string) { !Less(b, a) }

  lemma LeTransitive(a: string, b: string, c: string)
    requires Le(a, b) && Le(b, c)
    ensures Le(a, c)
  {
    if Less(c, a) {
      LessTotal(a, b);
      if a == b { } else { LessTransitive(c, a, b); }
    }
  }

  // ---------------------------------------------------------------------
  // Characters and splitting.

  /** ASCII lower-casing (Python `str.lower`, JavaScript `toLowerCase`, on ASCII). */
  function LowerChar(c: char): char
  {
    if 'A' <= c <= 'Z' then (c as int + 32) as char else c
  }

  function Lower(s: string): (r: string)
    ensures |r| == |s|
  {
    seq(|s|, i requires 0 <= i < |s| => LowerChar(s[i]))
  }

  predicate EndsWith(s: string, suffix: string)
  {
    |suffix| <= |s| && s[|s| - |suffix|..] == suffix
  }

  /** JavaScript `s.lastIndexOf(c)` for one character: -1 when absent. */
  function LastIndexOf(s: string, c: char): (r: int)
    ensures -1 <= r < |s|
    ensures r == -1 <==> c !in s
    ensures r >= 0 ==> s[r] == c && c !in s[r + 1..]
    decreases |s|
  {
    if s == [] then -1
    else if s[|s| - 1] == c then |s| - 1
    else
      var r := LastIndexOf(s[..|s| - 1], c);
      assert s == s[..|s| - 1] + [s[|s| - 1]];
      r
  }

  /** `s.split(sep)` in JavaScript and Python: the pieces between separators. */
  function Split(s: string, sep: char): (parts: seq<string>)
    ensures |parts| >= 1
    ensures forall i :: 0 <= i < |parts| ==> sep !in parts[i]
    decreases |s|
  {
    if s == [] then [""]
    else
      var rest := Split(s[1..], sep);
      if s[0] == sep then [""] + rest
      else [[s[0]] + rest[0]] + rest[1..]
  }

  /** Joining the pieces with the separator gives the text back. */
  function Join(parts: seq<string>, sep: char): string
  {
    if parts == [] then ""
    else if |parts| == 1 then parts[0]
    else parts[0] + [sep] + Join(parts[1..], sep)
  }

  lemma {:induction false} SplitJoin(s: string, sep: char)
    ensures Join(Split(s, sep), sep) == s
    decreases |s|
  {
    if s != [] {
      SplitJoin(s[1..], sep);
      var rest := Split(s[1..], sep);
      if s[0] == sep {
        assert Split(s, sep)[1..] == rest;
      } else {
        var p := Split(s, sep);
        if |rest| == 1 {
        } else {
          assert p[1..] == rest[1..];
          assert Join(rest, sep) == rest[0] + [sep] + Join(rest[1..], sep);
        }
      }
    }
  }

  /** Splitting `a + [sep] + b` when neither side holds the separator. */
  lemma {:induction false} SplitTwo(a: string, sep: char, b: string)
    requires sep !in a && sep !in b
    ensures Split(a + [sep] + b, sep) == [a, b]
    decreases |a|
  {
    if a == [] {
      SplitNone(b, sep);
      assert a + [sep] + b == [sep] + b;
      assert ([sep] + b)[1..] == b;
    } else {
      SplitTwo(a[1..], sep, b);
      assert (a + [sep] + b)[1..] == a[1..] + [sep] + b;
      assert [a[0]] + a[1..] == a;
    }
  }

  lemma {:induction false} SplitNone(s: string, sep: char)
    requires sep !in s
    ensures Split(s, sep) == [s]
    decreases |s|
  {
    if s != [] {
      SplitNone(s[1..], sep);
      assert [s[0]] + s[1..] == s;
    }
  }
}
